=== FILE: README.md ===
# Distributed-systems teaching examples, modelled in Dafny

This project models the deterministic core of a set of small Java teaching
programs about distributed systems. It covers five areas.

- **Image tiling and grayscale** (`thread-image-processing`): the image is
  split into one rectangle per thread. The grid has `(int) sqrt(n)` columns
  and `ceil(n / cols)` rows, and the last row and column absorb the
  remainder. Each thread averages the colour bands of the pixels in its
  rectangle. Modules `Tiling`, `Grayscale` and `ImageProcessing`.
- **Chronometers** (`thread-chrono`):
  - the chronometer's start, stop, elapsed time and `HH:MM:SS.mmm` format;
  - the four-entry menu;
  - the main program's list of chronometers, with default names, the
    running list, stopping one by its number and stopping all on exit.

  Modules `Chronometer`, `Menu` and `ChronoApp`.
- **In-memory repositories** (`notes-rmi`, `servlet-shopping`): notes,
  users and shopping carts are kept in a list. Lookup finds the first
  match, update replaces the first match and delete removes the last
  match. Module `SeqStore` holds the shared list logic. Modules
  `NoteRepository`, `UserRepository` and `CartRepository` instantiate it.
- **Entities and JSON**:
  - `escapeJson` and `toJsonArray`;
  - the `toJson` of notes, users, products and carts;
  - the 18-character random identifiers, in both versions of the
    generator.

  Modules `Json`, `Notes`, `Users`, `Products`, `Carts` and `RandomId`.
  Each `toJson` has a reader for its JSON, and the round trip is proved.
- **Servlets** (`servlet-shopping`, `html-response-servlet-shopping`):
  - the JSON `ShoppingCartServlet` and `UserServlet` (modules
    `CartServlet` and `UserServlet`);
  - the HTML versions (modules `CartPages` and `UserPages`), which answer
    with pages and redirects and tunnel `PUT` and `DELETE` through the
    `_method` form parameter;
  - the shared request handling: identifier from the path segment, else
    from a parameter; blank checks; `escapeHtml`; status codes (module
    `Http`, plus `HtmlEscape` and `CartRequests`).

Each handler is a function from the repository contents and the request to
the contents afterwards and the response. Status codes are those of section
15 of RFC 9110 (200, 201, 302, 400, 404). `sendRedirect` answers 302
whatever status was set before it. The Java lists hold references: a cart
returned by a lookup is the object stored in the list, so changing it
changes the list. The model writes the changed cart back at its position
before `updateShoppingCart` runs.

Three things the programs read from outside become parameters:
- the clock is a `now` argument;
- `Math.random()` is a sequence of draws, two per identifier character.
  A draw is the whole number `m` with `0 <= m < 2^53` for the value
  `m * 2^-53`, since `Math.random()` builds its `double` from 53 random bits.
  The product with the range size is rounded to the nearest double, ties to
  even, before the cast truncates it (module `Doubles`);
- threads are run one after another, since their areas are disjoint (proved).

The documentation comment of `ShoppingCart.removeProduct` says that the
first matching product is removed. The loop runs from the end, so the
model follows the code and removes the last one (`Carts.RemoveProductTakesLast`).

## Model

| member | source | states |
|---|---|---|
| Tiling.ISqrt | thread-image-processing/src/main/java/com/sistemasdistribuidos/thread/image/processing/ThreadImageProcessing.java:134-140 | the integer square root: its square is at most n and the next square exceeds n (the truncated Math.sqrt of a perfect or imperfect square) |
| Tiling.CeilDiv | thread-image-processing/src/main/java/com/sistemasdistribuidos/thread/image/processing/ThreadImageProcessing.java:134-140 | the rounded-up quotient: the smallest multiple of b that reaches a |
| Tiling.Cols | thread-image-processing/src/main/java/com/sistemasdistribuidos/thread/image/processing/ThreadImageProcessing.java:134-140 | the grid has between 1 and n columns |
| Tiling.Rows | thread-image-processing/src/main/java/com/sistemasdistribuidos/thread/image/processing/ThreadImageProcessing.java:134-140 | the grid has at least one row and rows times columns is at least the thread count |
| Tiling.DivideImage | thread-image-processing/src/main/java/com/sistemasdistribuidos/thread/image/processing/ThreadImageProcessing.java:134-165 | one rectangle per thread, the k-th being the grid cell k (row k / cols, column k % cols, last row and column absorbing the remainder) |
| Tiling.CellInBounds | thread-image-processing/src/main/java/com/sistemasdistribuidos/thread/image/processing/ThreadImageProcessing.java:145-160 | every rectangle lies inside the image |
| Tiling.CellContains | thread-image-processing/src/main/java/com/sistemasdistribuidos/thread/image/processing/ThreadImageProcessing.java:145-160 | a pixel lies in rectangle k exactly when k is the cell computed from the pixel's row and column band |
| Tiling.CellsDisjoint | thread-image-processing/src/main/java/com/sistemasdistribuidos/thread/image/processing/ThreadImageProcessing.java:145-160 | no pixel lies in two rectangles |
| Tiling.CellsCover | thread-image-processing/src/main/java/com/sistemasdistribuidos/thread/image/processing/ThreadImageProcessing.java:145-160 | when rows times columns equals the thread count, every pixel lies in some rectangle |
| Tiling.FourThreadGrid | thread-image-processing/src/main/java/com/sistemasdistribuidos/thread/image/processing/ThreadImageProcessing.java:23 | four threads give a 2 by 2 grid that is exactly filled |
| Tiling.FiveByFiveExample | thread-image-processing/src/main/java/com/sistemasdistribuidos/thread/image/processing/ThreadImageProcessing.java:134-165 | the four rectangles of a 5 by 5 image are 2x2, 3x2, 2x3 and 3x3 at the expected corners |
| Tiling.FiveThreadsLeaveAGap | thread-image-processing/src/main/java/com/sistemasdistribuidos/thread/image/processing/ThreadImageProcessing.java:134-165 | with five threads (2 columns, 3 rows) the bottom-right pixel of a 5 by 5 image lies in no rectangle |
| Grayscale.SetPixelToGray | thread-image-processing/src/main/java/com/sistemasdistribuidos/thread/image/processing/ImageProcessor.java:122-126 | the first k components become the gray value and the rest are kept |
| Grayscale.GrayPixelIdempotent | thread-image-processing/src/main/java/com/sistemasdistribuidos/thread/image/processing/ImageProcessor.java:59-113 | converting an already gray pixel changes nothing |
| Grayscale.GrayBetween | thread-image-processing/src/main/java/com/sistemasdistribuidos/thread/image/processing/ImageProcessor.java:96-113 | the gray value lies between the smallest and the largest averaged component |
| Grayscale.GrayExamples | thread-image-processing/src/main/java/com/sistemasdistribuidos/thread/image/processing/ImageProcessor.java:96-126 | an RGB pixel averages three bands, a four-band pixel keeps its alpha, a two-band pixel averages both bands |
| Grayscale.ProcessArea | thread-image-processing/src/main/java/com/sistemasdistribuidos/thread/image/processing/ImageProcessor.java:36-48 | the loop over the rectangle produces the raster in which exactly the area's pixels are made gray |
| Grayscale.GrayAreaOutside | thread-image-processing/src/main/java/com/sistemasdistribuidos/thread/image/processing/ImageProcessor.java:36-48 | pixels outside the area are untouched |
| Grayscale.GrayAreaIdempotent | thread-image-processing/src/main/java/com/sistemasdistribuidos/thread/image/processing/ImageProcessor.java:36-48 | processing the same area twice is processing it once |
| Grayscale.GrayAreaCommutes | thread-image-processing/src/main/java/com/sistemasdistribuidos/thread/image/processing/ImageProcessor.java:36-48 | the order in which two threads process their areas does not change the result |
| ImageProcessing.GetFileExtension | thread-image-processing/src/main/java/com/sistemasdistribuidos/thread/image/processing/ThreadImageProcessing.java:173-179 | the format name is never empty, holds no dot and has no ASCII capital letter |
| ImageProcessing.ExtensionAfterLastDot | thread-image-processing/src/main/java/com/sistemasdistribuidos/thread/image/processing/ThreadImageProcessing.java:173-179 | for a name with a dot after its first character, the format is the text after the last dot with ASCII capitals lowered |
| ImageProcessing.TrailingDotDefault | thread-image-processing/src/main/java/com/sistemasdistribuidos/thread/image/processing/ThreadImageProcessing.java:173-179 | any name ending in a dot gives "jpg", whatever dots come before, since the last dot is then the last character |
| ImageProcessing.DefaultExtension | thread-image-processing/src/main/java/com/sistemasdistribuidos/thread/image/processing/ThreadImageProcessing.java:173-179 | a name without a dot, that name followed by a dot, or a name whose only dot is its first character gives "jpg" |
| ImageProcessing.OutputFormat | thread-image-processing/src/main/java/com/sistemasdistribuidos/thread/image/processing/ThreadImageProcessing.java:31 | the output path is written as "jpg" |
| ImageProcessing.EachPixelOnce | thread-image-processing/src/main/java/com/sistemasdistribuidos/thread/image/processing/ThreadImageProcessing.java:74-84 | with four threads each pixel lies in exactly one area |
| ImageProcessing.ProcessImage | thread-image-processing/src/main/java/com/sistemasdistribuidos/thread/image/processing/ThreadImageProcessing.java:74-84 | running the four area conversions one after another makes every pixel of the image gray |
| Chronometer.NewChrono | thread-chrono/src/main/java/com/sistemasdistribuidos/thread/chrono/Chrono.java:68-71 | a new chronometer has the given name, is not running and has no start time |
| Chronometer.Start | thread-chrono/src/main/java/com/sistemasdistribuidos/thread/chrono/Chrono.java:84-103 | starting records the clock reading and sets the running flag |
| Chronometer.StopChrono | thread-chrono/src/main/java/com/sistemasdistribuidos/thread/chrono/Chrono.java:131-134 | stopping clears only the running flag |
| Chronometer.HandleInterruption | thread-chrono/src/main/java/com/sistemasdistribuidos/thread/chrono/Chrono.java:118-120 | an interruption clears only the running flag |
| Chronometer.ElapsedTime | thread-chrono/src/main/java/com/sistemasdistribuidos/thread/chrono/Chrono.java:183-188 | zero before the first start, otherwise the clock reading minus the start time |
| Chronometer.NewChronoShowsZero | thread-chrono/src/main/java/com/sistemasdistribuidos/thread/chrono/Chrono.java:183-188 | a chronometer never started shows zero elapsed time |
| Chronometer.StoppedChronoKeepsCounting | thread-chrono/src/main/java/com/sistemasdistribuidos/thread/chrono/Chrono.java:183-188 | a stopped chronometer's elapsed time still grows with the clock |
| Chronometer.ComponentsRecompose | thread-chrono/src/main/java/com/sistemasdistribuidos/thread/chrono/Chrono.java:146-158 | minutes, seconds and milliseconds are within range and recompose to the elapsed milliseconds |
| Chronometer.ComponentsOfTotal | thread-chrono/src/main/java/com/sistemasdistribuidos/thread/chrono/Chrono.java:146-158 | splitting recomposed in-range components gives them back |
| Chronometer.FormatMillisRoundTrip | thread-chrono/src/main/java/com/sistemasdistribuidos/thread/chrono/Chrono.java:146-158 | reading the HH:MM:SS.mmm text back gives the elapsed milliseconds |
| Chronometer.FormatExample | thread-chrono/src/main/java/com/sistemasdistribuidos/thread/chrono/Chrono.java:142-158 | 1234567 ms is shown as 00:20:34.567 |
| Chronometer.FormattedTime | thread-chrono/src/main/java/com/sistemasdistribuidos/thread/chrono/Chrono.java:146-158 | the shown time has at least the twelve characters of HH:MM:SS.mmm |
| Menu.FindOption | thread-chrono/src/main/java/com/sistemasdistribuidos/thread/chrono/MenuOption.java:54-61 | an option is found exactly when some option has the number, and it has that number |
| Menu.FromValue | thread-chrono/src/main/java/com/sistemasdistribuidos/thread/chrono/MenuOption.java:54-61 | 1 to 4 name an option with that number; every other number gives null |
| Menu.OptionsNumbered | thread-chrono/src/main/java/com/sistemasdistribuidos/thread/chrono/MenuOption.java:11-14 | the four options are numbered 1 to 4 in order and are all the options |
| Menu.ValueInjective | thread-chrono/src/main/java/com/sistemasdistribuidos/thread/chrono/MenuOption.java:11-14 | no two options share a number |
| Menu.FromValueRoundTrip | thread-chrono/src/main/java/com/sistemasdistribuidos/thread/chrono/MenuOption.java:35-61 | looking up an option's number gives the option |
| ChronoApp.ChronoNameInjective | thread-chrono/src/main/java/com/sistemasdistribuidos/thread/chrono/ThreadChronoMain.java:130-132 | different counters give different default names |
| ChronoApp.NamesDistinct | thread-chrono/src/main/java/com/sistemasdistribuidos/thread/chrono/ThreadChronoMain.java:117-142 | under the application invariant no two chronometers share a name |
| ChronoApp.CreateNewChrono | thread-chrono/src/main/java/com/sistemasdistribuidos/thread/chrono/ThreadChronoMain.java:117-142 | a running chronometer with the next default name is appended, the counter advances and names stay distinct |
| ChronoApp.RunningPositions | thread-chrono/src/main/java/com/sistemasdistribuidos/thread/chrono/ThreadChronoMain.java:175-183 | the positions of the running chronometers, increasing, and exactly those |
| ChronoApp.GetRunning | thread-chrono/src/main/java/com/sistemasdistribuidos/thread/chrono/ThreadChronoMain.java:175-183 | the running chronometers in list order |
| ChronoApp.StopSelected | thread-chrono/src/main/java/com/sistemasdistribuidos/thread/chrono/ThreadChronoMain.java:290-294 | the chronometer shown as number index is stopped and every other one is kept |
| ChronoApp.StopSelectedRunning | thread-chrono/src/main/java/com/sistemasdistribuidos/thread/chrono/ThreadChronoMain.java:290-294 | the running list loses exactly the selected chronometer and keeps the others' order |
| ChronoApp.StopChronoCommand | thread-chrono/src/main/java/com/sistemasdistribuidos/thread/chrono/ThreadChronoMain.java:231-246 | nothing changes when none is running or the number is out of range; a valid number stops that running chronometer, and the running list loses exactly it |
| ChronoApp.StopAll | thread-chrono/src/main/java/com/sistemasdistribuidos/thread/chrono/ThreadChronoMain.java:319-325 | every chronometer is stopped with name and start time kept, so none is running |
| ChronoApp.ProcessMenuOption | thread-chrono/src/main/java/com/sistemasdistribuidos/thread/chrono/ThreadChronoMain.java:87-112 | only EXIT ends the loop and it stops every chronometer; CREATE_CHRONO appends a new running chronometer, VIEW_RUNNING changes nothing, STOP_CHRONO carries out stopChrono with the number read; names stay distinct |
| ChronoApp.Session | thread-chrono/src/main/java/com/sistemasdistribuidos/thread/chrono/ThreadChronoMain.java:36-61 | the program ends only by EXIT or by the input ending at the number prompt of stopChrono, and then no chronometer is running; when the input ends at the menu prompt it never ends; names stay distinct |
| ChronoApp.WithoutExitNeverEnds | thread-chrono/src/main/java/com/sistemasdistribuidos/thread/chrono/ThreadChronoMain.java:36-61 | input that never asks to stop or exit leaves main waiting at the menu, with no fewer chronometers running |
| ChronoApp.CreateThenEndOfInput | thread-chrono/src/main/java/com/sistemasdistribuidos/thread/chrono/ThreadChronoMain.java:36-61 | typing 1 and then ending the input leaves main waiting with the new chronometer running |
| Doubles.RoundHalfEven | notes-rmi/src/main/java/com/sistemasdistribuidos/notes/rmi/application/common/RandomIdGenerator.java:41 | the product is rounded to a multiple of the gap between doubles, within half a gap of the exact value, a tie going to the even multiple |
| Doubles.DoubleProduct | notes-rmi/src/main/java/com/sistemasdistribuidos/notes/rmi/application/common/RandomIdGenerator.java:41 | Math.random() * k as Java computes it: a double within half a gap of the exact product, not below the integer under the exact product, and below k |
| RandomId.Scale | notes-rmi/src/main/java/com/sistemasdistribuidos/notes/rmi/application/common/RandomIdGenerator.java:41 | (int) (Math.random() * k) is an index below k: the floor of the exact product, or one more when rounding the product reaches the next integer |
| RandomId.DrawFor | notes-rmi/src/main/java/com/sistemasdistribuidos/notes/rmi/application/common/RandomIdGenerator.java:49-65 | every index below k is selected by some value Math.random() can return |
| RandomId.ScaleRoundsUp | notes-rmi/src/main/java/com/sistemasdistribuidos/notes/rmi/application/common/RandomIdGenerator.java:41 | the draw 6004799503160661 * 2^-53 times 3 is exactly below 2, yet the rounded product picks a lower-case letter |
| RandomId.ScaleSixTenths | notes-rmi/src/main/java/com/sistemasdistribuidos/notes/rmi/application/common/RandomIdGenerator.java:49-53 | the double nearest 0.6 gives the digit 6 although its exact product with 10 is below 6 |
| RandomId.InRange | notes-rmi/src/main/java/com/sistemasdistribuidos/notes/rmi/application/common/RandomIdGenerator.java:49-65 | the drawn character lies in the range |
| RandomId.RandomChar | notes-rmi/src/main/java/com/sistemasdistribuidos/notes/rmi/application/common/RandomIdGenerator.java:40-47 | a digit, upper-case or lower-case letter, the kind picked by the first draw |
| RandomId.ShopRandomChar | lab-applets-servlets/servlet-shopping/src/main/java/com/sistemasdistribuidos/servlet/shopping/application/common/RandomIdGenerator.java:40-61 | the shop generator also gives an identifier character |
| RandomId.ShopRandomCharAgrees | lab-applets-servlets/servlet-shopping/src/main/java/com/sistemasdistribuidos/servlet/shopping/application/common/RandomIdGenerator.java:40-61 | both generators map the same draws to the same character |
| RandomId.IdOf | notes-rmi/src/main/java/com/sistemasdistribuidos/notes/rmi/application/common/RandomIdGenerator.java:15-31 | eighteen identifier characters |
| RandomId.Generate | notes-rmi/src/main/java/com/sistemasdistribuidos/notes/rmi/application/common/RandomIdGenerator.java:24-31 | the loop builds the eighteen-character identifier of the draws |
| RandomId.CharReachable | notes-rmi/src/main/java/com/sistemasdistribuidos/notes/rmi/application/common/RandomIdGenerator.java:40-65 | every digit and letter is produced by some pair of draws |
| RandomId.GenerateReachesEvery | notes-rmi/src/main/java/com/sistemasdistribuidos/notes/rmi/application/common/RandomIdGenerator.java:24-31 | every eighteen-character identifier is produced by some draws |
| Json.EscapeJson | notes-rmi/src/main/java/com/sistemasdistribuidos/notes/rmi/application/common/JsonUtils.java:49-60 | null is written as the empty text |
| Json.EscapeChar | notes-rmi/src/main/java/com/sistemasdistribuidos/notes/rmi/application/common/JsonUtils.java:49-60 | each special character becomes a backslash pair; every other character is kept |
| Json.EscapeJsonIsPerCharacter | notes-rmi/src/main/java/com/sistemasdistribuidos/notes/rmi/application/common/JsonUtils.java:49-60 | the chain of replacements equals escaping each character on its own |
| Json.EscapeJsonShape | notes-rmi/src/main/java/com/sistemasdistribuidos/notes/rmi/application/common/JsonUtils.java:49-60 | the length grows by one per special character, text without one is unchanged, and no raw control character is left |
| Json.EscapeJsonRoundTrip | notes-rmi/src/main/java/com/sistemasdistribuidos/notes/rmi/application/common/JsonUtils.java:49-60 | a JSON string reader gives back the original text and the rest of the input |
| Json.ToJsonArray | notes-rmi/src/main/java/com/sistemasdistribuidos/notes/rmi/application/common/JsonUtils.java:31-41 | an empty array is [] and every array is bracketed |
| Json.ToJsonArrayCons | notes-rmi/src/main/java/com/sistemasdistribuidos/notes/rmi/application/common/JsonUtils.java:31-41 | the elements are written in order, comma-separated |
| Json.Object2RoundTrip | notes-rmi/src/main/java/com/sistemasdistribuidos/notes/rmi/application/note/Note.java:65-68 | a two-field object written with escaped values reads back to the two values |
| SeqStore.Find | notes-rmi/src/main/java/com/sistemasdistribuidos/notes/rmi/middleware/NoteRepository.java:54-61 | nothing is found exactly when no element has the key; otherwise an element with it |
| SeqStore.Update | notes-rmi/src/main/java/com/sistemasdistribuidos/notes/rmi/middleware/NoteRepository.java:85-93 | the length is kept, the value is returned exactly when some element had its key, and otherwise nothing changes |
| SeqStore.DeleteLast | notes-rmi/src/main/java/com/sistemasdistribuidos/notes/rmi/middleware/NoteRepository.java:102-109 | the last element with the key is removed; without one nothing changes |
| SeqStore.AppendFind | notes-rmi/src/main/java/com/sistemasdistribuidos/notes/rmi/middleware/NoteRepository.java:54-75 | after an append, earlier elements still win the lookup and the new one is found when its key was absent |
| SeqStore.UpdateFind | notes-rmi/src/main/java/com/sistemasdistribuidos/notes/rmi/middleware/NoteRepository.java:54-93 | after a successful update the key finds the new value |
| SeqStore.UpdateKeepsOthers | notes-rmi/src/main/java/com/sistemasdistribuidos/notes/rmi/middleware/NoteRepository.java:85-93 | elements with other keys are untouched, in order |
| SeqStore.DeleteLastEffect | notes-rmi/src/main/java/com/sistemasdistribuidos/notes/rmi/middleware/NoteRepository.java:102-109 | one element with the key fewer, elements with other keys untouched |
| SeqStore.DeleteLastKeepsFirst | notes-rmi/src/main/java/com/sistemasdistribuidos/notes/rmi/middleware/NoteRepository.java:54-109 | with duplicate keys, the element the lookup finds survives a delete |
| SeqStore.AppendKeepsDistinct | notes-rmi/src/main/java/com/sistemasdistribuidos/notes/rmi/middleware/NoteRepository.java:71-75 | appending an absent key keeps keys distinct |
| SeqStore.UpdateKeepsDistinct | notes-rmi/src/main/java/com/sistemasdistribuidos/notes/rmi/middleware/NoteRepository.java:85-93 | an update keeps keys distinct |
| SeqStore.DeleteKeepsDistinct | notes-rmi/src/main/java/com/sistemasdistribuidos/notes/rmi/middleware/NoteRepository.java:102-109 | a delete keeps keys distinct |
| SeqStore.DeleteGone | notes-rmi/src/main/java/com/sistemasdistribuidos/notes/rmi/middleware/NoteRepository.java:102-109 | with distinct keys, the deleted key is no longer found |
| Notes.NewNote | notes-rmi/src/main/java/com/sistemasdistribuidos/notes/rmi/application/note/Note.java:28-31 | a new note has a fresh identifier and the given text |
| Notes.SetText | notes-rmi/src/main/java/com/sistemasdistribuidos/notes/rmi/application/note/Note.java:38-40 | only the text changes |
| Notes.ToJson | notes-rmi/src/main/java/com/sistemasdistribuidos/notes/rmi/application/note/Note.java:65-68 | the note is written as a JSON object |
| Notes.JsonRoundTrip | notes-rmi/src/main/java/com/sistemasdistribuidos/notes/rmi/application/note/Note.java:65-68 | reading the JSON back gives the note, with a null text read as empty |
| Notes.NullTextWrittenEmpty | notes-rmi/src/main/java/com/sistemasdistribuidos/notes/rmi/application/note/Note.java:65-68 | a null text is written exactly like an empty one |
| NoteRepository.GetNoteById | notes-rmi/src/main/java/com/sistemasdistribuidos/notes/rmi/middleware/NoteRepository.java:54-61 | a null identifier or one no note has gives null; otherwise a note with that identifier |
| NoteRepository.CreateNote | notes-rmi/src/main/java/com/sistemasdistribuidos/notes/rmi/middleware/NoteRepository.java:71-75 | the new note, with a fresh identifier and the given text, is appended |
| NoteRepository.UpdateNote | notes-rmi/src/main/java/com/sistemasdistribuidos/notes/rmi/middleware/NoteRepository.java:85-93 | the note replaces the first note with its identifier and nothing else changes; without one nothing changes and null is returned |
| NoteRepository.UpdateNoteOrNull | notes-rmi/src/main/java/com/sistemasdistribuidos/notes/rmi/middleware/NoteRepository.java:85-93 | a null note answers null on an empty list and fails on a null dereference otherwise, changing nothing; a real note is UpdateNote |
| NoteRepository.DeleteNoteById | notes-rmi/src/main/java/com/sistemasdistribuidos/notes/rmi/middleware/NoteRepository.java:102-109 | the last note with the identifier is removed and the others keep their order; otherwise nothing changes |
| NoteRepository.CreateThenGet | notes-rmi/src/main/java/com/sistemasdistribuidos/notes/rmi/middleware/NoteRepository.java:54-75 | a created note with a new identifier is found, and notes found before still are |
| NoteRepository.UpdateThenGet | notes-rmi/src/main/java/com/sistemasdistribuidos/notes/rmi/middleware/NoteRepository.java:54-93 | after an update the identifier finds the new note and identifiers stay distinct |
| NoteRepository.DeleteThenGet | notes-rmi/src/main/java/com/sistemasdistribuidos/notes/rmi/middleware/NoteRepository.java:54-109 | with distinct identifiers, a deleted note is gone and the others are untouched |
| Products.ToJson | lab-applets-servlets/html-response-servlet-shopping/src/main/java/com/sistemasdistribuidos/servlet/shopping/application/product/Product.java:55-57 | the product is written as a JSON object |
| Products.JsonRoundTrip | lab-applets-servlets/html-response-servlet-shopping/src/main/java/com/sistemasdistribuidos/servlet/shopping/application/product/Product.java:55-57 | reading the JSON back gives the product |
| Products.ArrayRoundTrip | lab-applets-servlets/servlet-shopping/src/main/java/com/sistemasdistribuidos/servlet/shopping/application/cart/ShoppingCart.java:88-99 | reading a JSON array of products back gives the products in order |
| Users.NewUser | lab-applets-servlets/servlet-shopping/src/main/java/com/sistemasdistribuidos/servlet/shopping/application/user/User.java:28-31 | a new user has a fresh identifier and the given name |
| Users.SetName | lab-applets-servlets/servlet-shopping/src/main/java/com/sistemasdistribuidos/servlet/shopping/application/user/User.java:38-40 | only the name changes |
| Users.JsonRoundTrip | lab-applets-servlets/servlet-shopping/src/main/java/com/sistemasdistribuidos/servlet/shopping/application/user/User.java:65-67 | reading the JSON back gives the user |
| Users.SetNameJson | lab-applets-servlets/servlet-shopping/src/main/java/com/sistemasdistribuidos/servlet/shopping/application/user/User.java:38-67 | a renamed user reads back with the same identifier and the new name |
| UserRepository.GetUserById | lab-applets-servlets/servlet-shopping/src/main/java/com/sistemasdistribuidos/servlet/shopping/application/user/UserRepository.java:42-49 | null exactly when no user has the identifier; otherwise a user with it |
| UserRepository.CreateUser | lab-applets-servlets/servlet-shopping/src/main/java/com/sistemasdistribuidos/servlet/shopping/application/user/UserRepository.java:57-61 | the new user, with a fresh identifier and the given name, is appended |
| UserRepository.UpdateUser | lab-applets-servlets/servlet-shopping/src/main/java/com/sistemasdistribuidos/servlet/shopping/application/user/UserRepository.java:69-77 | the user replaces the first user with its identifier and nothing else changes; without one nothing changes and null is returned |
| UserRepository.DeleteUserById | lab-applets-servlets/servlet-shopping/src/main/java/com/sistemasdistribuidos/servlet/shopping/application/user/UserRepository.java:84-91 | the last user with the identifier is removed and the others keep their order; otherwise nothing changes |
| UserRepository.CreateThenGet | lab-applets-servlets/servlet-shopping/src/main/java/com/sistemasdistribuidos/servlet/shopping/application/user/UserRepository.java:42-61 | a created user with a new identifier is found, and users found before still are |
| UserRepository.UpdateThenGet | lab-applets-servlets/servlet-shopping/src/main/java/com/sistemasdistribuidos/servlet/shopping/application/user/UserRepository.java:42-77 | after an update the identifier finds the new user, the others are untouched and identifiers stay distinct |
| UserRepository.DeleteThenGet | lab-applets-servlets/servlet-shopping/src/main/java/com/sistemasdistribuidos/servlet/shopping/application/user/UserRepository.java:42-91 | with distinct identifiers, a deleted user is gone and the others are untouched |
| Carts.NewCart | lab-applets-servlets/servlet-shopping/src/main/java/com/sistemasdistribuidos/servlet/shopping/application/cart/ShoppingCart.java:32-35 | a new cart belongs to the user and is empty |
| Carts.AddProduct | lab-applets-servlets/servlet-shopping/src/main/java/com/sistemasdistribuidos/servlet/shopping/application/cart/ShoppingCart.java:60-62 | the product is appended and the earlier products are kept |
| Carts.RemoveProduct | lab-applets-servlets/servlet-shopping/src/main/java/com/sistemasdistribuidos/servlet/shopping/application/cart/ShoppingCart.java:71-80 | the last product with the same name and brand is removed; without one the cart is unchanged |
| Carts.RemoveProductMultiset | lab-applets-servlets/servlet-shopping/src/main/java/com/sistemasdistribuidos/servlet/shopping/application/cart/ShoppingCart.java:71-80 | as a bag, the products lose exactly one copy of the product |
| Carts.RemoveAfterAdd | lab-applets-servlets/servlet-shopping/src/main/java/com/sistemasdistribuidos/servlet/shopping/application/cart/ShoppingCart.java:60-80 | removing the product just added gives the cart back |
| Carts.RemoveProductTakesLast | lab-applets-servlets/servlet-shopping/src/main/java/com/sistemasdistribuidos/servlet/shopping/application/cart/ShoppingCart.java:66-80 | of two equal products it is the later one that goes |
| Carts.WriteJson | lab-applets-servlets/servlet-shopping/src/main/java/com/sistemasdistribuidos/servlet/shopping/application/cart/ShoppingCart.java:88-99 | the string builder loop writes the cart's JSON |
| Carts.JsonRoundTrip | lab-applets-servlets/servlet-shopping/src/main/java/com/sistemasdistribuidos/servlet/shopping/application/cart/ShoppingCart.java:88-99 | reading the JSON back gives the cart |
| CartRepository.GetByUserId | lab-applets-servlets/servlet-shopping/src/main/java/com/sistemasdistribuidos/servlet/shopping/application/cart/ShoppingCartRepository.java:42-49 | null exactly when no cart has the owner; otherwise a cart of that owner |
| CartRepository.Create | lab-applets-servlets/servlet-shopping/src/main/java/com/sistemasdistribuidos/servlet/shopping/application/cart/ShoppingCartRepository.java:57-61 | an empty cart for the user is appended and returned |
| CartRepository.UpdateCart | lab-applets-servlets/servlet-shopping/src/main/java/com/sistemasdistribuidos/servlet/shopping/application/cart/ShoppingCartRepository.java:69-77 | the cart replaces the first cart of its owner and nothing else changes; without one nothing changes and null is returned |
| CartRepository.DeleteByUserId | lab-applets-servlets/servlet-shopping/src/main/java/com/sistemasdistribuidos/servlet/shopping/application/cart/ShoppingCartRepository.java:84-91 | the last cart of the owner is removed and the others keep their order; otherwise nothing changes |
| CartRepository.CreateThenGet | lab-applets-servlets/servlet-shopping/src/main/java/com/sistemasdistribuidos/servlet/shopping/application/cart/ShoppingCartRepository.java:42-61 | a created cart is found when its owner had none; an existing cart still wins the lookup |
| CartRepository.UpdateThenGet | lab-applets-servlets/servlet-shopping/src/main/java/com/sistemasdistribuidos/servlet/shopping/application/cart/ShoppingCartRepository.java:42-77 | after an update the owner finds the new cart, others are untouched and owners stay distinct |
| CartRepository.DeleteThenGet | lab-applets-servlets/servlet-shopping/src/main/java/com/sistemasdistribuidos/servlet/shopping/application/cart/ShoppingCartRepository.java:42-91 | with one cart per owner, a deleted cart is gone and the others are untouched |
| CartRepository.DeleteDuplicateKeepsFirst | lab-applets-servlets/servlet-shopping/src/main/java/com/sistemasdistribuidos/servlet/shopping/application/cart/ShoppingCartRepository.java:42-91 | with two carts of one owner, deleting removes the later and the lookup still finds the first |
| Http.StatusOf | lab-applets-servlets/html-response-servlet-shopping/src/main/java/com/sistemasdistribuidos/servlet/shopping/middleware/ShoppingCartServlet.java:391-397 | a redirect answers 302 whatever status was set before |
| Http.ExtractPathParameter | lab-applets-servlets/servlet-shopping/src/main/java/com/sistemasdistribuidos/servlet/shopping/middleware/ShoppingCartServlet.java:241-248 | a path longer than the slash gives the rest after the first character; otherwise null |
| Http.ExtractSegment | lab-applets-servlets/servlet-shopping/src/main/java/com/sistemasdistribuidos/servlet/shopping/middleware/ShoppingCartServlet.java:241-248 | the path /x gives x |
| Http.ResolveId | lab-applets-servlets/servlet-shopping/src/main/java/com/sistemasdistribuidos/servlet/shopping/middleware/ShoppingCartServlet.java:62-67 | the path segment when there is one, else the request parameter |
| Http.PathWins | lab-applets-servlets/servlet-shopping/src/main/java/com/sistemasdistribuidos/servlet/shopping/middleware/ShoppingCartServlet.java:62-67 | a path segment is taken over any parameter |
| Http.Dispatch | lab-applets-servlets/html-response-servlet-shopping/src/main/java/com/sistemasdistribuidos/servlet/shopping/middleware/ShoppingCartServlet.java:349-356 | PUT and DELETE in any letter case select those handlers; anything else, or none, adds |
| Http.DispatchByLowerCase | lab-applets-servlets/html-response-servlet-shopping/src/main/java/com/sistemasdistribuidos/servlet/shopping/middleware/ShoppingCartServlet.java:349-356 | for every _method text, PUT is chosen exactly when it lower-cases to "put", DELETE exactly when it lower-cases to "delete", and the add otherwise |
| Http.DispatchExamples | lab-applets-servlets/html-response-servlet-shopping/src/main/java/com/sistemasdistribuidos/servlet/shopping/middleware/ShoppingCartServlet.java:349-356 | "put" updates, "Delete" deletes, "PATCH" and none add |
| HtmlEscape.EscapeHtml | lab-applets-servlets/html-response-servlet-shopping/src/main/java/com/sistemasdistribuidos/servlet/shopping/middleware/ShoppingCartServlet.java:324-333 | null gives the empty text |
| HtmlEscape.EscapeHtmlIsPerCharacter | lab-applets-servlets/html-response-servlet-shopping/src/main/java/com/sistemasdistribuidos/servlet/shopping/middleware/UserServlet.java:280-289 | the chain of replacements equals replacing each special character by its entity on its own |
| HtmlEscape.EscapeHtmlShape | lab-applets-servlets/html-response-servlet-shopping/src/main/java/com/sistemasdistribuidos/servlet/shopping/middleware/UserServlet.java:280-289 | no special character other than the entities' ampersands is left and plain text is unchanged |
| HtmlEscape.EscapeHtmlRoundTrip | lab-applets-servlets/html-response-servlet-shopping/src/main/java/com/sistemasdistribuidos/servlet/shopping/middleware/ShoppingCartServlet.java:324-333 | decoding the five entities gives the original text back |
| HtmlEscape.UnescapeAround | lab-applets-servlets/html-response-servlet-shopping/src/main/java/com/sistemasdistribuidos/servlet/shopping/middleware/ShoppingCartServlet.java:324-333 | escaped text inside plain text decodes to the text as received |
| CartRequests.RequestedProduct | lab-applets-servlets/servlet-shopping/src/main/java/com/sistemasdistribuidos/servlet/shopping/middleware/ShoppingCartServlet.java:111-129 | no product exactly when the name or the brand is missing or blank; otherwise both trimmed and non-empty |
| CartRequests.Apply | lab-applets-servlets/servlet-shopping/src/main/java/com/sistemasdistribuidos/servlet/shopping/middleware/ShoppingCartServlet.java:127-130 | the cart keeps its owner; an add appends, a remove takes the last copy out |
| CartRequests.EditCart | lab-applets-servlets/servlet-shopping/src/main/java/com/sistemasdistribuidos/servlet/shopping/middleware/ShoppingCartServlet.java:123-131 | the changed cart is found under its owner afterwards; a cart is added exactly when the lookup missed |
| CartRequests.EditUnpadded | lab-applets-servlets/servlet-shopping/src/main/java/com/sistemasdistribuidos/servlet/shopping/middleware/ShoppingCartServlet.java:123-131 | for an identifier without surrounding blanks, the user's cart gets the change, other carts are untouched and owners stay distinct |
| CartRequests.EditKeepsTrimmed | lab-applets-servlets/servlet-shopping/src/main/java/com/sistemasdistribuidos/servlet/shopping/middleware/ShoppingCartServlet.java:123-131 | owners stay stored trimmed |
| CartRequests.PaddedMisses | lab-applets-servlets/servlet-shopping/src/main/java/com/sistemasdistribuidos/servlet/shopping/middleware/ShoppingCartServlet.java:123 | a padded identifier finds no trimmed owner |
| CartRequests.PaddedOverwrites | lab-applets-servlets/servlet-shopping/src/main/java/com/sistemasdistribuidos/servlet/shopping/middleware/ShoppingCartServlet.java:123-131 | as written, a padded identifier of a user with a cart overwrites that cart with a fresh one and appends a second copy |
| CartRequests.PaddedExample | lab-applets-servlets/servlet-shopping/src/main/java/com/sistemasdistribuidos/servlet/shopping/middleware/ShoppingCartServlet.java:123-131 | bob's cart with milk becomes two carts holding only bread after adding bread for " bob" |
| CartRequests.EditCartTrimmed | lab-applets-servlets/servlet-shopping/src/main/java/com/sistemasdistribuidos/servlet/shopping/middleware/ShoppingCartServlet.java:123-131 | the corrected request: the changed cart is found under its owner |
| CartRequests.TrimmedKeepsProducts | lab-applets-servlets/servlet-shopping/src/main/java/com/sistemasdistribuidos/servlet/shopping/middleware/ShoppingCartServlet.java:123-131 | with the trimmed lookup any identifier changes the user's own cart, keeping its products and the other carts |
| CartServlet.Get | lab-applets-servlets/servlet-shopping/src/main/java/com/sistemasdistribuidos/servlet/shopping/middleware/ShoppingCartServlet.java:57-86 | 404 exactly for a non-empty identifier with no cart, 200 otherwise, every cart when there is no identifier |
| CartServlet.GetFound | lab-applets-servlets/servlet-shopping/src/main/java/com/sistemasdistribuidos/servlet/shopping/middleware/ShoppingCartServlet.java:57-86 | a found cart is answered with JSON that reads back to it |
| CartServlet.Modify | lab-applets-servlets/servlet-shopping/src/main/java/com/sistemasdistribuidos/servlet/shopping/middleware/ShoppingCartServlet.java:99-191 | 400 exactly for a blank identifier or a missing product, with nothing changed; otherwise 200 and a body that reads back to the cart now stored |
| CartServlet.Delete | lab-applets-servlets/servlet-shopping/src/main/java/com/sistemasdistribuidos/servlet/shopping/middleware/ShoppingCartServlet.java:203-232 | 400 for a blank identifier, 404 when no cart has it, otherwise 200 with one cart fewer; nothing changes unless 200 |
| CartServlet.PostThenGet | lab-applets-servlets/servlet-shopping/src/main/java/com/sistemasdistribuidos/servlet/shopping/middleware/ShoppingCartServlet.java:57-139 | for an unpadded identifier, a GET after a POST reads back the old products followed by the new one |
| CartServlet.PutThenGet | lab-applets-servlets/servlet-shopping/src/main/java/com/sistemasdistribuidos/servlet/shopping/middleware/ShoppingCartServlet.java:57-191 | for an unpadded identifier, a GET after a PUT reads back the cart with the product removed |
| CartServlet.ModifyThenGet | lab-applets-servlets/servlet-shopping/src/main/java/com/sistemasdistribuidos/servlet/shopping/middleware/ShoppingCartServlet.java:57-191 | for an unpadded identifier, a GET after a successful POST or PUT reads back the user's earlier products with the change applied |
| CartServlet.DeleteThenGet | lab-applets-servlets/servlet-shopping/src/main/java/com/sistemasdistribuidos/servlet/shopping/middleware/ShoppingCartServlet.java:57-232 | with one cart per owner, a GET after a DELETE answers 404 and other carts are untouched |
| CartPages.GetPage | lab-applets-servlets/html-response-servlet-shopping/src/main/java/com/sistemasdistribuidos/servlet/shopping/middleware/ShoppingCartServlet.java:57-86 | the cart page, the doubly escaped 404 page exactly for a non-empty identifier with no cart, or the list |
| CartPages.NotFoundShowsEscaped | lab-applets-servlets/html-response-servlet-shopping/src/main/java/com/sistemasdistribuidos/servlet/shopping/middleware/ShoppingCartServlet.java:76 | as written, the 404 page shows the identifier escaped, because generateErrorHtml escapes the already escaped message again (line 313) |
| CartPages.NotFoundMisnamesUser | lab-applets-servlets/html-response-servlet-shopping/src/main/java/com/sistemasdistribuidos/servlet/shopping/middleware/ShoppingCartServlet.java:76 | as written, an identifier holding < is not shown as it was received |
| CartPages.NotFoundOnceNamesUser | lab-applets-servlets/html-response-servlet-shopping/src/main/java/com/sistemasdistribuidos/servlet/shopping/middleware/ShoppingCartServlet.java:296-313 | a message built from the raw identifier and escaped once by generateErrorHtml shows the identifier as received, with no raw special character in the markup |
| CartPages.Edit | lab-applets-servlets/html-response-servlet-shopping/src/main/java/com/sistemasdistribuidos/servlet/shopping/middleware/ShoppingCartServlet.java:358-455 | 400 exactly for a blank identifier or missing product with nothing changed; otherwise the cart is changed and the answer redirects to the identifier |
| CartPages.AddPage | lab-applets-servlets/html-response-servlet-shopping/src/main/java/com/sistemasdistribuidos/servlet/shopping/middleware/ShoppingCartServlet.java:358-402 | as Edit, adding the product |
| CartPages.PutPage | lab-applets-servlets/html-response-servlet-shopping/src/main/java/com/sistemasdistribuidos/servlet/shopping/middleware/ShoppingCartServlet.java:415-455 | as Edit, removing the product |
| CartPages.DeletePage | lab-applets-servlets/html-response-servlet-shopping/src/main/java/com/sistemasdistribuidos/servlet/shopping/middleware/ShoppingCartServlet.java:467-497 | 400, the doubly escaped 404 page (line 486), or a redirect to the list with one cart fewer; nothing changes unless redirected |
| CartPages.PostPage | lab-applets-servlets/html-response-servlet-shopping/src/main/java/com/sistemasdistribuidos/servlet/shopping/middleware/ShoppingCartServlet.java:346-356 | the _method parameter selects the update, the delete or the add handler |
| CartPages.AddThenFollow | lab-applets-servlets/html-response-servlet-shopping/src/main/java/com/sistemasdistribuidos/servlet/shopping/middleware/ShoppingCartServlet.java:381-394 | for an unpadded identifier, following the redirect shows the cart with the product at the end |
| CartPages.PutThenFollow | lab-applets-servlets/html-response-servlet-shopping/src/main/java/com/sistemasdistribuidos/servlet/shopping/middleware/ShoppingCartServlet.java:415-455 | for an unpadded identifier, following the redirect of a PUT shows the cart with the last copy of the product taken out |
| CartPages.DeleteThenFollow | lab-applets-servlets/html-response-servlet-shopping/src/main/java/com/sistemasdistribuidos/servlet/shopping/middleware/ShoppingCartServlet.java:467-497 | with one cart per owner, following the redirect of a delete lists the carts without the user's, the others untouched |
| CartPages.PaddedRedirectNotFound | lab-applets-servlets/html-response-servlet-shopping/src/main/java/com/sistemasdistribuidos/servlet/shopping/middleware/ShoppingCartServlet.java:381-394 | as written, an identifier with a leading blank redirects to a page that answers 404 |
| CartPages.AddTrimmed | lab-applets-servlets/html-response-servlet-shopping/src/main/java/com/sistemasdistribuidos/servlet/shopping/middleware/ShoppingCartServlet.java:381-394 | the corrected add redirects to the trimmed identifier |
| CartPages.TrimmedRedirectFound | lab-applets-servlets/html-response-servlet-shopping/src/main/java/com/sistemasdistribuidos/servlet/shopping/middleware/ShoppingCartServlet.java:381-394 | with the corrected add, following the redirect shows the user's cart for any identifier |
| UserServlet.Get | lab-applets-servlets/servlet-shopping/src/main/java/com/sistemasdistribuidos/servlet/shopping/middleware/UserServlet.java:56-85 | 404 exactly for a non-empty identifier no user has, 200 otherwise, every user when there is no identifier |
| UserServlet.GetFound | lab-applets-servlets/servlet-shopping/src/main/java/com/sistemasdistribuidos/servlet/shopping/middleware/UserServlet.java:56-85 | a found user is answered with JSON that reads back to it |
| UserServlet.Post | lab-applets-servlets/servlet-shopping/src/main/java/com/sistemasdistribuidos/servlet/shopping/middleware/UserServlet.java:113-132 | 400 exactly for a blank name, with nothing changed; otherwise 201 and a new user with a fresh identifier and the trimmed name appended and returned |
| UserServlet.Put | lab-applets-servlets/servlet-shopping/src/main/java/com/sistemasdistribuidos/servlet/shopping/middleware/UserServlet.java:144-174 | 400 for a blank id parameter, 404 when no user has it, otherwise 200 with the list length kept; nothing changes unless 200 |
| UserServlet.Delete | lab-applets-servlets/servlet-shopping/src/main/java/com/sistemasdistribuidos/servlet/shopping/middleware/UserServlet.java:186-215 | 400, 404, or 200 with one user fewer; nothing changes unless 200 |
| UserServlet.PostThenGet | lab-applets-servlets/servlet-shopping/src/main/java/com/sistemasdistribuidos/servlet/shopping/middleware/UserServlet.java:56-132 | a created user is answered by a GET of its identifier, and users found before still are |
| UserServlet.PutThenGet | lab-applets-servlets/servlet-shopping/src/main/java/com/sistemasdistribuidos/servlet/shopping/middleware/UserServlet.java:56-174 | after a PUT a GET reads back the renamed user (kept name when the name is blank), others untouched |
| UserServlet.PutIgnoresPath | lab-applets-servlets/servlet-shopping/src/main/java/com/sistemasdistribuidos/servlet/shopping/middleware/UserServlet.java:144-158 | a PUT that carries the identifier only in the path, not as the id parameter, is answered 400 and changes nothing |
| UserServlet.DeleteThenGet | lab-applets-servlets/servlet-shopping/src/main/java/com/sistemasdistribuidos/servlet/shopping/middleware/UserServlet.java:56-215 | with distinct identifiers, a GET after a DELETE answers 404 and the other users are untouched |
| UserPages.GetPage | lab-applets-servlets/html-response-servlet-shopping/src/main/java/com/sistemasdistribuidos/servlet/shopping/middleware/UserServlet.java:56-85 | the user page, the doubly escaped 404 page exactly for a non-empty identifier no user has, or the list |
| UserPages.NotFoundShowsEscaped | lab-applets-servlets/html-response-servlet-shopping/src/main/java/com/sistemasdistribuidos/servlet/shopping/middleware/UserServlet.java:75 | as written, the 404 page shows the identifier escaped, because generateErrorHtml escapes the already escaped message again (line 269) |
| UserPages.NotFoundMisnamesUser | lab-applets-servlets/html-response-servlet-shopping/src/main/java/com/sistemasdistribuidos/servlet/shopping/middleware/UserServlet.java:75 | as written, an identifier holding < is not shown as it was received |
| UserPages.NotFoundOnceNamesUser | lab-applets-servlets/html-response-servlet-shopping/src/main/java/com/sistemasdistribuidos/servlet/shopping/middleware/UserServlet.java:252-269 | a message built from the raw identifier and escaped once by generateErrorHtml shows the identifier as received, with no raw special character in the markup |
| UserPages.AddPage | lab-applets-servlets/html-response-servlet-shopping/src/main/java/com/sistemasdistribuidos/servlet/shopping/middleware/UserServlet.java:329-349 | 400 exactly for a blank name with nothing changed; otherwise a user with the trimmed name is appended and the answer redirects to the list |
| UserPages.PutPage | lab-applets-servlets/html-response-servlet-shopping/src/main/java/com/sistemasdistribuidos/servlet/shopping/middleware/UserServlet.java:361-392 | 400, the doubly escaped 404 page (line 377), or a redirect to the user's page exactly when the user exists; nothing changes unless redirected |
| UserPages.DeletePage | lab-applets-servlets/html-response-servlet-shopping/src/main/java/com/sistemasdistribuidos/servlet/shopping/middleware/UserServlet.java:404-434 | 400, the doubly escaped 404 page (line 423), or a redirect to the list with one user fewer; nothing changes unless redirected |
| UserPages.PostPage | lab-applets-servlets/html-response-servlet-shopping/src/main/java/com/sistemasdistribuidos/servlet/shopping/middleware/UserServlet.java:317-327 | the _method parameter selects the update, the delete or the add handler |
| UserPages.PutThenFollow | lab-applets-servlets/html-response-servlet-shopping/src/main/java/com/sistemasdistribuidos/servlet/shopping/middleware/UserServlet.java:361-392 | following the redirect of an update shows the user with the new name |
| UserPages.AddThenFollow | lab-applets-servlets/html-response-servlet-shopping/src/main/java/com/sistemasdistribuidos/servlet/shopping/middleware/UserServlet.java:329-349 | following the redirect of a creation lists every user, the new one last |
| UserPages.DeleteThenFollow | lab-applets-servlets/html-response-servlet-shopping/src/main/java/com/sistemasdistribuidos/servlet/shopping/middleware/UserServlet.java:404-434 | with distinct identifiers, following the redirect of a delete lists the users without the deleted one |

## Left out

- Console, file and network I/O are not modelled: image loading and saving, the RMI server and client, the socket examples, `PrintWriter` output, content types, and the HTML markup of the pages. Pages are modelled as the view they show: detail, list, error title and message.
- Threads, `Thread.sleep` and `join` are not modelled. The image areas are processed one after another, which gives the same result because the areas are disjoint and `Grayscale.GrayAreaCommutes` holds. A chronometer's thread is modelled as starting when it is created.
- `InputMenu` (reading numbers from the console) is not modelled. `ChronoApp.Session` takes the numbers `getIntInput` returns, each with the clock reading at which it is read; how non-numeric text and the rest of a line are skipped is left out.
- ChronoApp.Session: the end of the input is modelled at the two places it can happen. At the menu prompt `getMenuOption` turns the exception into `null` and `main` loops for ever with its chronometers running (`Waiting`); at the number prompt of `stopChrono` the exception reaches `main` and `finally` stops every chronometer (`Closed`). The endless loop is returned as the state it spins in, since a function cannot run for ever.
- ImageProcessing.GetFileExtension: lower-casing is ASCII only. Java's `toLowerCase()` also lowers non-ASCII capitals and follows the default locale (under a Turkish locale `"TIFF"` gives a dotless i), so the contract promises only that no ASCII capital is left. The program calls it only on its constant output path, which is ASCII.
- ImageProcessing.ExtensionAfterLastDot: the same ASCII-only lower-casing as `GetFileExtension`.
- CartPages.Follow: the redirect is taken as written. The `Location` header value drops surrounding whitespace and the browser percent-encodes the URL, which the container decodes; the model takes the path segment back verbatim. `CartPages.PaddedRedirectNotFound` is therefore stated only for an identifier with a leading blank, which these steps keep.
- UserPages.Follow: the same verbatim redirect as `CartPages.Follow`. The path segment of the `Location` value is taken back unchanged, with no header trimming and no URL encoding or decoding.
- The clock and `Math.random()` become parameters: `now` and a sequence of draws. Nothing is said about the distribution of the identifiers beyond `RandomId.GenerateReachesEvery`.
- Chronometer.FormattedTime: requires a non-negative elapsed time. A clock that runs backwards would make Java print negative components, and that case is not modelled.
- Tiling.CellsCover: proved only when rows times columns equals the thread count. For other counts some pixels are in no rectangle, as `Tiling.FiveThreadsLeaveAGap` shows. The program uses four threads, where the grid is exact.
- The padded-identifier case of the cart servlets leaves one cart object at two list positions. Later changes through one position would show in both in Java. The model keeps two equal values, so only the effect of the single request is exact.
- The HTML `doPost` redirect to the cart list, for an empty identifier, cannot be reached because the blank test comes first. The `updatedUser == null` branches of `doPut` cannot be reached either. Both are kept in the model as written.
- The html-response copies of the repositories, `User`, `ShoppingCart`, `JsonUtils` and `RandomIdGenerator` are not part of this model. They are taken to be those of `servlet-shopping` and `notes-rmi`.
- The `servlet-shopping` `Product` and `JsonUtils` are not part of this model. They are taken to be the html-response `Product` and the notes-rmi `JsonUtils`.
- `getNotes`, `getUsers`, `getShoppingCarts` and `getProducts` copy the list into an array. In the model the sequence itself is that copy.
- Integers are unbounded. The image sizes, milliseconds and counters of the programs stay far below 32-bit and 64-bit limits, so no wrap-around is modelled.

## Findings

| source | as written | input that shows it | evidently intended | confidence | as-written member | corrected member |
|---|---|---|---|---|---|---|
| lab-applets-servlets/servlet-shopping/src/main/java/com/sistemasdistribuidos/servlet/shopping/middleware/ShoppingCartServlet.java:123-131 | the cart is looked up under the identifier as received but created under the trimmed identifier; `updateShoppingCart` then writes the new cart over the first cart of the trimmed owner | carts `[bob: milk]`, `POST` with `userId=" bob"`, product bread: the carts become `[bob: bread, bob: bread]` | look the cart up under the trimmed identifier, so bob's cart becomes `[milk, bread]` | not executed | CartRequests.PaddedOverwrites | CartRequests.TrimmedKeepsProducts |
| lab-applets-servlets/html-response-servlet-shopping/src/main/java/com/sistemasdistribuidos/servlet/shopping/middleware/ShoppingCartServlet.java:381-394 | the change is made for the trimmed identifier, but the redirect names the identifier as received | `POST` with `userId=" bob"` and a product: the redirect goes to `/ShoppingCarts/ bob`, whose `GET` answers 404 | redirect to the trimmed identifier, whose page shows the changed cart | not executed | CartPages.PaddedRedirectNotFound | CartPages.TrimmedRedirectFound |
| lab-applets-servlets/html-response-servlet-shopping/src/main/java/com/sistemasdistribuidos/servlet/shopping/middleware/ShoppingCartServlet.java:76 | the 404 message already holds `escapeHtml(userId)`, and `generateErrorHtml` escapes the whole message again (line 313) | `GET /ShoppingCarts/a<b` with no such cart: the page source holds `a&amp;lt;b`, so the browser shows `a&lt;b` | build the message from the raw identifier and let `generateErrorHtml` escape it once, so the page shows `a<b` | not executed | CartPages.NotFoundMisnamesUser | CartPages.NotFoundOnceNamesUser |
| lab-applets-servlets/html-response-servlet-shopping/src/main/java/com/sistemasdistribuidos/servlet/shopping/middleware/UserServlet.java:75 | the 404 message already holds `escapeHtml(id)`, and `generateErrorHtml` escapes the whole message again (line 269) | `GET /Users/a<b` with no such user: the browser shows `a&lt;b` | build the message from the raw identifier and let `generateErrorHtml` escape it once | not executed | UserPages.NotFoundMisnamesUser | UserPages.NotFoundOnceNamesUser |
| lab-applets-servlets/html-response-servlet-shopping/src/main/java/com/sistemasdistribuidos/servlet/shopping/middleware/ShoppingCartServlet.java:486 | `doDelete` builds the same 404 message from `escapeHtml(userId)`, and `generateErrorHtml` escapes it again (line 313); `CartPages.DeletePage` answers with that page | `DELETE /ShoppingCarts/a<b` with no such cart: the browser shows `a&lt;b` | build the message from the raw identifier and escape it once | not executed | CartPages.NotFoundMisnamesUser | CartPages.NotFoundOnceNamesUser |
| lab-applets-servlets/html-response-servlet-shopping/src/main/java/com/sistemasdistribuidos/servlet/shopping/middleware/UserServlet.java:377 | `doPut` builds the same 404 message from `escapeHtml(id)`, and `generateErrorHtml` escapes it again (line 269); `UserPages.PutPage` answers with that page | `PUT /Users` with `id=a<b` and no such user: the browser shows `a&lt;b` | build the message from the raw identifier and escape it once | not executed | UserPages.NotFoundMisnamesUser | UserPages.NotFoundOnceNamesUser |
| lab-applets-servlets/html-response-servlet-shopping/src/main/java/com/sistemasdistribuidos/servlet/shopping/middleware/UserServlet.java:423 | `doDelete` builds the same 404 message from `escapeHtml(id)`, and `generateErrorHtml` escapes it again (line 269); `UserPages.DeletePage` answers with that page | `DELETE /Users/a<b` with no such user: the browser shows `a&lt;b` | build the message from the raw identifier and escape it once | not executed | UserPages.NotFoundMisnamesUser | UserPages.NotFoundOnceNamesUser |

=== FILE: cart.dfy ===
/**
  `ShoppingCart`: the owner's user identifier, fixed at construction, and
  the products in the order they were added.
*/
module Carts {
  import opened Optional
  import opened Text
  import opened Json
  import opened SeqStore
  import opened Products

  datatype Cart = Cart(userId: string, products: seq<Product>)

  /** `new ShoppingCart(userId)`: an empty cart. */
  function NewCart(userId: string): (c: Cart)
    ensures c.userId == userId && c.products == []
  {
    Cart(userId, [])
  }

  /** `addProduct`: appended at the end; the products already there keep their order. */
  function AddProduct(c: Cart, p: Product): (r: Cart)
    ensures r.userId == c.userId
    ensures |r.products| == |c.products| + 1 && r.products[..|c.products|] == c.products
    ensures r.products[|c.products|] == p
  {
    c.(products := c.products + [p])
  }

  /** Products match when name and brand are both equal, which is equality of the two values. */
  function Same(p: Product): Product {
    p
  }

  /**
    `removeProduct`: the scan runs from the end, so of several equal products
    the last is removed; without one the cart is unchanged.
  */
  function RemoveProduct(c: Cart, p: Product): (r: Cart)
    ensures r.userId == c.userId
    ensures p !in c.products ==> r == c
    ensures p in c.products ==>
              exists i :: 0 <= i < |c.products| && c.products[i] == p
                          && (forall j :: i < j < |c.products| ==> c.products[j] != p)
                          && r.products == c.products[..i] + c.products[i + 1..]
  {
    c.(products := DeleteLast(c.products, Same, p))
  }

  /** Dropping position `i` takes one copy of `s[i]` out of the bag. */
  lemma MultisetRemoveAt<T>(s: seq<T>, i: nat)
    requires i < |s|
    ensures multiset(s[..i] + s[i + 1..]) == multiset(s) - multiset{s[i]}
  {
    assert s == s[..i] + [s[i]] + s[i + 1..];
  }

  /** Removing a product takes exactly one copy of it out of the cart's bag of products. */
  lemma RemoveProductMultiset(c: Cart, p: Product)
    ensures multiset(RemoveProduct(c, p).products) == multiset(c.products) - multiset{p}
  {
    var s := c.products;
    if p in s {
      var i :| 0 <= i < |s| && s[i] == p && RemoveProduct(c, p).products == s[..i] + s[i + 1..];
      MultisetRemoveAt(s, i);
    } else {
      assert multiset(s)[p] == 0;
    }
  }

  /** Removing the product just added gives the cart back. */
  lemma RemoveAfterAdd(c: Cart, p: Product)
    ensures RemoveProduct(AddProduct(c, p), p) == c
  {
    var s := c.products + [p];
    LastIndexUnique(s, Same, p, |s| - 1);
    assert s[..|s| - 1] == c.products;
  }

  /** Of two equal products the later one goes: `[p, q, p]` becomes `[p, q]`, not `[q, p]`. */
  lemma RemoveProductTakesLast(userId: string, p: Product, q: Product)
    requires p != q
    ensures RemoveProduct(Cart(userId, [p, q, p]), p) == Cart(userId, [p, q])
  {
    var s := [p, q, p];
    LastIndexUnique(s, Same, p, 2);
    assert s[..2] == [p, q];
  }

  // ---- JSON -------------------------------------------------------------

  /** What `toJson` writes before the products. */
  function Head(userId: string): string {
    UserIdKey + EscapeJson(Some(userId)) + "\",\"products\":["
  }

  /** `toJson`: the head, the products' JSON separated by commas, then `]}`. */
  function ToJson(c: Cart): (r: string)
    ensures |r| >= 2 && r[|r| - 2..] == "]}"
  {
    Head(c.userId) + Join(Jsons(c.products), ",") + "]}"
  }

  /** Joining the first `i + 1` parts, from the join of the first `i`. */
  lemma JoinPrefixStep(parts: seq<string>, i: nat, sep: string)
    requires i < |parts|
    ensures Join(parts[..i + 1], sep) == (if i == 0 then "" else Join(parts[..i], sep) + sep) + parts[i]
  {
    assert parts[..i + 1] == parts[..i] + [parts[i]];
    if i > 0 {
      JoinSnoc(parts[..i], parts[i], sep);
    } else {
      assert parts[..1] == [parts[0]];
    }
  }

  /** The join of the first `i` parts, built the way the loop builds it. */
  function JoinFirst(parts: seq<string>, i: nat, sep: string): string
    requires i <= |parts|
  {
    if i == 0 then "" else if i == 1 then parts[0] else JoinFirst(parts, i - 1, sep) + sep + parts[i - 1]
  }

  /** Joining the first `i` parts by the loop is joining the prefix. */
  lemma {:induction false} JoinFirstIsJoin(parts: seq<string>, i: nat, sep: string)
    requires i <= |parts|
    ensures JoinFirst(parts, i, sep) == Join(parts[..i], sep)
  {
    if i == 0 {
      assert parts[..0] == [];
    } else {
      JoinPrefixStep(parts, i - 1, sep);
      if i > 1 {
        JoinFirstIsJoin(parts, i - 1, sep);
      }
    }
  }

  /** One turn of the `toJson` loop: the separator (none before the first part), then the part. */
  lemma WriteStep(head: string, parts: seq<string>, i: nat, json: string)
    requires i < |parts| && json == head + JoinFirst(parts, i, ",")
    ensures (if i == 0 then json else json + ",") + parts[i] == head + JoinFirst(parts, i + 1, ",")
  {
    if i == 0 {
      AppendAssoc(head, "", parts[i]);
    } else {
      var j := JoinFirst(parts, i, ",");
      AppendAssoc(head, j + ",", parts[i]);
      AppendAssoc(head, j, ",");
    }
  }

  /** The `StringBuilder` loop of `toJson`: a comma before every product but the first. */
  method WriteProducts(head: string, products: seq<Product>) returns (json: string)
    ensures json == head + Join(Jsons(products), ",")
  {
    json := head;
    ghost var parts := Jsons(products);
    var i := 0;
    while i < |products|
      invariant 0 <= i <= |products|
      invariant json == head + JoinFirst(parts, i, ",")
    {
      var part := Products.ToJson(products[i]);
      assert part == parts[i];
      WriteStep(head, parts, i, json);
      if i > 0 {
        json := json + ",";
      }
      json := json + part;
      i := i + 1;
    }
    JoinFirstIsJoin(parts, i, ",");
    assert parts[..i] == parts;
  }

  /** `toJson` as the method writes it: the head, the loop, then the closing brackets. */
  method WriteJson(c: Cart) returns (json: string)
    ensures json == ToJson(c)
  {
    json := WriteProducts(Head(c.userId), c.products);
    json := json + "]}";
  }

  const UserIdKey: string := "{\"userId\":\""
  const ProductsKey: string := ",\"products\":"

  /** The literal pieces `toJson` writes, cut where the reader looks. */
  lemma Pieces()
    ensures "\",\"products\":[" == "\"" + ProductsKey + "["
    ensures "]}" == "]" + "}"
  {
  }

  /** Regrouping with every piece a variable, so no literal is unfolded. */
  lemma Regroup(k1: string, e: string, m: string, j: string, end: string, q: string, k2: string,
                o: string, c: string, b: string, rest: string)
    requires m == q + k2 + o && end == c + b
    ensures k1 + e + m + j + end + rest == k1 + (e + q + (k2 + ((o + j + c) + (b + rest))))
  {
  }

  /** Reads a cart object back; gives the cart and what follows it. */
  function Parse(s: string): (r: Option<(Cart, string)>)
    ensures r.Some? ==> |r.value.1| < |s|
  {
    match Expect(UserIdKey, s)
    case None => None
    case Some(t1) =>
      match ReadStringBody(t1)
      case None => None
      case Some((userId, t2)) =>
        match Expect(ProductsKey, t2)
        case None => None
        case Some(t3) =>
          match ParseArray(t3)
          case None => None
          case Some((products, t4)) =>
            match Expect("}", t4)
            case None => None
            case Some(rest) => Some((Cart(userId, products), rest))
  }

  /** The JSON of a cart reads back as that cart. */
  lemma JsonRoundTrip(c: Cart, rest: string)
    ensures Parse(ToJson(c) + rest) == Some((c, rest))
  {
    var e := EscapeJson(Some(c.userId));
    var arr := ArrayJson(c.products);
    var t4 := "}" + rest;
    var t3 := arr + t4;
    var t2 := ProductsKey + t3;
    var t1 := e + "\"" + t2;
    Pieces();
    Regroup(UserIdKey, e, "\",\"products\":[", Join(Jsons(c.products), ","), "]}",
            "\"", ProductsKey, "[", "]", "}", rest);
    assert ToJson(c) + rest == UserIdKey + t1;
    ExpectPrefix(UserIdKey, t1);
    EscapeJsonRoundTrip(c.userId, t2);
    ExpectPrefix(ProductsKey, t3);
    ArrayRoundTrip(c.products, t4);
    ExpectPrefix("}", rest);
  }
}

=== FILE: cart_pages.dfy ===
/**
  The HTML `ShoppingCartServlet`: the same requests as the JSON servlet,
  answered with pages instead of JSON, a successful change answered with a
  redirect to the page that shows it, and `POST` standing in for `PUT` and
  `DELETE` through the `_method` form parameter. The markup of the pages
  is not modelled, only which page is shown and with what.
*/
module CartPages {
  import opened Optional
  import opened Text
  import opened HtmlEscape
  import opened Http
  import opened Products
  import opened Carts
  import opened CartRepository
  import opened CartRequests
  import opened SeqStore

  /** The page a handler renders. */
  datatype View =
    | CartDetail(cart: Cart)
    | CartList(carts: seq<Cart>)
    | ErrorPage(title: string, message: string)

  const BadRequestTitle: string := "Bad Request"
  const UserIdRequired: string := "User ID parameter is required."
  const ProductRequired: string := "Product name and brand parameters are required."

  /** The 404 view as built: the message holds the identifier, HTML-escaped; the page escapes the message again. */
  function CartNotFound(userId: string): View {
    ErrorPage("Shopping cart not found", "Shopping cart for user ID " + EscapeHtml(Some(userId)) + " does not exist.")
  }

  function UserIdOf(req: Request): Option<string> {
    ResolveId(req, "userId")
  }

  /** Where a change to the user's cart redirects. */
  function CartLocation(contextPath: string, userId: string): string {
    contextPath + "/ShoppingCarts/" + userId
  }

  /** Where a deletion redirects: the list of carts. */
  function ListLocation(contextPath: string): string {
    contextPath + "/ShoppingCarts"
  }

  /** `doGet`: the user's cart, a 404 page, or every cart when no identifier is given. */
  function GetPage(carts: seq<Cart>, req: Request): (r: Reply<View>)
    ensures r.Render?
    ensures r.status == NotFound <==> Present(UserIdOf(req)) && GetByUserId(carts, UserIdOf(req).value).None?
    ensures r.status != NotFound ==> r.status == Ok
    ensures r.status == NotFound ==> r.view == CartNotFound(UserIdOf(req).value)
    ensures r.status == Ok && Present(UserIdOf(req)) ==>
              r.view.CartDetail? && r.view.cart.userId == UserIdOf(req).value
              && GetByUserId(carts, UserIdOf(req).value) == Some(r.view.cart)
    ensures !Present(UserIdOf(req)) ==> r.view == CartList(carts)
  {
    var userId := UserIdOf(req);
    if Present(userId) then
      match GetByUserId(carts, userId.value)
      case Some(c) => Render(Ok, CartDetail(c))
      case None => Render(NotFound, CartNotFound(userId.value))
    else Render(Ok, CartList(carts))
  }

  /**
    What the error box of a page shows: `generateErrorHtml` escapes the
    message, and the browser decodes the references once.
  */
  function Shown(v: View): string
    requires v.ErrorPage?
  {
    UnescapeHtml(EscapeHtml(Some(v.message)))
  }

  /**
    As written, the identifier is escaped twice: once in the message and
    once more with the whole message, so the 404 page shows the escaped
    identifier rather than the identifier as received.
  */
  lemma NotFoundShowsEscaped(userId: string)
    ensures Shown(CartNotFound(userId)) == "Shopping cart for user ID " + EscapeHtml(Some(userId)) + " does not exist."
  {
    EscapeHtmlRoundTrip(CartNotFound(userId).message);
  }

  /** So an identifier holding `<` is not shown as it was received. */
  lemma NotFoundMisnamesUser(userId: string)
    requires '<' in userId
    ensures Shown(CartNotFound(userId)) != "Shopping cart for user ID " + userId + " does not exist."
  {
    NotFoundShowsEscaped(userId);
    EscapeChangesAngle(userId);
    MiddleCancel("Shopping cart for user ID ", EscapeHtml(Some(userId)), userId, " does not exist.");
  }

  /** The intended 404 page: the message holds the identifier as received and is escaped once, with the rest of the message. */
  function CartNotFoundOnce(userId: string): View {
    ErrorPage("Shopping cart not found", "Shopping cart for user ID " + userId + " does not exist.")
  }

  /** The intended page shows the identifier as received, and its markup holds no raw `<`, `>`, `"` or `'`. */
  lemma NotFoundOnceNamesUser(userId: string)
    ensures Shown(CartNotFoundOnce(userId)) == "Shopping cart for user ID " + userId + " does not exist."
    ensures var m := EscapeHtml(Some(CartNotFoundOnce(userId).message));
            forall i :: 0 <= i < |m| ==> !(m[i] in {'<', '>', '"', '\''})
  {
    EscapeHtmlRoundTrip(CartNotFoundOnce(userId).message);
    EscapeHtmlShape(CartNotFoundOnce(userId).message);
  }


  /**
    `doPost` without `_method`: 400 pages for a blank identifier or a
    missing product; otherwise the product is added and the answer
    redirects to the identifier as received. (The redirect to the list is
    taken only for an empty identifier, which the blank test has already
    answered.)
  */
  function AddPage(carts: seq<Cart>, req: Request): (r: (seq<Cart>, Reply<View>))
    ensures StatusOf(r.1) == BadRequest <==> MissingOrBlank(UserIdOf(req)) || RequestedProduct(req).None?
    ensures StatusOf(r.1) == BadRequest ==> r.0 == carts
    ensures StatusOf(r.1) != BadRequest ==>
              r.1 == Redirect(CartLocation(req.contextPath, UserIdOf(req).value))
              && r.0 == EditCart(carts, UserIdOf(req).value, RequestedProduct(req).value, CartRequests.Add).0
  {
    Edit(carts, req, CartRequests.Add)
  }

  /** `doPut`: as `AddPage`, removing the product; the redirect always names the identifier. */
  function PutPage(carts: seq<Cart>, req: Request): (r: (seq<Cart>, Reply<View>))
    ensures StatusOf(r.1) == BadRequest <==> MissingOrBlank(UserIdOf(req)) || RequestedProduct(req).None?
    ensures StatusOf(r.1) == BadRequest ==> r.0 == carts
    ensures StatusOf(r.1) != BadRequest ==>
              r.1 == Redirect(CartLocation(req.contextPath, UserIdOf(req).value))
              && r.0 == EditCart(carts, UserIdOf(req).value, RequestedProduct(req).value, CartRequests.Remove).0
  {
    Edit(carts, req, CartRequests.Remove)
  }

  /** The shared part of `doPost` and `doPut`. */
  function Edit(carts: seq<Cart>, req: Request, change: CartRequests.Change): (r: (seq<Cart>, Reply<View>))
    ensures StatusOf(r.1) == BadRequest <==> MissingOrBlank(UserIdOf(req)) || RequestedProduct(req).None?
    ensures StatusOf(r.1) == BadRequest ==> r.0 == carts
    ensures StatusOf(r.1) != BadRequest ==>
              r.1 == Redirect(CartLocation(req.contextPath, UserIdOf(req).value))
              && r.0 == EditCart(carts, UserIdOf(req).value, RequestedProduct(req).value, change).0
  {
    var userId := UserIdOf(req);
    if MissingOrBlank(userId) then (carts, Render(BadRequest, ErrorPage(BadRequestTitle, UserIdRequired)))
    else match RequestedProduct(req)
      case None => (carts, Render(BadRequest, ErrorPage(BadRequestTitle, ProductRequired)))
      case Some(p) =>
        var after := EditCart(carts, userId.value, p, change).0;
        if Present(userId) then (after, Redirect(CartLocation(req.contextPath, userId.value)))
        else (after, Redirect(ListLocation(req.contextPath)))
  }

  /**
    `doDelete`: 400 for a blank identifier, 404 when no cart has it,
    otherwise the cart is deleted and the answer redirects to the list.
  */
  function DeletePage(carts: seq<Cart>, req: Request): (r: (seq<Cart>, Reply<View>))
    ensures StatusOf(r.1) == BadRequest <==> MissingOrBlank(UserIdOf(req))
    ensures StatusOf(r.1) == NotFound <==> !MissingOrBlank(UserIdOf(req)) && GetByUserId(carts, UserIdOf(req).value).None?
    ensures StatusOf(r.1) == Found <==> !MissingOrBlank(UserIdOf(req)) && GetByUserId(carts, UserIdOf(req).value).Some?
    ensures StatusOf(r.1) != Found ==> r.0 == carts
    ensures StatusOf(r.1) == NotFound ==> r.1 == Render(NotFound, CartNotFound(UserIdOf(req).value))
    ensures StatusOf(r.1) == Found ==> r.1 == Redirect(ListLocation(req.contextPath)) && |r.0| == |carts| - 1
  {
    var userId := UserIdOf(req);
    if MissingOrBlank(userId) then (carts, Render(BadRequest, ErrorPage(BadRequestTitle, UserIdRequired)))
    else match GetByUserId(carts, userId.value)
      case None => (carts, Render(NotFound, CartNotFound(userId.value)))
      case Some(_) => (DeleteByUserId(carts, userId.value), Redirect(ListLocation(req.contextPath)))
  }

  /** `doPost`: the `_method` parameter picks the handler. */
  function PostPage(carts: seq<Cart>, req: Request): (r: (seq<Cart>, Reply<View>))
    ensures Dispatch(Param(req, "_method")) == PutAction ==> r == PutPage(carts, req)
    ensures Dispatch(Param(req, "_method")) == DeleteAction ==> r == DeletePage(carts, req)
    ensures Dispatch(Param(req, "_method")) == AddAction ==> r == AddPage(carts, req)
  {
    match Dispatch(Param(req, "_method"))
    case PutAction => PutPage(carts, req)
    case DeleteAction => DeletePage(carts, req)
    case AddAction => AddPage(carts, req)
  }

  // ---- following the redirect ---------------------------------------------

  /**
    The `GET` a browser sends for a redirect to `CartLocation(contextPath, userId)`:
    the identifier comes back as the path segment exactly as it was written.
  */
  function Follow(userId: string, contextPath: string): Request {
    Request(Some("/" + userId), map[], contextPath)
  }

  /**
    For an identifier without surrounding blanks, following the redirect
    of a successful add shows the user's cart with the product at the end.
  */
  lemma AddThenFollow(carts: seq<Cart>, req: Request)
    requires Dispatch(Param(req, "_method")) == AddAction
    requires StatusOf(PostPage(carts, req).1) != BadRequest
    requires Trim(UserIdOf(req).value) == UserIdOf(req).value
    ensures var userId := UserIdOf(req).value;
            var p := RequestedProduct(req).value;
            GetPage(PostPage(carts, req).0, Follow(userId, req.contextPath))
            == Render(Ok, CartDetail(Cart(userId, ProductsOf(carts, userId) + [p])))
  {
    var userId := UserIdOf(req).value;
    EditUnpadded(carts, userId, RequestedProduct(req).value, CartRequests.Add);
    PathWins(userId, map[], req.contextPath, "userId");
  }

  /** The `GET` a browser sends for a redirect to `ListLocation(contextPath)`. */
  function FollowList(contextPath: string): Request {
    Request(None, map[], contextPath)
  }

  /**
    For an identifier without surrounding blanks, following the redirect
    of a successful `PUT` shows the user's cart with the last copy of the
    product taken out.
  */
  lemma PutThenFollow(carts: seq<Cart>, req: Request)
    requires StatusOf(PutPage(carts, req).1) != BadRequest
    requires Trim(UserIdOf(req).value) == UserIdOf(req).value
    ensures var userId := UserIdOf(req).value;
            var p := RequestedProduct(req).value;
            PutPage(carts, req).1 == Redirect(CartLocation(req.contextPath, userId))
            && GetPage(PutPage(carts, req).0, Follow(userId, req.contextPath))
               == Render(Ok, CartDetail(RemoveProduct(Cart(userId, ProductsOf(carts, userId)), p)))
  {
    var userId := UserIdOf(req).value;
    EditUnpadded(carts, userId, RequestedProduct(req).value, CartRequests.Remove);
    PathWins(userId, map[], req.contextPath, "userId");
  }

  /**
    With one cart per owner, following the redirect of a successful delete
    lists the carts without the user's, the others untouched and in order.
  */
  lemma DeleteThenFollow(carts: seq<Cart>, req: Request)
    requires OwnersDistinct(carts)
    requires StatusOf(DeletePage(carts, req).1) == Found
    ensures var userId := UserIdOf(req).value;
            var after := DeletePage(carts, req).0;
            GetPage(after, FollowList(req.contextPath)) == Render(Ok, CartList(after))
            && GetByUserId(after, userId).None?
            && Others(after, CartUserId, userId) == Others(carts, CartUserId, userId)
  {
    CartRepository.DeleteThenGet(carts, UserIdOf(req).value);
  }

  /**
    As written, an identifier with a leading blank changes the trimmed
    user's cart but redirects to the identifier as received, which no
    (trimmed) owner has: following the redirect answers 404. A blank at
    the end only is not covered: it would be dropped from the `Location`
    header field, whose value excludes surrounding whitespace (section 5.5
    of RFC 9110).
  */
  lemma PaddedRedirectNotFound(carts: seq<Cart>, req: Request)
    requires AllTrimmed(carts)
    requires Dispatch(Param(req, "_method")) == AddAction
    requires StatusOf(PostPage(carts, req).1) != BadRequest
    requires IsTrimmable(UserIdOf(req).value[0])
    ensures var userId := UserIdOf(req).value;
            PostPage(carts, req).1 == Redirect(CartLocation(req.contextPath, userId))
            && StatusOf(GetPage(PostPage(carts, req).0, Follow(userId, req.contextPath))) == NotFound
  {
    var userId := UserIdOf(req).value;
    var after := PostPage(carts, req).0;
    assert Trim(userId) != userId;
    EditKeepsTrimmed(carts, userId, RequestedProduct(req).value, CartRequests.Add);
    PaddedMisses(after, userId);
    PathWins(userId, map[], req.contextPath, "userId");
    NotBlankIsPresent(UserIdOf(req));
  }

  /**
    The intended add: the cart is looked up under the trimmed identifier and
    the redirect names it.
  */
  function AddTrimmed(carts: seq<Cart>, req: Request): (r: (seq<Cart>, Reply<View>))
    ensures StatusOf(r.1) == BadRequest <==> MissingOrBlank(UserIdOf(req)) || RequestedProduct(req).None?
    ensures StatusOf(r.1) == BadRequest ==> r.0 == carts
    ensures StatusOf(r.1) != BadRequest ==>
              r.1 == Redirect(CartLocation(req.contextPath, Trim(UserIdOf(req).value)))
              && r.0 == EditCartTrimmed(carts, UserIdOf(req).value, RequestedProduct(req).value, CartRequests.Add).0
  {
    var userId := UserIdOf(req);
    if MissingOrBlank(userId) then (carts, Render(BadRequest, ErrorPage(BadRequestTitle, UserIdRequired)))
    else match RequestedProduct(req)
      case None => (carts, Render(BadRequest, ErrorPage(BadRequestTitle, ProductRequired)))
      case Some(p) =>
        var after := EditCartTrimmed(carts, userId.value, p, CartRequests.Add).0;
        (after, Redirect(CartLocation(req.contextPath, Trim(userId.value))))
  }

  /**
    With the intended add, following the redirect shows the user's cart
    with the product at the end, whatever blanks surround the identifier.
  */
  lemma TrimmedRedirectFound(carts: seq<Cart>, req: Request)
    requires StatusOf(AddTrimmed(carts, req).1) != BadRequest
    ensures var userId := Trim(UserIdOf(req).value);
            var p := RequestedProduct(req).value;
            GetPage(AddTrimmed(carts, req).0, Follow(userId, req.contextPath))
            == Render(Ok, CartDetail(Cart(userId, ProductsOf(carts, userId) + [p])))
  {
    var userId := Trim(UserIdOf(req).value);
    var p := RequestedProduct(req).value;
    TrimmedKeepsProducts(carts, UserIdOf(req).value, p, CartRequests.Add);
    FollowFinds(AddTrimmed(carts, req).0, userId, req.contextPath, Cart(userId, ProductsOf(carts, userId) + [p]));
  }

  /** Following a redirect to a cart that is stored shows it. */
  lemma FollowFinds(carts: seq<Cart>, userId: string, contextPath: string, c: Cart)
    requires userId != [] && GetByUserId(carts, userId) == Some(c)
    ensures GetPage(carts, Follow(userId, contextPath)) == Render(Ok, CartDetail(c))
  {
    PathWins(userId, map[], contextPath, "userId");
  }
}

=== FILE: cart_repository.dfy ===
/**
  `ShoppingCartRepository`: the carts in insertion order, looked up by the
  owner's user identifier; `getShoppingCarts` is the list itself. Unlike
  the other repositories, creation does not draw an identifier: the caller
  names the owner, and nothing stops two carts from having the same owner.
*/
module CartRepository {
  import opened Optional
  import opened SeqStore
  import opened Carts

  function CartUserId(c: Cart): string {
    c.userId
  }

  /** The repository as constructed: no carts. */
  const Empty: seq<Cart> := []

  /** `getShoppingCartByUserId`: the first cart of the user, or `null`. */
  function GetByUserId(carts: seq<Cart>, userId: string): (r: Option<Cart>)
    ensures r.None? <==> forall i :: 0 <= i < |carts| ==> carts[i].userId != userId
    ensures r.Some? ==> exists i :: 0 <= i < |carts| && carts[i] == r.value && carts[i].userId == userId
                                    && forall j :: 0 <= j < i ==> carts[j].userId != userId
  {
    Find(carts, CartUserId, userId)
  }

  /** `createUserShoppingCart`: an empty cart for the user, appended without looking for an existing one. */
  function Create(carts: seq<Cart>, userId: string): (r: (seq<Cart>, Cart))
    ensures r.1 == NewCart(userId)
    ensures r.0 == carts + [r.1]
  {
    var c := NewCart(userId);
    (carts + [c], c)
  }

  /**
    `updateShoppingCart`: the first cart of the same user is replaced and the
    new cart returned; with none, nothing changes and the result is `null`.
  */
  function UpdateCart(carts: seq<Cart>, cart: Cart): (r: (seq<Cart>, Option<Cart>))
    ensures |r.0| == |carts|
    ensures r.1.Some? <==> exists i :: 0 <= i < |carts| && carts[i].userId == cart.userId
    ensures r.1.None? ==> r.0 == carts
    ensures r.1.Some? ==> r.1.value == cart
    ensures r.1.Some? ==> exists i :: 0 <= i < |carts| && carts[i].userId == cart.userId
                                      && (forall j :: 0 <= j < i ==> carts[j].userId != cart.userId)
                                      && r.0 == carts[i := cart]
  {
    Update(carts, CartUserId, cart)
  }

  /** `deleteShoppingCartByUserId`: the last cart of the user is removed; otherwise nothing changes. */
  function DeleteByUserId(carts: seq<Cart>, userId: string): (r: seq<Cart>)
    ensures (forall i :: 0 <= i < |carts| ==> carts[i].userId != userId) ==> r == carts
    ensures (exists i :: 0 <= i < |carts| && carts[i].userId == userId) ==> |r| == |carts| - 1
    ensures (exists i :: 0 <= i < |carts| && carts[i].userId == userId) ==>
              exists i :: 0 <= i < |carts| && carts[i].userId == userId
                          && (forall j :: i < j < |carts| ==> carts[j].userId != userId)
                          && r == carts[..i] + carts[i + 1..]
  {
    DeleteLast(carts, CartUserId, userId)
  }

  // ---- how the operations relate ------------------------------------------

  /** No two carts belong to the same user. */
  predicate OwnersDistinct(carts: seq<Cart>) {
    KeysDistinct(carts, CartUserId)
  }

  /**
    Creating a cart for a user without one makes it the user's cart and
    keeps owners distinct; for a user who already has one, the lookup still
    gives the old cart and the new one is never found.
  */
  lemma CreateThenGet(carts: seq<Cart>, userId: string)
    ensures GetByUserId(carts, userId).None? ==> GetByUserId(Create(carts, userId).0, userId) == Some(NewCart(userId))
    ensures GetByUserId(carts, userId).None? && OwnersDistinct(carts) ==> OwnersDistinct(Create(carts, userId).0)
    ensures GetByUserId(carts, userId).Some? ==> GetByUserId(Create(carts, userId).0, userId) == GetByUserId(carts, userId)
  {
    var c := NewCart(userId);
    AppendFind(carts, CartUserId, c, userId);
    if GetByUserId(carts, userId).None? && OwnersDistinct(carts) {
      AppendKeepsDistinct(carts, CartUserId, c);
    }
  }

  /** After a successful update the cart is the user's cart, the other carts are untouched and owners stay distinct. */
  lemma UpdateThenGet(carts: seq<Cart>, cart: Cart)
    requires UpdateCart(carts, cart).1.Some?
    ensures GetByUserId(UpdateCart(carts, cart).0, cart.userId) == Some(cart)
    ensures Others(UpdateCart(carts, cart).0, CartUserId, cart.userId) == Others(carts, CartUserId, cart.userId)
    ensures OwnersDistinct(carts) ==> OwnersDistinct(UpdateCart(carts, cart).0)
  {
    UpdateFind(carts, CartUserId, cart);
    UpdateKeepsOthers(carts, CartUserId, cart);
    if OwnersDistinct(carts) {
      UpdateKeepsDistinct(carts, CartUserId, cart);
    }
  }

  /** With distinct owners, a deleted cart is no longer found and the rest keep their order. */
  lemma DeleteThenGet(carts: seq<Cart>, userId: string)
    requires OwnersDistinct(carts)
    ensures GetByUserId(DeleteByUserId(carts, userId), userId).None?
    ensures OwnersDistinct(DeleteByUserId(carts, userId))
    ensures Others(DeleteByUserId(carts, userId), CartUserId, userId) == Others(carts, CartUserId, userId)
  {
    DeleteGone(carts, CartUserId, userId);
    DeleteKeepsDistinct(carts, CartUserId, userId);
    DeleteLastEffect(carts, CartUserId, userId);
  }

  /**
    With two carts for the same user, deleting removes the later one and
    the lookup keeps finding the earlier one.
  */
  lemma DeleteDuplicateKeepsFirst(carts: seq<Cart>, userId: string)
    requires Matches(carts, CartUserId, userId) >= 2
    ensures GetByUserId(DeleteByUserId(carts, userId), userId) == GetByUserId(carts, userId)
  {
    DeleteLastKeepsFirst(carts, CartUserId, userId);
  }
}

=== FILE: cart_requests.dfy ===
/**
  What a valid product request does to the carts, shared by the `POST`
  (add a product) and `PUT` (remove a product) handlers of both shopping
  servlets: look the cart up by the user identifier as received, create
  one for the trimmed identifier when there is none, change the cart, and
  store it back with `updateShoppingCart`.

  The Java list holds references: the cart the lookup or the creation
  returns is the object at its position in the list, so changing it
  changes that position before `updateShoppingCart` runs. The model
  therefore writes the changed cart at that position and then applies
  the update.
*/
module CartRequests {
  import opened Optional
  import opened Text
  import opened SeqStore
  import opened Products
  import opened Carts
  import opened CartRepository
  import opened Http

  /**
    The product a request names: `productName` and `productBrand` both
    present and not blank, each trimmed; otherwise none (a bad request).
  */
  function RequestedProduct(req: Request): (r: Option<Product>)
    ensures r.None? <==> MissingOrBlank(Param(req, "productName")) || MissingOrBlank(Param(req, "productBrand"))
    ensures r.Some? ==> r.value.name != [] && r.value.brand != []
    ensures r.Some? ==> r.value == Product(Trim(Param(req, "productName").value), Trim(Param(req, "productBrand").value))
  {
    var name := Param(req, "productName");
    var brand := Param(req, "productBrand");
    if MissingOrBlank(name) || MissingOrBlank(brand) then None
    else Some(Product(Trim(name.value), Trim(brand.value)))
  }

  /** The change a request makes to the cart. */
  datatype Change = Add | Remove

  function Apply(c: Cart, p: Product, change: Change): (r: Cart)
    ensures r.userId == c.userId
    ensures change == Add ==> r == AddProduct(c, p)
    ensures change == Remove ==> r == RemoveProduct(c, p)
  {
    match change
    case Add => AddProduct(c, p)
    case Remove => RemoveProduct(c, p)
  }

  /**
    Get or create, change, update: gives the carts afterwards and the
    changed cart (what the JSON handler prints).
  */
  function EditCart(carts: seq<Cart>, userId: string, p: Product, change: Change): (r: (seq<Cart>, Cart))
    ensures GetByUserId(r.0, r.1.userId) == Some(r.1)
    ensures |r.0| == |carts| <==> GetByUserId(carts, userId).Some?
    ensures |r.0| == |carts| + 1 <==> GetByUserId(carts, userId).None?
  {
    match FirstIndex(carts, CartUserId, userId)
    case Some(k) =>
      var e := Apply(carts[k], p, change);
      var cs := carts[k := e];
      assert cs[k].userId == e.userId;
      UpdateThenGet(cs, e);
      (UpdateCart(cs, e).0, e)
    case None =>
      var e := Apply(NewCart(Trim(userId)), p, change);
      var cs := carts + [e];
      assert cs[|carts|].userId == e.userId;
      UpdateThenGet(cs, e);
      (UpdateCart(cs, e).0, e)
  }

  /** The products the user's cart holds: none when the user has no cart. */
  function ProductsOf(carts: seq<Cart>, userId: string): seq<Product> {
    match GetByUserId(carts, userId)
    case None => []
    case Some(c) => c.products
  }

  /** Every cart's owner is stored trimmed. */
  predicate AllTrimmed(carts: seq<Cart>) {
    forall i :: 0 <= i < |carts| ==> Trim(carts[i].userId) == carts[i].userId
  }

  /**
    For an identifier without surrounding blanks the request does what it
    promises: the user's cart is the old one (or an empty one) with the
    change applied, the other users' carts are untouched, and owners stay
    distinct.
  */
  lemma EditUnpadded(carts: seq<Cart>, userId: string, p: Product, change: Change)
    requires Trim(userId) == userId
    ensures var (r, e) := EditCart(carts, userId, p, change);
            e == Apply(Cart(userId, ProductsOf(carts, userId)), p, change)
            && GetByUserId(r, userId) == Some(e)
            && Others(r, CartUserId, userId) == Others(carts, CartUserId, userId)
            && (OwnersDistinct(carts) ==> OwnersDistinct(r))
  {
    match FirstIndex(carts, CartUserId, userId)
    case Some(k) => EditExisting(carts, userId, p, change, k);
    case None => EditAbsent(carts, userId, p, change);
  }

  /** The user has a cart at `k`: it is changed in place. */
  lemma EditExisting(carts: seq<Cart>, userId: string, p: Product, change: Change, k: nat)
    requires FirstIndex(carts, CartUserId, userId) == Some(k)
    ensures var (r, e) := EditCart(carts, userId, p, change);
            e == Apply(Cart(userId, ProductsOf(carts, userId)), p, change)
            && GetByUserId(r, userId) == Some(e)
            && Others(r, CartUserId, userId) == Others(carts, CartUserId, userId)
            && (OwnersDistinct(carts) ==> OwnersDistinct(r))
  {
    var e := Apply(carts[k], p, change);
    var cs := carts[k := e];
    assert carts[k] == Cart(userId, ProductsOf(carts, userId));
    assert UpdateCart(cs, e).0 == cs by {
      FirstIndexUnique(cs, CartUserId, userId, k);
    }
    UpdateThenGet(carts, e);
    assert UpdateCart(carts, e).0 == cs by {
      FirstIndexUnique(carts, CartUserId, userId, k);
    }
  }

  /** The user has no cart: an empty one under the identifier is changed and appended. */
  lemma EditAbsent(carts: seq<Cart>, userId: string, p: Product, change: Change)
    requires Trim(userId) == userId
    requires FirstIndex(carts, CartUserId, userId).None?
    ensures var (r, e) := EditCart(carts, userId, p, change);
            e == Apply(Cart(userId, ProductsOf(carts, userId)), p, change)
            && GetByUserId(r, userId) == Some(e)
            && Others(r, CartUserId, userId) == Others(carts, CartUserId, userId)
            && (OwnersDistinct(carts) ==> OwnersDistinct(r))
  {
    var e := Apply(NewCart(userId), p, change);
    var cs := carts + [e];
    assert NewCart(userId) == Cart(userId, ProductsOf(carts, userId));
    FirstIndexUnique(cs, CartUserId, userId, |carts|);
    assert UpdateCart(cs, e).0 == cs;
    MatchesConcat(carts, [e], CartUserId, userId);
    Single(e, CartUserId, userId);
    assert Others(cs, CartUserId, userId) == Others(carts, CartUserId, userId);
    if OwnersDistinct(carts) {
      AppendKeepsDistinct(carts, CartUserId, e);
    }
  }

  /** Storing a cart with a trimmed owner keeps every owner trimmed. */
  lemma UpdateKeepsTrimmed(cs: seq<Cart>, e: Cart)
    requires AllTrimmed(cs) && Trim(e.userId) == e.userId
    ensures AllTrimmed(UpdateCart(cs, e).0)
  {
    match FirstIndex(cs, CartUserId, e.userId)
    case None =>
    case Some(i) =>
      assert UpdateCart(cs, e).0 == cs[i := e];
      WriteKeepsTrimmed(cs, i, e);
  }

  lemma WriteKeepsTrimmed(cs: seq<Cart>, i: nat, e: Cart)
    ensures AllTrimmed(cs) && Trim(e.userId) == e.userId && i < |cs| ==> AllTrimmed(cs[i := e])
  {
  }

  lemma AppendKeepsTrimmed(cs: seq<Cart>, e: Cart)
    ensures AllTrimmed(cs) && Trim(e.userId) == e.userId ==> AllTrimmed(cs + [e])
  {
  }

  /** A request keeps every owner trimmed. */
  lemma EditKeepsTrimmed(carts: seq<Cart>, userId: string, p: Product, change: Change)
    requires AllTrimmed(carts)
    ensures AllTrimmed(EditCart(carts, userId, p, change).0)
  {
    match FirstIndex(carts, CartUserId, userId)
    case Some(k) =>
      var e := Apply(carts[k], p, change);
      var cs := carts[k := e];
      WriteKeepsTrimmed(carts, k, e);
      UpdateKeepsTrimmed(cs, e);
    case None =>
      var e := Apply(NewCart(Trim(userId)), p, change);
      TrimIdempotent(userId);
      var cs := carts + [e];
      AppendKeepsTrimmed(carts, e);
      UpdateKeepsTrimmed(cs, e);
  }

  /** A padded identifier matches no trimmed owner. */
  lemma PaddedMisses(carts: seq<Cart>, userId: string)
    requires AllTrimmed(carts) && Trim(userId) != userId
    ensures FirstIndex(carts, CartUserId, userId).None?
  {
    forall j | 0 <= j < |carts|
      ensures carts[j].userId != userId
    {
      assert Trim(carts[j].userId) == carts[j].userId;
    }
  }

  /**
    As written, an identifier with surrounding blanks misses the user's
    cart (owners are stored trimmed), so a new cart is created for the
    trimmed identifier, changed, and then written over the user's existing
    cart as well: the old cart's products are lost and the user now owns two
    carts.
  */
  lemma PaddedOverwrites(carts: seq<Cart>, userId: string, p: Product, change: Change)
    requires AllTrimmed(carts) && Trim(userId) != userId
    requires GetByUserId(carts, Trim(userId)).Some?
    ensures var e := Apply(NewCart(Trim(userId)), p, change);
            var i := FirstIndex(carts, CartUserId, Trim(userId)).value;
            EditCart(carts, userId, p, change) == (carts[i := e] + [e], e)
  {
    PaddedMisses(carts, userId);
    var e := Apply(NewCart(Trim(userId)), p, change);
    EditMissing(carts, userId, p, change);
    UpdateShadowed(carts, e);
  }

  /** A request for an identifier no cart has: create, change, append, update. */
  lemma EditMissing(carts: seq<Cart>, userId: string, p: Product, change: Change)
    requires FirstIndex(carts, CartUserId, userId).None?
    ensures var e := Apply(NewCart(Trim(userId)), p, change);
            EditCart(carts, userId, p, change) == (UpdateCart(carts + [e], e).0, e)
  {
  }

  /** Appending a cart whose owner already has one, then updating, writes it over the first. */
  lemma UpdateShadowed(carts: seq<Cart>, e: Cart)
    requires FirstIndex(carts, CartUserId, e.userId).Some?
    ensures UpdateCart(carts + [e], e).0 == carts[FirstIndex(carts, CartUserId, e.userId).value := e] + [e]
  {
    var i := FirstIndex(carts, CartUserId, e.userId).value;
    var cs := carts + [e];
    assert forall j :: 0 <= j < i ==> cs[j] == carts[j];
    FirstIndexUnique(cs, CartUserId, e.userId, i);
    AppendUpdate(carts, i, e);
  }

  /** Writing `e` at `i` and appending it gives two carts of the same owner. */
  lemma AppendUpdate(carts: seq<Cart>, i: nat, e: Cart)
    requires i < |carts|
    ensures (carts + [e])[i := e] == carts[i := e] + [e]
    ensures !OwnersDistinct(carts[i := e] + [e])
  {
    var r := carts[i := e] + [e];
    assert r[i] == e && r[|carts|] == e;
  }

  /** A concrete case: bob's cart with milk, then a `POST` of bread for " bob". */
  lemma PaddedExample()
    ensures var milk := Product("milk", "acme");
            var bread := Product("bread", "acme");
            EditCart([Cart("bob", [milk])], " bob", bread, Add).0
            == [Cart("bob", [bread]), Cart("bob", [bread])]
  {
    var milk := Product("milk", "acme");
    var bread := Product("bread", "acme");
    var carts := [Cart("bob", [milk])];
    var e := Cart("bob", [bread]);
    TrimBob();
    assert Apply(NewCart("bob"), bread, Add) == e;
    FirstIndexUnique(carts, CartUserId, "bob", 0);
    PaddedOverwrites(carts, " bob", bread, Add);
    OverwriteSingle(Cart("bob", [milk]), e);
  }

  lemma OverwriteSingle<T>(x: T, e: T)
    ensures [x][0 := e] + [e] == [e, e]
  {
  }

  lemma TrimBob()
    ensures Trim(" bob") == "bob"
    ensures Trim("bob") == "bob"
  {
    TrimOfTrimmed("bob");
    assert LeadingCount(" bob") == 1 by {
      assert " bob"[1..] == "bob";
      assert LeadingCount("bob") == 0;
    }
    assert TrailingCount(" bob") == 0;
    assert " bob"[1..4] == "bob";
  }

  /** The intended request: the lookup uses the trimmed identifier, as the creation does. */
  function EditCartTrimmed(carts: seq<Cart>, userId: string, p: Product, change: Change): (r: (seq<Cart>, Cart))
    ensures GetByUserId(r.0, r.1.userId) == Some(r.1)
  {
    EditCart(carts, Trim(userId), p, change)
  }

  /**
    With the trimmed lookup every identifier, padded or not, changes the
    user's own cart: the old products are kept, other carts are untouched
    and owners stay distinct.
  */
  lemma TrimmedKeepsProducts(carts: seq<Cart>, userId: string, p: Product, change: Change)
    ensures var (r, e) := EditCartTrimmed(carts, userId, p, change);
            e == Apply(Cart(Trim(userId), ProductsOf(carts, Trim(userId))), p, change)
            && GetByUserId(r, Trim(userId)) == Some(e)
            && Others(r, CartUserId, Trim(userId)) == Others(carts, CartUserId, Trim(userId))
            && (OwnersDistinct(carts) ==> OwnersDistinct(r))
  {
    TrimIdempotent(userId);
    EditUnpadded(carts, Trim(userId), p, change);
  }
}

=== FILE: cart_servlet.dfy ===
/**
  The JSON `ShoppingCartServlet`: each handler takes the carts and the
  request and gives the carts afterwards and the response. The user
  identifier comes from the path segment, else from the `userId`
  parameter; `doGet` only asks that it be non-empty, the other handlers
  that it be non-blank.
*/
module CartServlet {
  import opened Optional
  import opened Text
  import opened Json
  import opened Http
  import opened Products
  import opened Carts
  import opened CartRepository
  import opened CartRequests
  import opened SeqStore

  const UserIdRequired: string := "{\"error\":\"Bad Request\",\"message\":\"User ID parameter is required.\"}"
  const ProductRequired: string := "{\"error\":\"Bad Request\",\"message\":\"Product name and brand parameters are required.\"}"

  /** The body of a 404: the identifier as received, escaped. */
  function CartNotFound(userId: string): string {
    "{\"error\":\"Shopping cart not found\",\"message\":\"Shopping cart for user ID " + EscapeJson(Some(userId)) + " does not exist.\"}"
  }

  /** The body of a successful delete. */
  function CartDeleted(userId: string): string {
    "{\"message\":\"Shopping cart deleted successfully\",\"userId\":\"" + EscapeJson(Some(userId)) + "\"}"
  }

  /** `toJsonArray` over the carts. */
  function CartsJson(carts: seq<Cart>): string {
    ToJsonArray(seq(|carts|, i requires 0 <= i < |carts| => Carts.ToJson(carts[i])))
  }

  /** The identifier the handlers work on. */
  function UserIdOf(req: Request): Option<string> {
    ResolveId(req, "userId")
  }

  /**
    `doGet`: with a non-empty identifier, the user's cart or 404; without
    one, every cart. It changes nothing.
  */
  function Get(carts: seq<Cart>, req: Request): (r: Response)
    ensures r.status == NotFound <==> Present(UserIdOf(req)) && GetByUserId(carts, UserIdOf(req).value).None?
    ensures r.status != NotFound ==> r.status == Ok
    ensures !Present(UserIdOf(req)) ==> r.body == CartsJson(carts)
  {
    var userId := UserIdOf(req);
    if Present(userId) then
      match GetByUserId(carts, userId.value)
      case Some(c) => Response(Ok, Carts.ToJson(c))
      case None => Response(NotFound, CartNotFound(userId.value))
    else Response(Ok, CartsJson(carts))
  }

  /** A found cart is answered with its JSON: reading the body back gives that cart. */
  lemma GetFound(carts: seq<Cart>, req: Request)
    requires Present(UserIdOf(req)) && GetByUserId(carts, UserIdOf(req).value).Some?
    ensures var c := GetByUserId(carts, UserIdOf(req).value).value;
            Get(carts, req).status == Ok
            && c.userId == UserIdOf(req).value
            && Carts.Parse(Get(carts, req).body) == Some((c, ""))
  {
    var c := GetByUserId(carts, UserIdOf(req).value).value;
    Carts.JsonRoundTrip(c, "");
    assert Carts.ToJson(c) + "" == Carts.ToJson(c);
  }

  /**
    `doPost` and `doPut`: 400 for a blank identifier or a missing product;
    otherwise the cart is changed (created first when the identifier finds
    none) and its JSON returned with 200.
  */
  function Modify(carts: seq<Cart>, req: Request, change: Change): (r: (seq<Cart>, Response))
    ensures r.1.status == BadRequest <==> MissingOrBlank(UserIdOf(req)) || RequestedProduct(req).None?
    ensures r.1.status != BadRequest ==> r.1.status == Ok
    ensures r.1.status == BadRequest ==> r.0 == carts
    ensures r.1.status == Ok ==> exists c: Cart :: Carts.Parse(r.1.body) == Some((c, "")) && GetByUserId(r.0, c.userId) == Some(c)
    ensures r.1.status == Ok ==> r.0 == EditCart(carts, UserIdOf(req).value, RequestedProduct(req).value, change).0
  {
    var userId := UserIdOf(req);
    if MissingOrBlank(userId) then (carts, Response(BadRequest, UserIdRequired))
    else match RequestedProduct(req)
      case None => (carts, Response(BadRequest, ProductRequired))
      case Some(p) =>
        var (after, c) := EditCart(carts, userId.value, p, change);
        Carts.JsonRoundTrip(c, "");
        assert Carts.ToJson(c) + "" == Carts.ToJson(c);
        (after, Response(Ok, Carts.ToJson(c)))
  }

  /** `doPost`: adds the product. */
  function Post(carts: seq<Cart>, req: Request): (r: (seq<Cart>, Response))
    ensures r == Modify(carts, req, Add)
  {
    Modify(carts, req, Add)
  }

  /** `doPut`: removes the product. */
  function Put(carts: seq<Cart>, req: Request): (r: (seq<Cart>, Response))
    ensures r == Modify(carts, req, Remove)
  {
    Modify(carts, req, Remove)
  }

  /**
    `doDelete`: 400 for a blank identifier, 404 when no cart has it,
    otherwise the user's cart is deleted and 200 returned.
  */
  function Delete(carts: seq<Cart>, req: Request): (r: (seq<Cart>, Response))
    ensures r.1.status == BadRequest <==> MissingOrBlank(UserIdOf(req))
    ensures r.1.status == NotFound <==> !MissingOrBlank(UserIdOf(req)) && GetByUserId(carts, UserIdOf(req).value).None?
    ensures r.1.status == Ok <==> !MissingOrBlank(UserIdOf(req)) && GetByUserId(carts, UserIdOf(req).value).Some?
    ensures r.1.status != Ok ==> r.0 == carts
    ensures r.1.status == Ok ==> |r.0| == |carts| - 1
  {
    var userId := UserIdOf(req);
    if MissingOrBlank(userId) then (carts, Response(BadRequest, UserIdRequired))
    else match GetByUserId(carts, userId.value)
      case None => (carts, Response(NotFound, CartNotFound(userId.value)))
      case Some(_) => (DeleteByUserId(carts, userId.value), Response(Ok, CartDeleted(userId.value)))
  }

  // ---- requests in sequence ---------------------------------------------

  /** A `GET` of `/userId`. */
  function GetOf(userId: string, contextPath: string): Request {
    Request(Some("/" + userId), map[], contextPath)
  }

  /**
    For an identifier without surrounding blanks, a successful `POST`
    followed by a `GET` of the same identifier finds the user's cart: the
    products it had (none for a new cart) and then the new product.
  */
  lemma PostThenGet(carts: seq<Cart>, req: Request)
    requires Post(carts, req).1.status == Ok
    requires Trim(UserIdOf(req).value) == UserIdOf(req).value
    ensures var userId := UserIdOf(req).value;
            var after := Post(carts, req).0;
            var c := Cart(userId, ProductsOf(carts, userId) + [RequestedProduct(req).value]);
            Get(after, GetOf(userId, req.contextPath)).status == Ok
            && Carts.Parse(Get(after, GetOf(userId, req.contextPath)).body) == Some((c, ""))
  {
    ModifyThenGet(carts, req, Add);
  }

  /**
    For an identifier without surrounding blanks, a successful `PUT`
    followed by a `GET` finds the user's cart with the last copy of the
    product taken out.
  */
  lemma PutThenGet(carts: seq<Cart>, req: Request)
    requires Put(carts, req).1.status == Ok
    requires Trim(UserIdOf(req).value) == UserIdOf(req).value
    ensures var userId := UserIdOf(req).value;
            var after := Put(carts, req).0;
            var c := RemoveProduct(Cart(userId, ProductsOf(carts, userId)), RequestedProduct(req).value);
            Get(after, GetOf(userId, req.contextPath)).status == Ok
            && Carts.Parse(Get(after, GetOf(userId, req.contextPath)).body) == Some((c, ""))
  {
    ModifyThenGet(carts, req, Remove);
  }

  /** A successful change followed by a `GET` of the same identifier finds the changed cart. */
  lemma ModifyThenGet(carts: seq<Cart>, req: Request, change: Change)
    requires Modify(carts, req, change).1.status == Ok
    requires Trim(UserIdOf(req).value) == UserIdOf(req).value
    ensures var userId := UserIdOf(req).value;
            var after := Modify(carts, req, change).0;
            var c := Apply(Cart(userId, ProductsOf(carts, userId)), RequestedProduct(req).value, change);
            Get(after, GetOf(userId, req.contextPath)).status == Ok
            && Carts.Parse(Get(after, GetOf(userId, req.contextPath)).body) == Some((c, ""))
  {
    var userId := UserIdOf(req).value;
    EditUnpadded(carts, userId, RequestedProduct(req).value, change);
    GetOfFinds(Modify(carts, req, change).0, userId, req.contextPath);
  }

  /** A `GET` of an identifier that has a cart answers that cart's JSON. */
  lemma GetOfFinds(carts: seq<Cart>, userId: string, contextPath: string)
    requires userId != [] && GetByUserId(carts, userId).Some?
    ensures Get(carts, GetOf(userId, contextPath)).status == Ok
    ensures Carts.Parse(Get(carts, GetOf(userId, contextPath)).body) == Some((GetByUserId(carts, userId).value, ""))
  {
    PathWins(userId, map[], contextPath, "userId");
    GetFound(carts, GetOf(userId, contextPath));
  }

  /**
    With one cart per owner, after a successful `DELETE` a `GET` of the same
    identifier answers 404 and the other users' carts are untouched.
  */
  lemma DeleteThenGet(carts: seq<Cart>, req: Request)
    requires OwnersDistinct(carts)
    requires Delete(carts, req).1.status == Ok
    ensures var userId := UserIdOf(req).value;
            var after := Delete(carts, req).0;
            Get(after, GetOf(userId, req.contextPath)).status == NotFound
            && Others(after, CartUserId, userId) == Others(carts, CartUserId, userId)
  {
    var userId := UserIdOf(req).value;
    CartRepository.DeleteThenGet(carts, userId);
    PathWins(userId, map[], req.contextPath, "userId");
  }
}

=== FILE: chrono.dfy ===
/**
  One chronometer of the chronometer demo: a name, a start time and a
  running flag. Starting the thread records the clock and raises the flag;
  `stopChrono` and an interruption lower it. The clock
  (`System.currentTimeMillis`) is the parameter `now`.
*/
module Chronometer {
  import opened Optional
  import opened Text

  const MillisPerSecond: nat := 1000
  const SecondsPerMinute: nat := 60
  const MinutesPerHour: nat := 60
  const InitialStartTime: int := 0

  datatype Chrono = Chrono(name: string, startTime: int, running: bool)

  /** The constructor: a named chronometer that has not started. */
  function NewChrono(name: string): (c: Chrono)
    ensures c.name == name && !c.running
    ensures c.startTime == InitialStartTime
  {
    Chrono(name, InitialStartTime, false)
  }

  /** `run` up to its sleep loop: the start time is recorded and the flag raised. */
  function Start(c: Chrono, now: int): (d: Chrono)
    ensures d.running && d.name == c.name && d.startTime == now
  {
    c.(startTime := now, running := true)
  }

  /** `stopChrono`: the flag is lowered; the start time is kept. */
  function StopChrono(c: Chrono): (d: Chrono)
    ensures !d.running && d.name == c.name && d.startTime == c.startTime
  {
    c.(running := false)
  }

  /** `handleInterruption`: the same effect as `stopChrono` on the fields. */
  function HandleInterruption(c: Chrono): (d: Chrono)
    ensures !d.running && d.name == c.name && d.startTime == c.startTime
  {
    c.(running := false)
  }

  /** `getElapsedTime`: 0 before the chronometer has started, the time since the start otherwise. */
  function ElapsedTime(c: Chrono, now: int): (e: int)
    ensures !c.running && c.startTime == InitialStartTime ==> e == 0
    ensures c.running || c.startTime != InitialStartTime ==> e + c.startTime == now
  {
    if !c.running && c.startTime == InitialStartTime then InitialStartTime else now - c.startTime
  }

  /** A chronometer that was never started shows zero, whatever the clock says. */
  lemma NewChronoShowsZero(name: string, now: int)
    ensures ElapsedTime(NewChrono(name), now) == 0
  {
  }

  /**
    Stopping does not freeze the displayed time: a chronometer started at
    `t0 != 0` and then stopped still reports `now - t0`, which grows with the clock.
  */
  lemma StoppedChronoKeepsCounting(c: Chrono, t0: int, now1: int, now2: int)
    requires t0 != InitialStartTime && now1 < now2
    ensures ElapsedTime(StopChrono(Start(c, t0)), now1) < ElapsedTime(StopChrono(Start(c, t0)), now2)
  {
  }

  // ---- formatting --------------------------------------------------------

  datatype Clock = Clock(hours: nat, minutes: nat, seconds: nat, millis: nat)

  /** The divisions and remainders of `getFormattedTime`. */
  function Components(e: nat): Clock {
    var totalSeconds := e / MillisPerSecond;
    var totalMinutes := totalSeconds / SecondsPerMinute;
    Clock(totalMinutes / MinutesPerHour, totalMinutes % MinutesPerHour,
          totalSeconds % SecondsPerMinute, e % MillisPerSecond)
  }

  predicate InRange(k: Clock) {
    k.minutes < 60 && k.seconds < 60 && k.millis < 1000
  }

  function Total(k: Clock): nat {
    k.hours * 3600000 + k.minutes * 60000 + k.seconds * 1000 + k.millis
  }

  /** The components are in range and add back up to the elapsed time. */
  lemma ComponentsRecompose(e: nat)
    ensures InRange(Components(e))
    ensures Total(Components(e)) == e
  {
    var ts := e / 1000;
    var tm := ts / 60;
    assert e == ts * 1000 + e % 1000;
    assert ts == tm * 60 + ts % 60;
    assert tm == (tm / 60) * 60 + tm % 60;
  }

  /** In-range components are recovered from their total: the decomposition is unique. */
  lemma ComponentsOfTotal(k: Clock)
    requires InRange(k)
    ensures Components(Total(k)) == k
  {
    var e := Total(k);
    var ts := k.hours * 3600 + k.minutes * 60 + k.seconds;
    assert e == ts * 1000 + k.millis;
    assert e / 1000 == ts && e % 1000 == k.millis;
    var tm := k.hours * 60 + k.minutes;
    assert ts == tm * 60 + k.seconds;
    assert ts / 60 == tm && ts % 60 == k.seconds;
    assert tm / 60 == k.hours && tm % 60 == k.minutes;
  }

  /** `String.format("%02d:%02d:%02d.%03d", …)` of the components. */
  function FormatMillis(e: nat): (r: string)
    ensures |r| >= 12
  {
    var k := Components(e);
    ZeroPad(k.hours, 2) + ":" + ZeroPad(k.minutes, 2) + ":" + ZeroPad(k.seconds, 2) + "." + ZeroPad(k.millis, 3)
  }

  /** `getFormattedTime`, for a clock that does not read earlier than the start time. */
  function FormattedTime(c: Chrono, now: int): (r: string)
    requires ElapsedTime(c, now) >= 0
    ensures |r| >= 12
  {
    FormatMillis(ElapsedTime(c, now))
  }

  predicate AllDigits(s: string) {
    forall i :: 0 <= i < |s| ==> IsDigit(s[i])
  }

  /** Reads "H…H:MM:SS.mmm" back into milliseconds. */
  function ParseTime(t: string): Option<nat> {
    if |t| < 12 then None
    else
      var n := |t|;
      var h := t[..n - 10];
      var m := t[n - 9..n - 7];
      var s := t[n - 6..n - 4];
      var ms := t[n - 3..];
      if t[n - 10] == ':' && t[n - 7] == ':' && t[n - 4] == '.'
         && AllDigits(h) && AllDigits(m) && AllDigits(s) && AllDigits(ms)
      then Some(ParseDecimal(h) * 3600000 + ParseDecimal(m) * 60000 + ParseDecimal(s) * 1000 + ParseDecimal(ms))
      else None
  }

  /** The formatted time reads back as the elapsed time it was made from. */
  lemma FormatMillisRoundTrip(e: nat)
    ensures ParseTime(FormatMillis(e)) == Some(e)
  {
    var k := Components(e);
    ComponentsRecompose(e);
    assert Pow10(2) == 100 && Pow10(3) == 1000 by {
      assert Pow10(1) == 10;
    }
    ZeroPadExact(k.minutes, 2);
    ZeroPadExact(k.seconds, 2);
    ZeroPadExact(k.millis, 3);
    ZeroPadRoundTrip(k.hours, 2);
    ZeroPadRoundTrip(k.minutes, 2);
    ZeroPadRoundTrip(k.seconds, 2);
    ZeroPadRoundTrip(k.millis, 3);
    var hs, ms, ss, ls := ZeroPad(k.hours, 2), ZeroPad(k.minutes, 2), ZeroPad(k.seconds, 2), ZeroPad(k.millis, 3);
    FieldSlices(hs, ms, ss, ls);
    ParseFields(FormatMillis(e), k.hours, k.minutes, k.seconds, k.millis);
  }

  /** Where the four fields and the separators sit in "H…H:MM:SS.mmm", counted from the end. */
  lemma FieldSlices(hs: string, ms: string, ss: string, ls: string)
    ensures var t := hs + ":" + ms + ":" + ss + "." + ls;
            var n := |t|;
            |ms| == 2 && |ss| == 2 && |ls| == 3 ==>
            n == |hs| + 10 && t[..n - 10] == hs && t[n - 9..n - 7] == ms && t[n - 6..n - 4] == ss && t[n - 3..] == ls
            && t[n - 10] == ':' && t[n - 7] == ':' && t[n - 4] == '.'
  {
    var b := hs + ":" + ms;
    var d := b + ":" + ss;
    var t := d + "." + ls;
    var n := |t|;
    if |ms| == 2 && |ss| == 2 && |ls| == 3 {
      assert t[..n - 10] == hs;
      assert t[n - 9..n - 7] == b[|hs| + 1..] == ms;
      assert t[n - 6..n - 4] == d[|b| + 1..] == ss;
      assert t[n - 3..] == ls;
    }
  }

  /** A time whose separators sit where `ParseTime` looks, between digit fields of the given values, reads back as their total. */
  lemma ParseFields(t: string, h: nat, m: nat, s: nat, l: nat)
    requires var n := |t|;
             n >= 12 && t[n - 10] == ':' && t[n - 7] == ':' && t[n - 4] == '.'
             && AllDigits(t[..n - 10]) && AllDigits(t[n - 9..n - 7]) && AllDigits(t[n - 6..n - 4]) && AllDigits(t[n - 3..])
    requires ParseDecimal(t[..|t| - 10]) == h && ParseDecimal(t[|t| - 9..|t| - 7]) == m
    requires ParseDecimal(t[|t| - 6..|t| - 4]) == s && ParseDecimal(t[|t| - 3..]) == l
    ensures ParseTime(t) == Some(h * 3600000 + m * 60000 + s * 1000 + l)
  {
    ParseTimeSplit(t);
  }

  /** `ParseTime` of a well-formed time: the four fields at their fixed distances from the end. */
  lemma ParseTimeSplit(t: string)
    ensures var n := |t|;
            n >= 12 && t[n - 10] == ':' && t[n - 7] == ':' && t[n - 4] == '.'
            && AllDigits(t[..n - 10]) && AllDigits(t[n - 9..n - 7]) && AllDigits(t[n - 6..n - 4]) && AllDigits(t[n - 3..])
            ==> ParseTime(t) == Some(ParseDecimal(t[..n - 10]) * 3600000 + ParseDecimal(t[n - 9..n - 7]) * 60000
                                     + ParseDecimal(t[n - 6..n - 4]) * 1000 + ParseDecimal(t[n - 3..]))
  {
  }

  /** The example of the documentation: 1234567 ms is twenty minutes and 34.567 seconds. */
  lemma FormatExample()
    ensures FormatMillis(1234567) == "00:20:34.567"
  {
    assert Components(1234567) == Clock(0, 20, 34, 567);
    assert DecimalString(0) == "0";
    assert DecimalString(20) == "20";
    assert DecimalString(34) == "34";
    assert DecimalString(567) == "567";
  }
}

=== FILE: chrono_app.dfy ===
/**
  `ThreadChronoMain`: the list of chronometers, the name counter, the
  selection of running chronometers by 1-based number, and the menu loop.
  The chronometers are values, so stopping the one a number selects is an
  update of the list at that chronometer's position. Menu choices and the
  typed numbers arrive as a sequence of lines, each with its clock reading.
*/
module ChronoApp {
  import opened Optional
  import opened Text
  import opened Chronometer
  import Menu

  /** The two static fields: `chronos` and `chronoCounter`. */
  datatype App = App(chronos: seq<Chrono>, counter: nat)

  /** The state before the first command: no chronometers, counter at 1. */
  const Init: App := App([], 1)

  /** `generateDefaultChronometerName`. */
  function ChronoName(k: nat): string {
    "Chronometer " + DecimalString(k)
  }

  /** Different counters give different names. */
  lemma ChronoNameInjective(a: nat, b: nat)
    requires ChronoName(a) == ChronoName(b)
    ensures a == b
  {
    var p := "Chronometer ";
    assert DecimalString(a) == ChronoName(a)[|p|..];
    assert DecimalString(b) == ChronoName(b)[|p|..];
    DecimalStringInjective(a, b);
  }

  /**
    What the commands keep true: the counter is one past the number of
    chronometers and the `i`-th chronometer is named after counter value `i + 1`.
  */
  predicate Inv(app: App) {
    app.counter == |app.chronos| + 1
    && forall i :: 0 <= i < |app.chronos| ==> app.chronos[i].name == ChronoName(i + 1)
  }

  lemma InitInv()
    ensures Inv(Init) && |Init.chronos| == 0
  {
  }

  /** Under the invariant no two chronometers share a name. */
  lemma NamesDistinct(app: App, i: nat, j: nat)
    requires Inv(app) && i < |app.chronos| && j < |app.chronos| && i != j
    ensures app.chronos[i].name != app.chronos[j].name
  {
    if app.chronos[i].name == app.chronos[j].name {
      ChronoNameInjective(i + 1, j + 1);
    }
  }

  /**
    `createNewChrono`: a chronometer named after the counter is started and
    appended, and the counter moves on.
  */
  function CreateNewChrono(app: App, now: int): (r: App)
    ensures |r.chronos| == |app.chronos| + 1 && r.chronos[..|app.chronos|] == app.chronos
    ensures r.chronos[|app.chronos|] == Chrono(ChronoName(app.counter), now, true)
    ensures r.counter == app.counter + 1
    ensures Inv(app) ==> Inv(r)
  {
    App(app.chronos + [Start(NewChrono(ChronoName(app.counter)), now)], app.counter + 1)
  }

  // ---- running chronometers ------------------------------------------------

  /** Strictly increasing. */
  predicate Increasing(ps: seq<nat>) {
    forall j, k :: 0 <= j < k < |ps| ==> ps[j] < ps[k]
  }

  /** Two increasing sequences with the same elements are equal. */
  lemma {:induction false} IncreasingUnique(a: seq<nat>, b: seq<nat>)
    requires Increasing(a) && Increasing(b)
    requires forall x :: x in a <==> x in b
    ensures a == b
    decreases |a|
  {
    assert |a| > 0 ==> a[0] in b;
    assert |b| > 0 ==> b[0] in a;
    if |a| > 0 {
      assert a[0] == b[0] by {
        var i :| 0 <= i < |b| && b[i] == a[0];
        var j :| 0 <= j < |a| && a[j] == b[0];
        assert b[0] <= b[i] && a[0] <= a[j];
      }
      forall x
        ensures x in a[1..] <==> x in b[1..]
      {
        assert x in a[1..] <==> x in a && x > a[0];
        assert x in b[1..] <==> x in b && x > b[0];
      }
      IncreasingUnique(a[1..], b[1..]);
      HeadTail(a);
      HeadTail(b);
    }
  }

  /** Dropping the element at `k` keeps the sequence increasing and removes exactly that element. */
  lemma RemoveAt(ps: seq<nat>, k: nat)
    requires Increasing(ps) && k < |ps|
    ensures Increasing(ps[..k] + ps[k + 1..])
    ensures forall x :: x in ps[..k] + ps[k + 1..] <==> x in ps && x != ps[k]
  {
    RemoveAtOrder(ps, k);
    RemoveAtMembers(ps, k);
  }

  /** Position `j` after dropping position `k` is position `j` or `j + 1` before. */
  lemma RemoveAtIndex<T>(s: seq<T>, k: nat, j: nat)
    ensures k < |s| && j + 1 < |s| ==> (s[..k] + s[k + 1..])[j] == s[if j < k then j else j + 1]
  {
  }

  lemma RemoveAtOrder(ps: seq<nat>, k: nat)
    requires Increasing(ps) && k < |ps|
    ensures Increasing(ps[..k] + ps[k + 1..])
  {
    var q := ps[..k] + ps[k + 1..];
    forall j, l | 0 <= j < l < |q|
      ensures q[j] < q[l]
    {
      RemoveAtIndex(ps, k, j);
      RemoveAtIndex(ps, k, l);
    }
  }

  lemma RemoveAtMembers(ps: seq<nat>, k: nat)
    requires Increasing(ps) && k < |ps|
    ensures forall x :: x in ps[..k] + ps[k + 1..] <==> x in ps && x != ps[k]
  {
    var q := ps[..k] + ps[k + 1..];
    forall x
      ensures x in q <==> x in ps && x != ps[k]
    {
      if x in q {
        var j :| 0 <= j < |q| && q[j] == x;
        RemoveAtIndex(ps, k, j);
      }
      if x in ps && x != ps[k] {
        var j :| 0 <= j < |ps| && ps[j] == x;
        var j' := if j < k then j else j - 1;
        RemoveAtIndex(ps, k, j');
        assert q[j'] == x;
      }
    }
  }

  /** Positions of the running chronometers, in list order. */
  function RunningPositions(chronos: seq<Chrono>): (ps: seq<nat>)
    ensures Increasing(ps)
    ensures forall j :: 0 <= j < |ps| ==> ps[j] < |chronos|
    ensures forall i :: i in ps <==> 0 <= i < |chronos| && chronos[i].running
    ensures (forall i :: 0 <= i < |chronos| ==> !chronos[i].running) ==> ps == []
  {
    if |chronos| == 0 then []
    else
      var init := chronos[..|chronos| - 1];
      var ps := RunningPositions(init);
      assert forall i :: 0 <= i < |init| ==> init[i] == chronos[i];
      if chronos[|chronos| - 1].running then ps + [|chronos| - 1] else ps
  }

  /** `getRunningChronometers`: the running chronometers in list order. */
  function GetRunning(chronos: seq<Chrono>): (r: seq<Chrono>)
    ensures |r| == |RunningPositions(chronos)|
    ensures forall j :: 0 <= j < |r| ==> r[j] == chronos[RunningPositions(chronos)[j]] && r[j].running
  {
    var ps := RunningPositions(chronos);
    assert forall j :: 0 <= j < |ps| ==> ps[j] in ps;
    seq(|ps|, j requires 0 <= j < |ps| => chronos[ps[j]])
  }

  /** `isValidChronometerIndex`: a 1-based number within the list. */
  predicate IsValidChronometerIndex(index: int, size: int) {
    index >= 1 && index <= size
  }

  /**
    `stopSelectedChronometer`: the chronometer shown as number `index` is the
    `index`-th running one; it is stopped and nothing else changes.
  */
  function StopSelected(chronos: seq<Chrono>, index: int): (r: seq<Chrono>)
    requires IsValidChronometerIndex(index, |GetRunning(chronos)|)
    ensures |r| == |chronos|
    ensures var p := RunningPositions(chronos)[index - 1];
            r[p] == StopChrono(chronos[p]) && chronos[p] == GetRunning(chronos)[index - 1]
            && forall i :: 0 <= i < |chronos| && i != p ==> r[i] == chronos[i]
  {
    var p := RunningPositions(chronos)[index - 1];
    chronos[p := StopChrono(chronos[p])]
  }

  lemma StopSelectedPositions(chronos: seq<Chrono>, index: int)
    requires IsValidChronometerIndex(index, |GetRunning(chronos)|)
    ensures var ps := RunningPositions(chronos);
            RunningPositions(StopSelected(chronos, index)) == ps[..index - 1] + ps[index..]
  {
    var ps := RunningPositions(chronos);
    var r := StopSelected(chronos, index);
    RemoveAt(ps, index - 1);
    var q := ps[..index - 1] + ps[index..];
    var p := ps[index - 1];
    var rs := RunningPositions(r);
    forall x
      ensures x in q <==> x in rs
    {
      assert x in rs <==> 0 <= x < |r| && r[x].running;
      assert x in ps <==> 0 <= x < |chronos| && chronos[x].running;
      if 0 <= x < |r| && x != p {
        assert r[x] == chronos[x];
      }
    }
    IncreasingUnique(q, rs);
  }

  /** Only the selected chronometer leaves the running list; the others keep their order. */
  lemma StopSelectedRunning(chronos: seq<Chrono>, index: int)
    requires IsValidChronometerIndex(index, |GetRunning(chronos)|)
    ensures var g := GetRunning(chronos);
            GetRunning(StopSelected(chronos, index)) == g[..index - 1] + g[index..]
  {
    var ps := RunningPositions(chronos);
    var p := ps[index - 1];
    var r := StopSelected(chronos, index);
    StopSelectedPositions(chronos, index);
    var q := RunningPositions(r);
    var g := GetRunning(chronos);
    var h := GetRunning(r);
    var want := g[..index - 1] + g[index..];
    assert |h| == |want|;
    forall j | 0 <= j < |h|
      ensures h[j] == want[j]
    {
      RemoveAtIndex(ps, index - 1, j);
      RemoveAtIndex(g, index - 1, j);
    }
  }

  /** `stopChrono`: nothing to stop, a valid number stops that chronometer, an invalid one stops nothing. */
  function StopChronoCommand(chronos: seq<Chrono>, index: int): (r: seq<Chrono>)
    ensures |GetRunning(chronos)| == 0 || !IsValidChronometerIndex(index, |GetRunning(chronos)|) ==> r == chronos
    ensures IsValidChronometerIndex(index, |GetRunning(chronos)|) ==>
              r == StopSelected(chronos, index)
              && GetRunning(r) == GetRunning(chronos)[..index - 1] + GetRunning(chronos)[index..]
  {
    if |GetRunning(chronos)| == 0 then chronos
    else if IsValidChronometerIndex(index, |GetRunning(chronos)|) then
      StopSelectedRunning(chronos, index);
      StopSelected(chronos, index)
    else chronos
  }

  /** `stopAllChronos`: every running chronometer is stopped; names and start times are kept. */
  function StopAll(chronos: seq<Chrono>): (r: seq<Chrono>)
    ensures |r| == |chronos|
    ensures forall i :: 0 <= i < |r| ==> !r[i].running
    ensures forall i :: 0 <= i < |r| ==> r[i].name == chronos[i].name && r[i].startTime == chronos[i].startTime
    ensures GetRunning(r) == []
  {
    var r := seq(|chronos|, i requires 0 <= i < |chronos| => if chronos[i].running then StopChrono(chronos[i]) else chronos[i]);
    r
  }

  // ---- the menu loop -----------------------------------------------------

  /**
    `processMenuOption`: carry out one command; the result says whether the
    loop goes on. `now` is the clock reading and `index` the number typed
    when a chronometer is to be stopped.
  */
  function ProcessMenuOption(app: App, option: Menu.MenuOption, now: int, index: int): (r: (App, bool))
    ensures r.1 <==> option != Menu.Exit
    ensures option == Menu.CreateChrono ==> r.0 == CreateNewChrono(app, now)
    ensures option == Menu.ViewRunning ==> r.0 == app
    ensures option == Menu.StopChrono ==> r.0 == app.(chronos := StopChronoCommand(app.chronos, index))
    ensures option == Menu.Exit ==> r.0 == app.(chronos := StopAll(app.chronos)) && GetRunning(r.0.chronos) == []
    ensures Inv(app) ==> Inv(r.0)
  {
    match option
    case CreateChrono => (CreateNewChrono(app, now), true)
    case ViewRunning => (app, true)
    case StopChrono =>
      var cs := StopChronoCommand(app.chronos, index);
      assert |cs| == |app.chronos|;
      assert forall i :: 0 <= i < |cs| ==> cs[i].name == app.chronos[i].name;
      (app.(chronos := cs), true)
    case Exit => (app.(chronos := StopAll(app.chronos)), false)
  }

  /**
    One number as `getIntInput` hands it over, with the clock reading at
    which it is read. How the console text becomes these numbers is left to
    `InputMenu`.
  */
  datatype Line = Line(value: int, now: int)

  /**
    Where `main` comes to rest. `Exited`: EXIT was chosen. `Closed`: the
    input ended at the number prompt of `stopChrono`; the exception reaches
    `main`, whose `finally` stops every chronometer. `Waiting`: the input
    ended at the menu prompt; `getMenuOption` then answers `null` on every
    pass, so `main` never leaves its loop and never reaches `finally`, and
    the chronometers keep running.
  */
  datatype Outcome = Exited(app: App) | Closed(app: App) | Waiting(app: App)

  /**
    `main`: commands run until EXIT or until the input ends; a number that
    names no option is reported and skipped. `STOP_CHRONO` reads a second
    number only when some chronometer is running; the other commands pass
    no number on.
  */
  function Session(app: App, lines: seq<Line>): (r: Outcome)
    ensures |lines| == 0 ==> r == Waiting(app)
    ensures !r.Waiting? ==> GetRunning(r.app.chronos) == []
    ensures Inv(app) ==> Inv(r.app)
    decreases |lines|
  {
    if |lines| == 0 then Waiting(app)
    else
      match Menu.FromValue(lines[0].value)
      case None => Session(app, lines[1..])
      case Some(o) =>
        if o == Menu.StopChrono && |GetRunning(app.chronos)| > 0 then
          if |lines| == 1 then Closed(app.(chronos := StopAll(app.chronos)))
          else Session(ProcessMenuOption(app, o, lines[0].now, lines[1].value).0, lines[2..])
        else
          var (next, more) := ProcessMenuOption(app, o, lines[0].now, 0);
          if more then Session(next, lines[1..]) else Exited(next.(chronos := StopAll(next.chronos)))
  }

  /** A number that names no option, or one other than `STOP_CHRONO` and `EXIT`. */
  predicate Harmless(v: int) {
    v != Menu.Value(Menu.StopChrono) && v != Menu.Value(Menu.Exit)
  }

  /**
    Input that never asks to stop or exit leaves `main` waiting at the menu
    prompt once it ends, with every chronometer it created still running.
  */
  lemma {:induction false} WithoutExitNeverEnds(app: App, lines: seq<Line>)
    requires forall i :: 0 <= i < |lines| ==> Harmless(lines[i].value)
    ensures Session(app, lines).Waiting?
    ensures |GetRunning(Session(app, lines).app.chronos)| >= |GetRunning(app.chronos)|
    decreases |lines|
  {
    if |lines| > 0 {
      assert Harmless(lines[0].value);
      match Menu.FromValue(lines[0].value)
      case None =>
        WithoutExitNeverEnds(app, lines[1..]);
      case Some(o) =>
        if o == Menu.CreateChrono {
          var next := CreateNewChrono(app, lines[0].now);
          CreateAddsRunning(app, lines[0].now);
          WithoutExitNeverEnds(next, lines[1..]);
        } else {
          assert o == Menu.ViewRunning;
          WithoutExitNeverEnds(app, lines[1..]);
        }
    }
  }

  /** Creating a chronometer adds one running chronometer, at the end. */
  lemma CreateAddsRunning(app: App, now: int)
    ensures GetRunning(CreateNewChrono(app, now).chronos) == GetRunning(app.chronos) + [CreateNewChrono(app, now).chronos[|app.chronos|]]
  {
    var r := CreateNewChrono(app, now).chronos;
    assert r[..|r| - 1] == app.chronos;
  }

  /**
    Typing `1` and then nothing more: a chronometer is created, and `main`
    waits at the menu for ever with it running.
  */
  lemma CreateThenEndOfInput(now: int)
    ensures var r := Session(Init, [Line(Menu.Value(Menu.CreateChrono), now)]);
            r.Waiting? && GetRunning(r.app.chronos) == [Chrono(ChronoName(1), now, true)]
  {
    Menu.FromValueRoundTrip(Menu.CreateChrono);
    CreateAddsRunning(Init, now);
  }
}

=== FILE: doubles.dfy ===
/**
  Java's `double` arithmetic as far as `(int) (Math.random() * k)` needs it.
  `Math.random()` returns a multiple of `2^-53` in `[0, 1)`, so a value is
  counted in units of `2^-53`; the product with an `int` is rounded to the
  nearest double, ties to even (section 4.3.1 of IEEE 754-2008), before the
  cast truncates it.
*/
module Doubles {

  /** `2^53`: the units of `2^-53` in 1. */
  const Two53: nat := 0x20_0000_0000_0000

  /** `2^31`: every `int` factor is below it. */
  const IntLimit: nat := 0x8000_0000

  // ---- integer facts the solver needs spelled out ------------------------

  lemma DivMod(p: nat, u: nat)
    requires u >= 1
    ensures p == (p / u) * u + p % u && 0 <= p % u < u
  {
  }

  lemma MulSucc(q: nat, u: nat)
    ensures (q + 1) * u == q * u + u
  {
  }

  lemma MulMono(a: nat, b: nat, c: nat)
    requires a <= b
    ensures a * c <= b * c
  {
  }

  lemma MulAssoc(a: nat, b: nat, c: nat)
    ensures (a * b) * c == a * (b * c)
  {
  }

  /** Between two different multiples of `u` lies at least `u`. */
  lemma MulGap(a: nat, b: nat, u: nat)
    requires a < b
    ensures a * u + u <= b * u
  {
    MulMono(a + 1, b, u);
    MulSucc(a, u);
  }

  /** The quotient is the only `q` with `p = q * u + r` and `0 <= r < u`. */
  lemma DivUnique(p: nat, u: nat, q: nat, r: nat)
    requires u >= 1 && p == q * u + r && r < u
    ensures p / u == q
  {
    DivMod(p, u);
    var a := p / u;
    if a < q {
      MulGap(a, q, u);
      assert false;
    } else if a > q {
      MulGap(q, a, u);
      assert false;
    }
  }

  lemma DivMono(a: nat, b: nat, u: nat)
    requires u >= 1 && a <= b
    ensures a / u <= b / u
  {
    DivMod(a, u);
    DivMod(b, u);
    if a / u > b / u {
      MulGap(b / u, a / u, u);
      assert false;
    }
  }

  lemma MulMod(q: nat, u: nat)
    requires u >= 1
    ensures (q * u) % u == 0
  {
    DivMod(q * u, u);
    DivUnique(q * u, u, q, 0);
  }

  // ---- doubles as multiples of 2^-53 ------------------------------------

  /** `2^e`. */
  function Pow2(e: nat): (r: nat)
    ensures r >= 1
  {
    if e == 0 then 1 else 2 * Pow2(e - 1)
  }

  lemma {:induction false} Pow2Add(a: nat, b: nat)
    ensures Pow2(a + b) == Pow2(a) * Pow2(b)
  {
    if b > 0 {
      Pow2Add(a, b - 1);
      assert Pow2(a + b) == 2 * Pow2(a + b - 1);
    }
  }

  /** `2^31` and `2^53`, by doubling `2^8` in steps. */
  lemma Pow2Limits()
    ensures Pow2(31) == IntLimit && Pow2(53) == Two53
  {
    assert Pow2(8) == 256;
    Pow2Add(8, 8); Pow2Add(16, 8); Pow2Add(24, 8); Pow2Add(32, 8);
    Pow2Add(40, 8); Pow2Add(48, 5); Pow2Add(24, 7);
  }

  /**
    The exponent of the gap between neighbouring doubles near `p * 2^-53`,
    in units of `2^-53`: below 1 every unit is representable (gap `2^0`);
    in `[2^j, 2^(j+1))` a double has 53 significant bits, so the gap is
    `2^(j+1)` units.
  */
  function SpacingExp(p: nat): (e: nat)
    ensures p < Two53 * Pow2(e)
    ensures e > 0 ==> Two53 * Pow2(e) <= 2 * p
  {
    if p < Two53 then 0
    else 1 + SpacingExp(p / 2)
  }

  /** A product below `2^53 * 2^n` units has a gap of at most `2^n` units. */
  lemma {:induction false} SpacingAtMost(p: nat, n: nat)
    requires p < Two53 * Pow2(n)
    ensures SpacingExp(p) <= n
  {
    if p >= Two53 {
      SpacingAtMost(p / 2, n - 1);
    }
  }

  /** The gap between neighbouring doubles near `p * 2^-53`, in units of `2^-53`. */
  function Spacing(p: nat): (u: nat)
    ensures u >= 1
  {
    Pow2(SpacingExp(p))
  }

  /** For a product of a draw and an `int`, the gap is at most `2^31` units and divides `2^53`. */
  lemma SpacingSmall(p: nat)
    requires p < Two53 * IntLimit
    ensures SpacingExp(p) <= 31 && Spacing(p) <= IntLimit
    ensures Two53 == Pow2(53 - SpacingExp(p)) * Spacing(p)
  {
    var e := SpacingExp(p);
    Pow2Limits();
    SpacingAtMost(p, 31);
    Pow2Add(31 - e, e);
    MulMono(1, Pow2(31 - e), Pow2(e));
    Pow2Add(53 - e, e);
  }

  /**
    IEEE 754 round-to-nearest, ties-to-even: the number of gaps `u` in the
    multiple of `u` nearest `p`; on a tie, the even one.
  */
  function RoundHalfEven(p: nat, u: nat): (q: nat)
    requires u >= 1
    ensures p <= q * u + u / 2 && q * u <= p + u / 2
    ensures 2 * (p % u) == u ==> q % 2 == 0
  {
    var q := p / u;
    var rem := p % u;
    var below := q * u;
    DivMod(p, u);
    MulSucc(q, u);
    assert p == below + rem && (q + 1) * u == below + u;
    if 2 * rem > u || (2 * rem == u && q % 2 == 1) then q + 1 else q
  }

  /** Rounding never goes below a multiple of the gap that is at most `p`. */
  lemma RoundNotBelow(p: nat, u: nat, j: nat)
    requires u >= 1 && j * u <= p
    ensures j <= RoundHalfEven(p, u)
  {
    DivMono(j * u, p, u);
    DivUnique(j * u, u, j, 0);
  }

  /** A draw times `k` stays `k` units below `k`. */
  lemma MulBelow(m: nat, k: nat)
    requires m < Two53
    ensures m * k <= Two53 * k - k
  {
    MulMono(m, Two53 - 1, k);
  }

  /** Rounding keeps the product at or above the integer below it. */
  lemma RoundedNotBelowFloor(p: nat)
    requires p < Two53 * IntLimit
    ensures p / Two53 * Two53 <= RoundHalfEven(p, Spacing(p)) * Spacing(p)
  {
    var u := Spacing(p);
    var q := RoundHalfEven(p, u);
    SpacingSmall(p);
    var c := Pow2(53 - SpacingExp(p));
    var j := (p / Two53) * c;
    MulAssoc(p / Two53, c, u);
    DivMod(p, Two53);
    RoundNotBelow(p, u, j);
    MulMono(j, q, u);
  }

  /** Rounding keeps a product with `k` below `k`. */
  lemma RoundedBelowLimit(m: nat, k: nat)
    requires m < Two53 && 1 <= k < IntLimit
    ensures RoundHalfEven(m * k, Spacing(m * k)) * Spacing(m * k) < k * Two53
  {
    var p := m * k;
    MulBelow(m, k);
    var u := Spacing(p);
    if SpacingExp(p) > 0 {
      assert Two53 * u <= 2 * p;
      assert u < 2 * k;
    }
  }

  /**
    `d * k` in Java, for a double `d = m * 2^-53` in `[0, 1)` and an `int`
    `k >= 1`: the exact product `m * k` units rounded to the nearest
    double, in units of `2^-53`. The result is a double (a multiple of the
    gap), within half a gap of the exact product, not below the integer
    under the exact product and below `k`.
  */
  function DoubleProduct(m: nat, k: nat): (d: nat)
    requires m < Two53 && 1 <= k < IntLimit
    ensures d % Spacing(m * k) == 0
    ensures m * k <= d + Spacing(m * k) / 2 && d <= m * k + Spacing(m * k) / 2
    ensures (m * k) / Two53 * Two53 <= d < k * Two53
  {
    var u := Spacing(m * k);
    var q := RoundHalfEven(m * k, u);
    MulMod(q, u);
    MulBelow(m, k);
    RoundedNotBelowFloor(m * k);
    RoundedBelowLimit(m, k);
    q * u
  }
}

=== FILE: grayscale.dfy ===
/**
  `ImageProcessor`: every pixel inside one rectangle is replaced by the
  integer mean of its components. With three or more bands only the first
  three components (red, green, blue) are averaged and overwritten, so an
  alpha band keeps its value; with fewer bands all components are averaged
  and overwritten. The raster is a grid of component vectors indexed
  `[y][x]`; samples are non-negative, as raster samples are.
*/
module Grayscale {
  import opened Tiling

  type Pixel = seq<nat>

  /** `WritableRaster`: `pixels[y][x]` holds the `bands` samples of pixel (x, y). */
  datatype Raster = Raster(width: nat, height: nat, bands: nat, pixels: seq<seq<Pixel>>)

  predicate Valid(img: Raster) {
    img.bands >= 1
    && |img.pixels| == img.height
    && (forall y :: 0 <= y < img.height ==> |img.pixels[y]| == img.width)
    && (forall y, x :: 0 <= y < img.height && 0 <= x < img.width ==> |img.pixels[y][x]| == img.bands)
  }

  function Sum(p: Pixel): nat {
    if |p| == 0 then 0 else Sum(p[..|p| - 1]) + p[|p| - 1]
  }

  /** `calculateGrayFromRGB` for three or more bands, `calculateGrayFromComponents` otherwise. */
  function GrayOf(p: Pixel): nat
    requires |p| >= 1
  {
    if |p| >= 3 then (p[0] + p[1] + p[2]) / 3 else Sum(p) / |p|
  }

  /** How many leading components the pass averages and overwrites. */
  function Averaged(p: Pixel): nat {
    if |p| >= 3 then 3 else |p|
  }

  /** `setPixelToGray`: the first `k` components become `gray`, the others are kept. */
  function SetPixelToGray(p: Pixel, gray: nat, k: nat): (q: Pixel)
    requires k <= |p|
    ensures |q| == |p|
    ensures forall i :: 0 <= i < k ==> q[i] == gray
    ensures forall i :: k <= i < |p| ==> q[i] == p[i]
  {
    seq(|p|, i requires 0 <= i < |p| => if i < k then gray else p[i])
  }

  /** What the pass writes back for one pixel. */
  function GrayPixel(p: Pixel): (q: Pixel)
    requires |p| >= 1
    ensures |q| == |p|
  {
    SetPixelToGray(p, GrayOf(p), Averaged(p))
  }

  lemma {:induction false} SumConst(p: Pixel, g: nat)
    requires forall i :: 0 <= i < |p| ==> p[i] == g
    ensures Sum(p) == |p| * g
  {
    if |p| > 0 {
      SumConst(p[..|p| - 1], g);
    }
  }

  /** Graying a pixel that is already gray changes nothing. */
  lemma GrayPixelIdempotent(p: Pixel)
    requires |p| >= 1
    ensures GrayPixel(GrayPixel(p)) == GrayPixel(p)
  {
    var q := GrayPixel(p);
    var g := GrayOf(p);
    if |p| < 3 {
      SumConst(q, g);
      assert Sum(q) / |q| == g;
    }
    assert GrayOf(q) == g;
  }

  function MinOf(p: Pixel, k: nat): (m: nat)
    requires 1 <= k <= |p|
    ensures forall i :: 0 <= i < k ==> m <= p[i]
    ensures exists i :: 0 <= i < k && m == p[i]
  {
    if k == 1 then p[0] else if p[k - 1] < MinOf(p, k - 1) then p[k - 1] else MinOf(p, k - 1)
  }

  function MaxOf(p: Pixel, k: nat): (m: nat)
    requires 1 <= k <= |p|
    ensures forall i :: 0 <= i < k ==> p[i] <= m
    ensures exists i :: 0 <= i < k && m == p[i]
  {
    if k == 1 then p[0] else if p[k - 1] > MaxOf(p, k - 1) then p[k - 1] else MaxOf(p, k - 1)
  }

  lemma {:induction false} SumBounds(p: Pixel, lo: nat, hi: nat)
    requires forall i :: 0 <= i < |p| ==> lo <= p[i] <= hi
    ensures |p| * lo <= Sum(p) <= |p| * hi
  {
    if |p| > 0 {
      var n := |p| - 1;
      var init := p[..n];
      assert forall i :: 0 <= i < n ==> init[i] == p[i];
      SumBounds(init, lo, hi);
      SumStep(Sum(init), p[n], n, lo, hi);
    }
  }

  /** Adding one component within the bounds to a sum of `n` such components. */
  lemma SumStep(sum: nat, x: nat, n: nat, lo: nat, hi: nat)
    ensures n * lo <= sum <= n * hi && lo <= x <= hi ==> (n + 1) * lo <= sum + x <= (n + 1) * hi
  {
    assert (n + 1) * lo == n * lo + lo;
    assert (n + 1) * hi == n * hi + hi;
  }

  lemma DivBetween(s: nat, k: nat, lo: nat, hi: nat)
    requires k >= 1 && k * lo <= s <= k * hi
    ensures lo <= s / k <= hi
  {
    var q := s / k;
    assert q * k <= s < q * k + k;
    MulMono(q + 1, lo, k);
    MulMono(hi + 1, q, k);
  }

  /** The gray value lies between the smallest and the largest averaged component. */
  lemma GrayBetween(p: Pixel)
    requires |p| >= 1
    ensures MinOf(p, Averaged(p)) <= GrayOf(p) <= MaxOf(p, Averaged(p))
  {
    var k := Averaged(p);
    var lo := MinOf(p, k);
    var hi := MaxOf(p, k);
    if |p| >= 3 {
      DivBetween(p[0] + p[1] + p[2], 3, lo, hi);
    } else {
      SumBounds(p, lo, hi);
      DivBetween(Sum(p), |p|, lo, hi);
    }
  }

  /** An RGB pixel (10, 20, 30) becomes (20, 20, 20); an alpha band is kept. */
  lemma GrayExamples()
    ensures GrayPixel([10, 20, 30]) == [20, 20, 20]
    ensures GrayPixel([10, 20, 30, 255]) == [20, 20, 20, 255]
    ensures GrayPixel([7, 9]) == [8, 8]
  {
    assert Sum([7, 9]) == Sum([7]) + 9;
  }

  // ---- whole areas -----------------------------------------------------

  /** Reference definition: every pixel of `area` grayed, every other pixel kept. */
  function GrayArea(img: Raster, area: Rect): (out: Raster)
    requires Valid(img)
    ensures Valid(out)
    ensures out.width == img.width && out.height == img.height && out.bands == img.bands
  {
    img.(pixels := seq(img.height, y requires 0 <= y < img.height =>
      seq(img.width, x requires 0 <= x < img.width =>
        if Contains(area, x, y) then GrayPixel(img.pixels[y][x]) else img.pixels[y][x])))
  }

  /** Two valid rasters of the same size with the same pixels are equal. */
  lemma SamePixels(a: Raster, b: Raster)
    requires Valid(a) && Valid(b)
    requires a.width == b.width && a.height == b.height && a.bands == b.bands
    requires forall y, x :: 0 <= y < a.height && 0 <= x < a.width ==> a.pixels[y][x] == b.pixels[y][x]
    ensures a == b
  {
    forall y | 0 <= y < a.height
      ensures a.pixels[y] == b.pixels[y]
    {
    }
  }

  /** The area lies inside the raster, or is empty (then the loops visit nothing). */
  predicate AreaFits(img: Raster, area: Rect) {
    area.width <= 0 || area.height <= 0 || InBounds(area, img.width, img.height)
  }

  function SetPixel(img: Raster, x: nat, y: nat, p: Pixel): (out: Raster)
    requires Valid(img) && x < img.width && y < img.height && |p| == img.bands
    ensures Valid(out)
    ensures out.width == img.width && out.height == img.height && out.bands == img.bands
    ensures out.pixels[y][x] == p
    ensures forall y', x' :: 0 <= y' < img.height && 0 <= x' < img.width && (y', x') != (y, x) ==>
              out.pixels[y'][x'] == img.pixels[y'][x']
  {
    img.(pixels := img.pixels[y := img.pixels[y][x := p]])
  }

  /**
    `run`: the two nested loops of `processRGBPixels` / `processGenericPixels`
    (the choice between them is the band test inside `GrayPixel`). Each pixel
    of the area is read from the raster, grayed and written back; the result
    is the reference `GrayArea`.
  */
  method ProcessArea(img: Raster, area: Rect) returns (out: Raster)
    requires Valid(img) && AreaFits(img, area)
    ensures out == GrayArea(img, area)
  {
    out := img;
    var maxY := area.y + area.height;
    var maxX := area.x + area.width;
    var y := area.y;
    while y < maxY
      invariant area.y <= y && (area.height > 0 ==> y <= maxY)
      invariant Valid(out) && out.width == img.width && out.height == img.height && out.bands == img.bands
      invariant forall y', x' :: 0 <= y' < img.height && 0 <= x' < img.width ==>
                  out.pixels[y'][x'] == if Contains(area, x', y') && y' < y then GrayPixel(img.pixels[y'][x'])
                                        else img.pixels[y'][x']
    {
      var x := area.x;
      while x < maxX
        invariant area.x <= x && (area.width > 0 ==> x <= maxX)
        invariant Valid(out) && out.width == img.width && out.height == img.height && out.bands == img.bands
        invariant forall y', x' :: 0 <= y' < img.height && 0 <= x' < img.width ==>
                    out.pixels[y'][x'] == if Contains(area, x', y') && (y' < y || (y' == y && x' < x))
                                          then GrayPixel(img.pixels[y'][x'])
                                          else img.pixels[y'][x']
      {
        var pixel := out.pixels[y][x];
        var gray := GrayOf(pixel);
        out := SetPixel(out, x, y, SetPixelToGray(pixel, gray, Averaged(pixel)));
        x := x + 1;
      }
      y := y + 1;
    }
    SamePixels(out, GrayArea(img, area));
  }

  /** Only pixels of the area change. */
  lemma GrayAreaOutside(img: Raster, area: Rect, x: nat, y: nat)
    requires Valid(img) && x < img.width && y < img.height && !Contains(area, x, y)
    ensures GrayArea(img, area).pixels[y][x] == img.pixels[y][x]
  {
  }

  /** Processing the same area twice gives the raster that processing it once gives. */
  lemma GrayAreaIdempotent(img: Raster, area: Rect)
    requires Valid(img)
    ensures GrayArea(GrayArea(img, area), area) == GrayArea(img, area)
  {
    var once := GrayArea(img, area);
    var twice := GrayArea(once, area);
    forall y, x | 0 <= y < img.height && 0 <= x < img.width
      ensures twice.pixels[y][x] == once.pixels[y][x]
    {
      if Contains(area, x, y) {
        GrayPixelIdempotent(img.pixels[y][x]);
      }
    }
    SamePixels(twice, once);
  }

  /** Each pixel's new value depends only on itself, so two areas can be processed in either order. */
  lemma GrayAreaCommutes(img: Raster, a: Rect, b: Rect)
    requires Valid(img)
    ensures GrayArea(GrayArea(img, a), b) == GrayArea(GrayArea(img, b), a)
  {
    var ab := GrayArea(GrayArea(img, a), b);
    var ba := GrayArea(GrayArea(img, b), a);
    forall y, x | 0 <= y < img.height && 0 <= x < img.width
      ensures ab.pixels[y][x] == ba.pixels[y][x]
    {
      if Contains(a, x, y) && Contains(b, x, y) {
        GrayPixelIdempotent(img.pixels[y][x]);
      }
    }
    SamePixels(ab, ba);
  }
}

=== FILE: html_escape.dfy ===
/**
  `escapeHtml` of the two HTML-rendering servlets: five `String.replace`
  calls, ampersand first, and its partner, a reader that turns the five
  character references back into characters.
*/
module HtmlEscape {
  import opened Optional
  import opened Text

  /** The five characters `escapeHtml` rewrites. */
  predicate IsHtmlSpecial(c: char) {
    c == '&' || c == '<' || c == '>' || c == '"' || c == '\''
  }

  /** `escapeHtml` exactly as written: `null` gives "", otherwise five `replace` calls in order. */
  function EscapeHtml(text: Option<string>): (r: string)
    ensures text.None? ==> r == ""
  {
    match text
    case None => ""
    case Some(s) =>
      var s1 := ReplaceAll(s, '&', "&amp;");
      var s2 := ReplaceAll(s1, '<', "&lt;");
      var s3 := ReplaceAll(s2, '>', "&gt;");
      var s4 := ReplaceAll(s3, '"', "&quot;");
      ReplaceAll(s4, '\'', "&#39;")
  }

  /** Reference definition: the character reference for one input character. */
  function EntityFor(c: char): (r: string)
    ensures !IsHtmlSpecial(c) ==> r == [c]
    ensures IsHtmlSpecial(c) ==> |r| >= 4 && r[0] == '&' && r[|r| - 1] == ';'
  {
    if c == '&' then "&amp;"
    else if c == '<' then "&lt;"
    else if c == '>' then "&gt;"
    else if c == '"' then "&quot;"
    else if c == '\'' then "&#39;"
    else [c]
  }

  function EscapeEach(s: string): string {
    if |s| == 0 then "" else EntityFor(s[0]) + EscapeEach(s[1..])
  }

  lemma ReplaceOnSmall(t: string, d: char, rep: string)
    requires |t| == 1 || d !in t
    ensures ReplaceAll(t, d, rep) == if |t| == 1 && t[0] == d then rep else t
  {
    if d !in t {
      ReplaceAllAbsent(t, d, rep);
    } else {
      assert t == [t[0]];
      assert t[1..] == [];
    }
  }

  /** A reference produced earlier holds none of `<`, `>`, `"`, `'`, so later steps keep it. */
  lemma KeepEntity(c: char, d: char, rep: string)
    requires IsHtmlSpecial(c) && IsHtmlSpecial(d) && d != '&'
    ensures ReplaceAll(EntityFor(c), d, rep) == EntityFor(c)
  {
    var e := EntityFor(c);
    assert forall i :: 0 <= i < |e| ==> e[i] == '&' || e[i] == ';' || e[i] == '#' || 'a' <= e[i] <= 'z' || '0' <= e[i] <= '9';
    ReplaceAllAbsent(e, d, rep);
  }

  /** Escaping one character through the chain gives its reference. */
  lemma EscapeHtmlSingle(c: char)
    ensures EscapeHtml(Some([c])) == EntityFor(c)
  {
    var s0 := [c];
    ReplaceOnSmall(s0, '&', "&amp;");
    var s1 := ReplaceAll(s0, '&', "&amp;");
    ReplaceOnSmall(s1, '<', "&lt;");
    if c != '&' {
      var s2 := ReplaceAll(s1, '<', "&lt;");
      ReplaceOnSmall(s2, '>', "&gt;");
      if c != '<' {
        var s3 := ReplaceAll(s2, '>', "&gt;");
        ReplaceOnSmall(s3, '"', "&quot;");
        if c != '>' {
          var s4 := ReplaceAll(s3, '"', "&quot;");
          ReplaceOnSmall(s4, '\'', "&#39;");
          if c == '"' {
            KeepEntity(c, '\'', "&#39;");
          }
        } else {
          KeepEntity(c, '"', "&quot;");
          KeepEntity(c, '\'', "&#39;");
        }
      } else {
        KeepEntity(c, '>', "&gt;");
        KeepEntity(c, '"', "&quot;");
        KeepEntity(c, '\'', "&#39;");
      }
    } else {
      KeepEntity(c, '<', "&lt;");
      KeepEntity(c, '>', "&gt;");
      KeepEntity(c, '"', "&quot;");
      KeepEntity(c, '\'', "&#39;");
    }
  }

  lemma EscapeHtmlConcat(a: string, b: string)
    ensures EscapeHtml(Some(a + b)) == EscapeHtml(Some(a)) + EscapeHtml(Some(b))
  {
    var s1a := ReplaceAll(a, '&', "&amp;");
    var s1b := ReplaceAll(b, '&', "&amp;");
    ReplaceAllConcat(a, b, '&', "&amp;");
    var s2a := ReplaceAll(s1a, '<', "&lt;");
    var s2b := ReplaceAll(s1b, '<', "&lt;");
    ReplaceAllConcat(s1a, s1b, '<', "&lt;");
    var s3a := ReplaceAll(s2a, '>', "&gt;");
    var s3b := ReplaceAll(s2b, '>', "&gt;");
    ReplaceAllConcat(s2a, s2b, '>', "&gt;");
    var s4a := ReplaceAll(s3a, '"', "&quot;");
    var s4b := ReplaceAll(s3b, '"', "&quot;");
    ReplaceAllConcat(s3a, s3b, '"', "&quot;");
    ReplaceAllConcat(s4a, s4b, '\'', "&#39;");
  }

  /**
    Because `&` is replaced first, the chain equals escaping each character on
    its own: the `&` that later references introduce is never turned into `&amp;`.
  */
  lemma {:induction false} EscapeHtmlIsPerCharacter(s: string)
    ensures EscapeHtml(Some(s)) == EscapeEach(s)
  {
    if |s| > 0 {
      HeadTail(s);
      EscapeHtmlConcat([s[0]], s[1..]);
      EscapeHtmlSingle(s[0]);
      EscapeHtmlIsPerCharacter(s[1..]);
    } else {
      assert ReplaceAll(s, '&', "&amp;") == [];
    }
  }

  lemma {:induction false} EscapeEachShape(s: string)
    ensures (forall i :: 0 <= i < |s| ==> !IsHtmlSpecial(s[i])) ==> EscapeEach(s) == s
    ensures forall i :: 0 <= i < |EscapeEach(s)| ==>
              EscapeEach(s)[i] != '<' && EscapeEach(s)[i] != '>' && EscapeEach(s)[i] != '"' && EscapeEach(s)[i] != '\''
  {
    if |s| > 0 {
      EscapeEachShape(s[1..]);
      var e := EscapeEach(s);
      var h := EntityFor(s[0]);
      forall i | 0 <= i < |e|
        ensures e[i] != '<' && e[i] != '>' && e[i] != '"' && e[i] != '\''
      {
        if i >= |h| {
          assert e[i] == EscapeEach(s[1..])[i - |h|];
        }
      }
      if forall i :: 0 <= i < |s| ==> !IsHtmlSpecial(s[i]) {
        assert forall i :: 0 <= i < |s[1..]| ==> !IsHtmlSpecial(s[1..][i]);
        HeadTail(s);
      }
    }
  }

  /**
    The escaped text holds no raw `<`, `>`, `"` or `'`, and a text without any
    of the five special characters comes back unchanged.
  */
  lemma EscapeHtmlShape(s: string)
    ensures forall i :: 0 <= i < |EscapeHtml(Some(s))| ==>
              !(EscapeHtml(Some(s))[i] in {'<', '>', '"', '\''})
    ensures (forall i :: 0 <= i < |s| ==> !IsHtmlSpecial(s[i])) ==> EscapeHtml(Some(s)) == s
  {
    EscapeHtmlIsPerCharacter(s);
    EscapeEachShape(s);
  }

  // ---- reading references back -------------------------------------------

  /** Text holding `<` is changed by escaping. */
  lemma EscapeChangesAngle(s: string)
    requires '<' in s
    ensures EscapeHtml(Some(s)) != s
  {
    EscapeHtmlShape(s);
    var k :| 0 <= k < |s| && s[k] == '<';
    assert k < |EscapeHtml(Some(s))| ==> EscapeHtml(Some(s))[k] != s[k];
  }

  /** Decodes the five references; any other text is taken literally. */
  function UnescapeHtml(s: string): string
    decreases |s|
  {
    if |s| == 0 then ""
    else if |s| >= 5 && s[..5] == "&amp;" then "&" + UnescapeHtml(s[5..])
    else if |s| >= 4 && s[..4] == "&lt;" then "<" + UnescapeHtml(s[4..])
    else if |s| >= 4 && s[..4] == "&gt;" then ">" + UnescapeHtml(s[4..])
    else if |s| >= 6 && s[..6] == "&quot;" then "\"" + UnescapeHtml(s[6..])
    else if |s| >= 5 && s[..5] == "&#39;" then "'" + UnescapeHtml(s[5..])
    else [s[0]] + UnescapeHtml(s[1..])
  }

  /** A character that does not start a reference is read literally. */
  lemma UnescapePlain(c: char, t: string)
    requires c != '&'
    ensures UnescapeHtml([c] + t) == [c] + UnescapeHtml(t)
  {
    var u := [c] + t;
    assert u[0] == c;
    assert |u| >= 4 ==> u[..4][0] == c;
    assert |u| >= 5 ==> u[..5][0] == c;
    assert |u| >= 6 ==> u[..6][0] == c;
    assert u[1..] == t;
  }

  /** A reference `&` followed by `name` and `;` read at the front of `u`. */
  lemma UnescapeRef(c: char, t: string)
    requires IsHtmlSpecial(c)
    ensures UnescapeHtml(EntityFor(c) + t) == [c] + UnescapeHtml(t)
  {
    var h := EntityFor(c);
    var u := h + t;
    assert u[..|h|] == h;
    assert u[|h|..] == t;
    assert u[1] == h[1];
    assert u[2] == h[2];
    if c == '&' {
    } else if c == '<' {
      assert |u| >= 5 ==> u[..5][1] != "&amp;"[1];
    } else if c == '>' {
      assert |u| >= 5 ==> u[..5][1] != "&amp;"[1];
      assert u[..4][1] != "&lt;"[1];
    } else if c == '"' {
      assert |u| >= 5 ==> u[..5][1] != "&amp;"[1];
      assert u[..4][1] != "&lt;"[1];
      assert u[..4][1] != "&gt;"[1];
    } else {
      assert |u| >= 5 ==> u[..5][1] != "&amp;"[1];
      assert u[..4][1] != "&lt;"[1];
      assert u[..4][1] != "&gt;"[1];
      assert |u| >= 6 ==> u[..6][1] != "&quot;"[1];
    }
  }

  /** Decoding a reference (or a plain character) followed by any text. */
  lemma UnescapeStep(c: char, t: string)
    ensures UnescapeHtml(EntityFor(c) + t) == [c] + UnescapeHtml(t)
  {
    if IsHtmlSpecial(c) {
      UnescapeRef(c, t);
    } else {
      UnescapePlain(c, t);
    }
  }

  lemma {:induction false} UnescapeEach(s: string, t: string)
    ensures UnescapeHtml(EscapeEach(s) + t) == s + UnescapeHtml(t)
  {
    if |s| > 0 {
      var rest := EscapeEach(s[1..]) + t;
      EscapeEachCons(s, t);
      UnescapeStep(s[0], rest);
      UnescapeEach(s[1..], t);
      AppendAssoc([s[0]], s[1..], UnescapeHtml(t));
    } else {
      assert EscapeEach(s) == [];
      EmptyConcat(EscapeEach(s), t);
      EmptyConcat(s, UnescapeHtml(t));
    }
  }

  /** Escaping a non-empty text, then appending: the first reference, then the rest. */
  lemma EscapeEachCons(s: string, t: string)
    ensures |s| > 0 ==> s == [s[0]] + s[1..] && EscapeEach(s) + t == EntityFor(s[0]) + (EscapeEach(s[1..]) + t)
  {
    if |s| > 0 {
      assert s == [s[0]] + s[1..];
      AppendAssoc(EntityFor(s[0]), EscapeEach(s[1..]), t);
    }
  }

  /** The round trip of `escapeHtml`: decoding the references recovers the text. */
  lemma EscapeHtmlRoundTrip(s: string)
    ensures UnescapeHtml(EscapeHtml(Some(s))) == s
  {
    EscapeHtmlIsPerCharacter(s);
    UnescapeEach(s, "");
    assert EscapeEach(s) + "" == EscapeEach(s);
  }

  /** Text without `&` is read literally, whatever follows it. */
  lemma {:induction false} UnescapeLiteral(a: string, t: string)
    requires forall i :: 0 <= i < |a| ==> a[i] != '&'
    ensures UnescapeHtml(a + t) == a + UnescapeHtml(t)
  {
    if |a| > 0 {
      var rest := a[1..] + t;
      HeadTail(a);
      AppendAssoc([a[0]], a[1..], t);
      UnescapePlain(a[0], rest);
      UnescapeLiteral(a[1..], t);
      AppendAssoc([a[0]], a[1..], UnescapeHtml(t));
    } else {
      assert a + t == t;
    }
  }

  /**
    An escaped value between two pieces of literal text without `&`, as the
    error pages write it, decodes to the value as given.
  */
  lemma UnescapeAround(a: string, x: string, b: string)
    requires forall i :: 0 <= i < |a| ==> a[i] != '&'
    requires forall i :: 0 <= i < |b| ==> b[i] != '&'
    ensures UnescapeHtml(a + EscapeHtml(Some(x)) + b) == a + x + b
  {
    var e := EscapeEach(x);
    assert EscapeHtml(Some(x)) == e by {
      EscapeHtmlIsPerCharacter(x);
    }
    assert a + EscapeHtml(Some(x)) + b == a + e + b;
    AppendAssoc(a, e, b);
    assert UnescapeHtml(a + (e + b)) == a + UnescapeHtml(e + b) by {
      UnescapeLiteral(a, e + b);
    }
    assert UnescapeHtml(e + b) == x + UnescapeHtml(b) by {
      UnescapeEach(x, b);
    }
    assert UnescapeHtml(b) == b by {
      UnescapeLiteral(b, "");
      assert b + "" == b;
    }
    AppendAssoc(a, x, b);
  }
}

=== FILE: http.dfy ===
/**
  What the servlets read from a request and the statuses they answer with.
  A request is its path info (the part of the path after the servlet's
  mapping, `null` when absent), its parameters and its context path.
  Statuses are those of section 15 of RFC 9110; `sendRedirect` answers
  302 Found whatever status was set before it.
*/
module Http {
  import opened Optional
  import opened Text

  const Ok: int := 200
  const Created: int := 201
  const Found: int := 302
  const BadRequest: int := 400
  const NotFound: int := 404

  datatype Request = Request(pathInfo: Option<string>, params: map<string, string>, contextPath: string)

  /** What a JSON handler answers: the status and the text it prints. */
  datatype Response = Response(status: int, body: string)

  /**
    What an HTML handler answers: a page of some view with a status, or a
    redirect to a location.
  */
  datatype Reply<V> = Render(status: int, view: V) | Redirect(location: string)

  /** The status on the wire: a redirect is 302 whatever was set before it. */
  function StatusOf<V>(r: Reply<V>): (s: int)
    ensures r.Redirect? ==> s == Found
    ensures r.Render? ==> s == r.status
  {
    match r
    case Render(status, _) => status
    case Redirect(_) => Found
  }

  /** `getParameter`: the value, or `null` when the parameter is absent. */
  function Param(req: Request, name: string): (r: Option<string>)
    ensures r.Some? <==> name in req.params
    ensures r.Some? ==> r.value == req.params[name]
  {
    if name in req.params then Some(req.params[name]) else None
  }

  /** `extractPathParameter`: the path info without its leading character, when it is longer than one character. */
  function ExtractPathParameter(pathInfo: Option<string>): (r: Option<string>)
    ensures r.Some? <==> pathInfo.Some? && |pathInfo.value| > 1
    ensures r.Some? ==> r.value != [] && pathInfo.value == [pathInfo.value[0]] + r.value
  {
    match pathInfo
    case None => None
    case Some(p) =>
      if |p| > 1 then
        assert p == [p[0]] + p[1..];
        Some(p[1..])
      else None
  }

  /** A non-empty segment after a slash is extracted as written. */
  lemma ExtractSegment(segment: string)
    requires segment != []
    ensures ExtractPathParameter(Some("/" + segment)) == Some(segment)
  {
    assert ("/" + segment)[1..] == segment;
  }

  /** The root path `/` and an absent path give no segment. */
  lemma ExtractNothing()
    ensures ExtractPathParameter(None).None?
    ensures ExtractPathParameter(Some("/")).None?
  {
  }

  /** The identifier a handler works on: the path segment when there is one, else the named parameter. */
  function ResolveId(req: Request, name: string): (r: Option<string>)
    ensures ExtractPathParameter(req.pathInfo).Some? ==> r == ExtractPathParameter(req.pathInfo)
    ensures ExtractPathParameter(req.pathInfo).None? ==> r == Param(req, name)
  {
    match ExtractPathParameter(req.pathInfo)
    case Some(id) => Some(id)
    case None => Param(req, name)
  }

  /** A path segment wins over the parameter, whatever the parameters are. */
  lemma PathWins(segment: string, params: map<string, string>, contextPath: string, name: string)
    requires segment != []
    ensures ResolveId(Request(Some("/" + segment), params, contextPath), name) == Some(segment)
  {
    ExtractSegment(segment);
  }

  /** `s == null || s.trim().isEmpty()`. */
  predicate MissingOrBlank(s: Option<string>) {
    s.None? || Trim(s.value) == []
  }

  /** `s != null && !s.isEmpty()`: the test `doGet` applies, without trimming. */
  predicate Present(s: Option<string>) {
    s.Some? && s.value != []
  }

  /** A value that passes the blank test also passes the test of `doGet`. */
  lemma NotBlankIsPresent(s: Option<string>)
    requires !MissingOrBlank(s)
    ensures Present(s)
  {
  }

  /** What a form `POST` carries out. */
  datatype Action = AddAction | PutAction | DeleteAction

  /**
    The `_method` dispatch of `doPost`: `"PUT".equalsIgnoreCase(method)` goes
    to `doPut`, else `"DELETE".equalsIgnoreCase(method)` to `doDelete`, and
    anything else, `null` included, is an ordinary `POST`.
  */
  function Dispatch(methodParam: Option<string>): (a: Action)
    ensures a == PutAction <==> methodParam.Some? && EqualsIgnoreCase("PUT", methodParam.value)
    ensures a == DeleteAction <==> methodParam.Some? && EqualsIgnoreCase("DELETE", methodParam.value)
    ensures a == AddAction <==> methodParam.None? || (!EqualsIgnoreCase("PUT", methodParam.value) && !EqualsIgnoreCase("DELETE", methodParam.value))
  {
    if methodParam.Some? && EqualsIgnoreCase("PUT", methodParam.value) then PutAction
    else if methodParam.Some? && EqualsIgnoreCase("DELETE", methodParam.value) then DeleteAction
    else AddAction
  }

  /**
    `_method` is read by lower-casing it: "put" selects `doPut`, "delete"
    `doDelete`, and every other text an ordinary `POST`.
  */
  lemma DispatchByLowerCase(m: string)
    ensures Dispatch(Some(m)) == PutAction <==> ToLower(m) == "put"
    ensures Dispatch(Some(m)) == DeleteAction <==> ToLower(m) == "delete"
    ensures Dispatch(Some(m)) == AddAction <==> ToLower(m) != "put" && ToLower(m) != "delete"
  {
    EqualsIgnoreCaseLower("PUT", m);
    EqualsIgnoreCaseLower("DELETE", m);
    assert ToLower("PUT") == "put";
    assert ToLower("DELETE") == "delete";
  }

  /** Case does not matter, and no `_method` means an ordinary `POST`. */
  lemma DispatchExamples()
    ensures Dispatch(Some("put")) == PutAction
    ensures Dispatch(Some("Delete")) == DeleteAction
    ensures Dispatch(Some("PATCH")) == AddAction
    ensures Dispatch(None) == AddAction
  {
    assert EqualsIgnoreCase("PUT", "put");
    assert EqualsIgnoreCase("DELETE", "Delete");
    assert !EqualsIgnoreCase("PUT", "PATCH") by {
      assert LowerChar("PUT"[1]) != LowerChar("PATCH"[1]);
    }
  }
}

=== FILE: image_processing.dfy ===
/**
  The driver of the image-processing demo: the image is divided into
  `NumThreads` areas and one processor runs per area. The threads are
  started together and joined; because each pixel's new value depends
  only on that pixel, the model runs the processors one after another in
  list order. Also `getFileExtension`, which picks the output format.
*/
module ImageProcessing {
  import opened Text
  import opened Tiling
  import opened Grayscale

  const OutputPath: string := "output/grayscale_Crucifixion_with_a_Donor,_ca._1480-85.jpg"

  /**
    `getFileExtension`: the lower-cased text after the last dot when that dot
    is neither the first nor the last character; "jpg" otherwise.
  */
  function GetFileExtension(filename: string): (r: string)
    ensures |r| > 0 && '.' !in r
    ensures NoUpper(r)
  {
    var lastDot := LastIndexOf(filename, '.');
    if lastDot > 0 && lastDot < |filename| - 1 then
      var ext := filename[lastDot + 1..];
      assert |ext| > 0;
      ToLowerAbsent(ext, '.');
      ToLower(ext)
    else
      JpgIsLower();
      "jpg"
  }

  lemma JpgIsLower()
    ensures NoUpper("jpg") && '.' !in "jpg"
  {
    var d := "jpg";
    assert d[0] == 'j' && d[1] == 'p' && d[2] == 'g';
  }

  /** A name `base.ext` with a non-empty base and a dot-free extension gives that extension, lower-cased. */
  lemma ExtensionAfterLastDot(base: string, ext: string)
    requires |base| > 0 && |ext| > 0 && '.' !in ext
    ensures GetFileExtension(base + "." + ext) == ToLower(ext)
  {
    var f := base + "." + ext;
    LastIndexOfSplit(base, '.', ext);
    assert f[|base| + 1..] == ext;
  }

  /** Any name ending in a dot, whatever dots come before, gives "jpg": the last dot is the last character. */
  lemma TrailingDotDefault(name: string)
    ensures GetFileExtension(name + ".") == "jpg"
  {
    LastIndexOfSplit(name, '.', "");
    assert name + "." == name + ['.'] + "";
  }

  /** Without a usable dot the format defaults to "jpg". */
  lemma DefaultExtension(base: string, rest: string)
    requires '.' !in base && '.' !in rest
    ensures GetFileExtension(base) == "jpg"
    ensures GetFileExtension(base + ".") == "jpg"
    ensures GetFileExtension("." + rest) == "jpg"
  {
    TrailingDotDefault(base);
    LastIndexOfSplit("", '.', rest);
    assert "." + rest == "" + ['.'] + rest;
  }

  /** The output image is written as "jpg". */
  lemma OutputFormat()
    ensures GetFileExtension(OutputPath) == "jpg"
  {
    var base := "output/grayscale_Crucifixion_with_a_Donor,_ca._1480-85";
    assert OutputPath == base + "." + "jpg";
    assert ToLower("jpg") == "jpg";
    ExtensionAfterLastDot(base, "jpg");
  }

  // ---- processing the whole image ----------------------------------------

  /** Number of areas holding pixel (`px`, `py`). */
  function CountContaining(areas: seq<Rect>, px: int, py: int): (c: nat)
    ensures c <= |areas|
    ensures c == 0 <==> forall k :: 0 <= k < |areas| ==> !Contains(areas[k], px, py)
  {
    if |areas| == 0 then 0
    else
      CountContaining(areas[..|areas| - 1], px, py)
      + (if Contains(areas[|areas| - 1], px, py) then 1 else 0)
  }

  lemma {:induction false} CountPrefix(width: nat, height: nat, n: nat, areas: seq<Rect>, k: nat, px: nat, py: nat)
    requires n >= 1 && |areas| == n && k <= n && px < width && py < height
    requires forall j :: 0 <= j < n ==> areas[j] == Cell(width, height, n, j)
    ensures CountContaining(areas[..k], px, py) == if Owner(width, height, n, px, py) < k then 1 else 0
  {
    if k > 0 {
      assert areas[..k][..k - 1] == areas[..k - 1];
      CountPrefix(width, height, n, areas, k - 1, px, py);
      CellContains(width, height, n, k - 1, px, py);
    }
  }

  /** With four threads every pixel of the image lies in exactly one area. */
  lemma EachPixelOnce(width: nat, height: nat, areas: seq<Rect>, px: nat, py: nat)
    requires |areas| == NumThreads && px < width && py < height
    requires forall j :: 0 <= j < NumThreads ==> areas[j] == Cell(width, height, NumThreads, j)
    ensures CountContaining(areas, px, py) == 1
  {
    FourThreadGrid();
    CellsCover(width, height, NumThreads, px, py);
    CountPrefix(width, height, NumThreads, areas, NumThreads, px, py);
    assert areas[..NumThreads] == areas;
  }

  /** Some area among the first `i` holds pixel (`px`, `py`). */
  predicate CoveredBefore(areas: seq<Rect>, i: nat, px: int, py: int)
    requires i <= |areas|
  {
    exists k :: 0 <= k < i && Contains(areas[k], px, py)
  }

  /**
    `processImageWithThreads`: divide the image into `NumThreads` areas and
    run one processor per area. Every pixel of the image ends up grayed.
  */
  method ProcessImage(img: Raster) returns (out: Raster)
    requires Valid(img)
    ensures Valid(out) && out.width == img.width && out.height == img.height && out.bands == img.bands
    ensures forall y, x :: 0 <= y < img.height && 0 <= x < img.width ==>
              out.pixels[y][x] == GrayPixel(img.pixels[y][x])
  {
    var areas := DivideImage(img.width, img.height, NumThreads);
    out := img;
    var i := 0;
    while i < |areas|
      invariant 0 <= i <= |areas|
      invariant Valid(out) && out.width == img.width && out.height == img.height && out.bands == img.bands
      invariant forall y, x :: 0 <= y < img.height && 0 <= x < img.width ==>
                  out.pixels[y][x] == if CoveredBefore(areas, i, x, y)
                                      then GrayPixel(img.pixels[y][x]) else img.pixels[y][x]
    {
      CellInBounds(img.width, img.height, NumThreads, i);
      var prev := out;
      out := ProcessArea(out, areas[i]);
      forall y, x | 0 <= y < img.height && 0 <= x < img.width
        ensures out.pixels[y][x] == if CoveredBefore(areas, i + 1, x, y)
                                    then GrayPixel(img.pixels[y][x]) else img.pixels[y][x]
      {
        if Contains(areas[i], x, y) {
          GrayPixelIdempotent(img.pixels[y][x]);
        } else if CoveredBefore(areas, i + 1, x, y) {
          var k :| 0 <= k < i + 1 && Contains(areas[k], x, y);
          assert CoveredBefore(areas, i, x, y);
        }
      }
      i := i + 1;
    }
    forall y, x | 0 <= y < img.height && 0 <= x < img.width
      ensures out.pixels[y][x] == GrayPixel(img.pixels[y][x])
    {
      EachPixelOnce(img.width, img.height, areas, x, y);
      assert CoveredBefore(areas, |areas|, x, y);
    }
  }
}

=== FILE: json.dfy ===
/**
  `JsonUtils` of the notes service: `escapeJson` (a chain of `String.replace`
  calls, backslash first), `toJsonArray`, and, as the partner that gives the
  escaping its meaning, a reader for the body of a JSON string literal that
  undoes exactly these escapes (the two-character escapes of section 7 of
  RFC 8259 for quotation mark, reverse solidus, backspace, form feed, line
  feed, carriage return and tab).
*/
module Json {
  import opened Optional
  import opened Text

  const Backspace: char := '\U{8}'
  const FormFeed: char := '\U{C}'

  /** The seven characters `escapeJson` rewrites. */
  predicate NeedsEscape(c: char) {
    c == '\\' || c == '"' || c == Backspace || c == FormFeed || c == '\n' || c == '\r' || c == '\t'
  }

  /** Control characters that the escaping removes from the text entirely. */
  predicate IsEscapedControl(c: char) {
    c == Backspace || c == FormFeed || c == '\n' || c == '\r' || c == '\t'
  }

  /** `escapeJson` exactly as written: `null` gives "", otherwise seven `replace` calls in order. */
  function EscapeJson(str: Option<string>): (r: string)
    ensures str.None? ==> r == ""
  {
    match str
    case None => ""
    case Some(s) =>
      var s1 := ReplaceAll(s, '\\', "\\\\");
      var s2 := ReplaceAll(s1, '"', "\\\"");
      var s3 := ReplaceAll(s2, Backspace, "\\b");
      var s4 := ReplaceAll(s3, FormFeed, "\\f");
      var s5 := ReplaceAll(s4, '\n', "\\n");
      var s6 := ReplaceAll(s5, '\r', "\\r");
      ReplaceAll(s6, '\t', "\\t")
  }

  /** Reference definition: what one input character turns into. */
  function EscapeChar(c: char): (r: string)
    ensures NeedsEscape(c) ==> |r| == 2 && r[0] == '\\'
    ensures !NeedsEscape(c) ==> r == [c]
  {
    if c == '\\' then "\\\\"
    else if c == '"' then "\\\""
    else if c == Backspace then "\\b"
    else if c == FormFeed then "\\f"
    else if c == '\n' then "\\n"
    else if c == '\r' then "\\r"
    else if c == '\t' then "\\t"
    else [c]
  }

  /** Reference definition: every character escaped independently, left to right. */
  function EscapeAll(s: string): (r: string)
  {
    if |s| == 0 then "" else EscapeChar(s[0]) + EscapeAll(s[1..])
  }

  function EscapeChain(s: string): string {
    EscapeJson(Some(s))
  }

  lemma ReplaceAllSingle(c: char, d: char, rep: string)
    ensures ReplaceAll([c], d, rep) == if c == d then rep else [c]
  {
    assert [c][1..] == [];
  }

  /** One replacement step applied to a single character or to an escape produced earlier. */
  lemma ReplaceStep(t: string, d: char, rep: string)
    requires |t| == 1 || (|t| == 2 && t[0] == '\\' && t[1] != d && d != '\\')
    ensures ReplaceAll(t, d, rep) == if |t| == 1 && t[0] == d then rep else t
  {
    if |t| == 1 {
      assert t == [t[0]];
      ReplaceAllSingle(t[0], d, rep);
    } else {
      ReplaceAllAbsent(t, d, rep);
    }
  }

  lemma EscapeChainSingle(c: char)
    ensures EscapeChain([c]) == EscapeChar(c)
  {
    var s1 := ReplaceAll([c], '\\', "\\\\");
    ReplaceStep([c], '\\', "\\\\");
    var s2 := ReplaceAll(s1, '"', "\\\"");
    ReplaceStep(s1, '"', "\\\"");
    var s3 := ReplaceAll(s2, Backspace, "\\b");
    ReplaceStep(s2, Backspace, "\\b");
    var s4 := ReplaceAll(s3, FormFeed, "\\f");
    ReplaceStep(s3, FormFeed, "\\f");
    var s5 := ReplaceAll(s4, '\n', "\\n");
    ReplaceStep(s4, '\n', "\\n");
    var s6 := ReplaceAll(s5, '\r', "\\r");
    ReplaceStep(s5, '\r', "\\r");
    ReplaceStep(s6, '\t', "\\t");
  }

  lemma EscapeChainConcat(a: string, b: string)
    ensures EscapeChain(a + b) == EscapeChain(a) + EscapeChain(b)
  {
    var s1a := ReplaceAll(a, '\\', "\\\\");
    var s1b := ReplaceAll(b, '\\', "\\\\");
    ReplaceAllConcat(a, b, '\\', "\\\\");
    var s2a := ReplaceAll(s1a, '"', "\\\"");
    var s2b := ReplaceAll(s1b, '"', "\\\"");
    ReplaceAllConcat(s1a, s1b, '"', "\\\"");
    var s3a := ReplaceAll(s2a, Backspace, "\\b");
    var s3b := ReplaceAll(s2b, Backspace, "\\b");
    ReplaceAllConcat(s2a, s2b, Backspace, "\\b");
    var s4a := ReplaceAll(s3a, FormFeed, "\\f");
    var s4b := ReplaceAll(s3b, FormFeed, "\\f");
    ReplaceAllConcat(s3a, s3b, FormFeed, "\\f");
    var s5a := ReplaceAll(s4a, '\n', "\\n");
    var s5b := ReplaceAll(s4b, '\n', "\\n");
    ReplaceAllConcat(s4a, s4b, '\n', "\\n");
    var s6a := ReplaceAll(s5a, '\r', "\\r");
    var s6b := ReplaceAll(s5b, '\r', "\\r");
    ReplaceAllConcat(s5a, s5b, '\r', "\\r");
    ReplaceAllConcat(s6a, s6b, '\t', "\\t");
  }

  /**
    Replacing backslashes first is what makes the chain correct: the chain of
    seven replacements equals escaping each character on its own, so no escape
    inserted by a later step is escaped again.
  */
  lemma {:induction false} EscapeJsonIsPerCharacter(s: string)
    ensures EscapeJson(Some(s)) == EscapeAll(s)
  {
    if |s| > 0 {
      HeadTail(s);
      EscapeChainConcat([s[0]], s[1..]);
      EscapeChainSingle(s[0]);
      EscapeJsonIsPerCharacter(s[1..]);
    } else {
      assert ReplaceAll(s, '\\', "\\\\") == [];
    }
  }

  function EscapeCount(s: string): (n: nat)
    ensures n <= |s|
  {
    if |s| == 0 then 0 else (if NeedsEscape(s[0]) then 1 else 0) + EscapeCount(s[1..])
  }

  lemma {:induction false} EscapeAllShape(s: string)
    ensures |EscapeAll(s)| == |s| + EscapeCount(s)
    ensures EscapeCount(s) == 0 ==> EscapeAll(s) == s
    ensures forall i :: 0 <= i < |EscapeAll(s)| ==> !IsEscapedControl(EscapeAll(s)[i])
  {
    if |s| > 0 {
      EscapeAllShape(s[1..]);
      HeadTail(s);
      var e := EscapeAll(s);
      var h := EscapeChar(s[0]);
      assert e == h + EscapeAll(s[1..]);
      forall i | 0 <= i < |e|
        ensures !IsEscapedControl(e[i])
      {
        if i >= |h| {
          assert e[i] == EscapeAll(s[1..])[i - |h|];
        }
      }
    }
  }

  /**
    The escaped text has one extra character per escaped input character, is
    the input itself when nothing needs escaping, and holds no raw backspace,
    form feed, newline, carriage return or tab.
  */
  lemma EscapeJsonShape(s: string)
    ensures |EscapeJson(Some(s))| == |s| + EscapeCount(s)
    ensures EscapeCount(s) == 0 ==> EscapeJson(Some(s)) == s
    ensures forall i :: 0 <= i < |EscapeJson(Some(s))| ==> !IsEscapedControl(EscapeJson(Some(s))[i])
  {
    EscapeJsonIsPerCharacter(s);
    EscapeAllShape(s);
  }

  // ---- reading escaped text back ---------------------------------------

  /** The character a two-character escape `\e` stands for. */
  function DecodeEscape(e: char): Option<char> {
    if e == '\\' then Some('\\')
    else if e == '"' then Some('"')
    else if e == 'b' then Some(Backspace)
    else if e == 'f' then Some(FormFeed)
    else if e == 'n' then Some('\n')
    else if e == 'r' then Some('\r')
    else if e == 't' then Some('\t')
    else None
  }

  /**
    Reads the body of a string literal up to its closing quotation mark,
    undoing the escapes; gives the decoded text and what follows the quote.
  */
  function ReadStringBody(s: string): (r: Option<(string, string)>)
    ensures r.Some? ==> |r.value.1| < |s|
    decreases |s|
  {
    if |s| == 0 then None
    else if s[0] == '"' then Some(("", s[1..]))
    else if s[0] == '\\' then
      if |s| < 2 then None
      else
        match DecodeEscape(s[1])
        case None => None
        case Some(c) =>
          match ReadStringBody(s[2..])
          case None => None
          case Some((v, rest)) => Some(([c] + v, rest))
    else
      match ReadStringBody(s[1..])
      case None => None
      case Some((v, rest)) => Some(([s[0]] + v, rest))
  }

  /** Escaped text followed by a quotation mark reads back as the original text. */
  lemma {:induction false} ReadEscapedAll(x: string, rest: string)
    ensures ReadStringBody(EscapeAll(x) + "\"" + rest) == Some((x, rest))
  {
    var t := "\"" + rest;
    AppendAssoc(EscapeAll(x), "\"", rest);
    if |x| == 0 {
      assert EscapeAll(x) + t == t;
    } else {
      ReadEscapedAll(x[1..], rest);
      AppendAssoc(EscapeAll(x[1..]), "\"", rest);
      EscapeAllCons(x, t);
      ReadStep(x[0], EscapeAll(x[1..]) + t, x[1..], rest);
    }
  }

  /** Escaping a non-empty text, then appending: the first character's escape, then the rest. */
  lemma EscapeAllCons(x: string, t: string)
    ensures |x| > 0 ==> x == [x[0]] + x[1..] && EscapeAll(x) + t == EscapeChar(x[0]) + (EscapeAll(x[1..]) + t)
  {
    if |x| > 0 {
      assert x == [x[0]] + x[1..];
      AppendAssoc(EscapeChar(x[0]), EscapeAll(x[1..]), t);
    }
  }

  /** The reader takes one escaped character off the front. */
  lemma ReadStep(c: char, tail: string, v: string, rest: string)
    ensures ReadStringBody(tail) == Some((v, rest)) ==> ReadStringBody(EscapeChar(c) + tail) == Some(([c] + v, rest))
  {
    var h := EscapeChar(c);
    if NeedsEscape(c) {
      assert (h + tail)[2..] == tail;
    } else {
      assert (h + tail)[1..] == tail;
    }
  }

  /** The round trip of `escapeJson`: the reader recovers every string exactly. */
  lemma EscapeJsonRoundTrip(x: string, rest: string)
    ensures ReadStringBody(EscapeJson(Some(x)) + "\"" + rest) == Some((x, rest))
  {
    EscapeJsonIsPerCharacter(x);
    ReadEscapedAll(x, rest);
  }

  /** `s` starts with `p`: gives what follows `p`. */
  function Expect(p: string, s: string): (r: Option<string>)
    ensures r.Some? <==> |p| <= |s| && s[..|p|] == p
    ensures r.Some? ==> s == p + r.value
  {
    if |p| <= |s| && s[..|p|] == p then Some(s[|p|..]) else None
  }

  lemma ExpectPrefix(p: string, rest: string)
    ensures Expect(p, p + rest) == Some(rest)
  {
    assert (p + rest)[..|p|] == p;
    assert (p + rest)[|p|..] == rest;
  }

  // ---- arrays -----------------------------------------------------------

  /** `toJsonArray`: "[" then the elements' JSON joined by "," then "]". */
  function ToJsonArray(elements: seq<string>): (r: string)
    ensures |elements| == 0 ==> r == "[]"
    ensures |r| >= 2
    ensures r[0] == '[' && r[|r| - 1] == ']'
  {
    "[" + Join(elements, ",") + "]"
  }

  /** Appending one more element adds a comma and the element before the closing bracket. */
  lemma {:induction false} ToJsonArrayCons(head: string, tail: seq<string>)
    requires |tail| > 0
    ensures ToJsonArray([head] + tail) == "[" + head + "," + Join(tail, ",") + "]"
  {
    assert ([head] + tail)[0] == head;
    assert ([head] + tail)[1..] == tail;
  }

  // ---- objects of two string fields ------------------------------------

  /**
    `{"k1":"e1","k2":"e2"}` for already escaped values: the shape of
    `Note.toJson`, `User.toJson` and `Product.toJson`.
  */
  function Object2(k1: string, e1: string, k2: string, e2: string): (r: string)
    ensures |r| >= 2 && r[0] == '{' && r[|r| - 1] == '}'
  {
    "{\"" + k1 + "\":\"" + e1 + "\",\"" + k2 + "\":\"" + e2 + "\"}"
  }

  /** What precedes the first value. */
  function Opening(k: string): string {
    "{\"" + k + "\":\""
  }

  /** What follows the first value's closing quote and precedes the second value. */
  function Separator(k: string): string {
    ",\"" + k + "\":\""
  }

  /** Reads `{"k1":"v1","k2":"v2"}` with escaped values; gives the two values and what follows. */
  function ParseObject2(k1: string, k2: string, s: string): (r: Option<(string, string, string)>)
    ensures r.Some? ==> |r.value.2| < |s|
  {
    match Expect(Opening(k1), s)
    case None => None
    case Some(t1) =>
      match ReadStringBody(t1)
      case None => None
      case Some((v1, t2)) =>
        match Expect(Separator(k2), t2)
        case None => None
        case Some(t3) =>
          match ReadStringBody(t3)
          case None => None
          case Some((v2, t4)) =>
            match Expect("}", t4)
            case None => None
            case Some(rest) => Some((v1, v2, rest))
  }

  lemma Object2Split(k1: string, e1: string, k2: string, e2: string, rest: string)
    ensures Object2(k1, e1, k2, e2) + rest
            == Opening(k1) + (e1 + "\"" + (Separator(k2) + (e2 + "\"" + ("}" + rest))))
  {
  }

  /** Two escaped values in an object read back exactly, whatever follows the object. */
  lemma Object2RoundTrip(k1: string, a: string, k2: string, b: string, rest: string)
    ensures ParseObject2(k1, k2, Object2(k1, EscapeJson(Some(a)), k2, EscapeJson(Some(b))) + rest) == Some((a, b, rest))
  {
    var e1 := EscapeJson(Some(a));
    var e2 := EscapeJson(Some(b));
    var tail4 := "}" + rest;
    var tail3 := e2 + "\"" + tail4;
    var tail2 := Separator(k2) + tail3;
    var tail1 := e1 + "\"" + tail2;
    Object2Split(k1, e1, k2, e2, rest);
    ExpectPrefix(Opening(k1), tail1);
    EscapeJsonRoundTrip(a, tail2);
    ExpectPrefix(Separator(k2), tail3);
    EscapeJsonRoundTrip(b, tail4);
    ExpectPrefix("}", rest);
  }
}

=== FILE: menu.dfy ===
/** `MenuOption`: the four entries of the chronometer menu and the lookup by number. */
module Menu {
  import opened Optional

  datatype MenuOption = CreateChrono | ViewRunning | StopChrono | Exit

  /** `getValue`. */
  function Value(o: MenuOption): int {
    match o
    case CreateChrono => 1
    case ViewRunning => 2
    case StopChrono => 3
    case Exit => 4
  }

  /** `getDescription`. */
  function Description(o: MenuOption): string {
    match o
    case CreateChrono => "Create a new chronometer"
    case ViewRunning => "View running chronometers"
    case StopChrono => "Stop a chronometer"
    case Exit => "Exit"
  }

  /** `MenuOption.values()`, in declaration order. */
  const Options: seq<MenuOption> := [CreateChrono, ViewRunning, StopChrono, Exit]

  /** The search loop of `fromValue` over `options`: the first option with value `v`. */
  function FindOption(options: seq<MenuOption>, v: int): (r: Option<MenuOption>)
    ensures r.Some? <==> exists i :: 0 <= i < |options| && Value(options[i]) == v
    ensures r.Some? ==> r.value in options && Value(r.value) == v
  {
    if |options| == 0 then None
    else if Value(options[0]) == v then Some(options[0])
    else
      var r := FindOption(options[1..], v);
      assert forall i :: 1 <= i < |options| ==> options[i] == options[1..][i - 1];
      r
  }

  /** `fromValue`: the option numbered `v`, or `null` (None) for any other number. */
  function FromValue(v: int): (r: Option<MenuOption>)
    ensures r.Some? <==> 1 <= v <= 4
    ensures r.Some? ==> Value(r.value) == v
  {
    var r := FindOption(Options, v);
    assert 1 <= v <= 4 ==> Value(Options[v - 1]) == v;
    r
  }

  /** The options are numbered 1 to 4 in declaration order. */
  lemma OptionsNumbered()
    ensures |Options| == 4
    ensures forall i :: 0 <= i < |Options| ==> Value(Options[i]) == i + 1
    ensures forall o: MenuOption :: o in Options
  {
    forall o: MenuOption
      ensures o in Options
    {
      assert Options[Value(o) - 1] == o;
    }
  }

  /** Distinct options have distinct numbers. */
  lemma ValueInjective(a: MenuOption, b: MenuOption)
    requires Value(a) == Value(b)
    ensures a == b
  {
  }

  /** Looking an option up by its own number gives it back. */
  lemma FromValueRoundTrip(o: MenuOption)
    ensures FromValue(Value(o)) == Some(o)
  {
    ValueInjective(FromValue(Value(o)).value, o);
  }
}

=== FILE: note.dfy ===
/**
  `Note` of the notes service: an identifier drawn once at construction and
  a text that `setText` replaces. The text may be `null` (None here); the
  identifier never is.
*/
module Notes {
  import opened Optional
  import opened Json
  import RandomId

  datatype Note = Note(id: string, text: Option<string>)

  /** `new Note(text)`: the identifier comes from the random draws. */
  function NewNote(draws: seq<nat>, text: Option<string>): (n: Note)
    requires |draws| == RandomId.DrawsPerChar * RandomId.Length && RandomId.AreDraws(draws)
    ensures RandomId.IsId(n.id)
    ensures n.text == text
  {
    Note(RandomId.IdOf(draws), text)
  }

  /** `setText`: only the text changes. */
  function SetText(n: Note, text: Option<string>): (r: Note)
    ensures r.id == n.id && r.text == text
  {
    n.(text := text)
  }

  /** `toJson`: `{"id":"…","text":"…"}`; a `null` text is written as an empty string. */
  function ToJson(n: Note): (r: string)
    ensures |r| >= 2 && r[0] == '{' && r[|r| - 1] == '}'
  {
    Object2("id", EscapeJson(Some(n.id)), "text", EscapeJson(n.text))
  }

  /** Reads a note object back; the text is always present. */
  function Parse(s: string): (r: Option<(Note, string)>)
    ensures r.Some? ==> r.value.0.text.Some? && |r.value.1| < |s|
  {
    match ParseObject2("id", "text", s)
    case None => None
    case Some((id, text, rest)) => Some((Note(id, Some(text)), rest))
  }

  /** The text `toJson` writes: the text itself, or "" for `null`. */
  function WrittenText(text: Option<string>): string {
    match text
    case None => ""
    case Some(t) => t
  }

  /** The escaping writes `null` and the empty text alike. */
  lemma EscapeNullIsEmpty()
    ensures EscapeJson(None) == EscapeJson(Some(""))
  {
    EscapeJsonShape("");
  }

  /**
    The JSON of a note reads back as that note, except that a `null` text
    comes back as the empty text: the two are indistinguishable once written.
  */
  lemma JsonRoundTrip(n: Note, rest: string)
    ensures Parse(ToJson(n) + rest) == Some((n.(text := Some(WrittenText(n.text))), rest))
  {
    EscapeNullIsEmpty();
    assert EscapeJson(n.text) == EscapeJson(Some(WrittenText(n.text)));
    Object2RoundTrip("id", n.id, "text", WrittenText(n.text), rest);
  }

  /** Notes that differ only in a `null` versus an empty text have the same JSON. */
  lemma NullTextWrittenEmpty(id: string)
    ensures ToJson(Note(id, None)) == ToJson(Note(id, Some("")))
  {
    EscapeNullIsEmpty();
  }
}

=== FILE: note_repository.dfy ===
/**
  `NoteRepository`: the notes in insertion order. `getNotes` hands out the
  list itself, which here is the repository value. Identifiers may be
  `null` when they come from a remote caller; `equals(null)` is false, so a
  `null` identifier matches no note.
*/
module NoteRepository {
  import opened Optional
  import opened SeqStore
  import opened Notes
  import RandomId

  function NoteId(n: Note): string {
    n.id
  }

  /** The repository as constructed: no notes. */
  const Empty: seq<Note> := []

  /** `getNoteById`: the first note with the identifier, or `null`. */
  function GetNoteById(notes: seq<Note>, id: Option<string>): (r: Option<Note>)
    ensures r.None? <==> id.None? || forall i :: 0 <= i < |notes| ==> notes[i].id != id.value
    ensures r.Some? ==> exists i :: 0 <= i < |notes| && notes[i] == r.value && Some(notes[i].id) == id
                                    && forall j :: 0 <= j < i ==> Some(notes[j].id) != id
  {
    match id
    case None => None
    case Some(k) => Find(notes, NoteId, k)
  }

  /** `createNote`: a new note with the text and a random identifier, appended at the end. */
  function CreateNote(notes: seq<Note>, draws: seq<nat>, text: Option<string>): (r: (seq<Note>, Note))
    requires |draws| == RandomId.DrawsPerChar * RandomId.Length && RandomId.AreDraws(draws)
    ensures r.0 == notes + [r.1]
    ensures RandomId.IsId(r.1.id) && r.1.text == text
  {
    var n := NewNote(draws, text);
    (notes + [n], n)
  }

  /**
    `updateNote`: the first note with the same identifier is replaced and the
    new note returned; with none, nothing changes and the result is `null`.
  */
  function UpdateNote(notes: seq<Note>, note: Note): (r: (seq<Note>, Option<Note>))
    ensures |r.0| == |notes|
    ensures r.1.Some? <==> exists i :: 0 <= i < |notes| && notes[i].id == note.id
    ensures r.1.None? ==> r.0 == notes
    ensures r.1.Some? ==> r.1.value == note
    ensures r.1.Some? ==> exists i :: 0 <= i < |notes| && notes[i].id == note.id
                                      && (forall j :: 0 <= j < i ==> notes[j].id != note.id)
                                      && r.0 == notes[i := note]
  {
    Update(notes, NoteId, note)
  }

  /** What `updateNote` gives back: the notes afterwards and the result, or a null dereference. */
  datatype UpdateOutcome = Updated(notes: seq<Note>, result: Option<Note>) | NullDereference

  /**
    `updateNote` with a note that may be `null`, as a remote caller may send:
    with no notes the loop does not run and `null` comes back; otherwise
    `note.getId()` throws and nothing changes.
  */
  function UpdateNoteOrNull(notes: seq<Note>, note: Option<Note>): (r: UpdateOutcome)
    ensures r.NullDereference? <==> note.None? && |notes| > 0
    ensures note.None? && |notes| == 0 ==> r == Updated(notes, None)
    ensures note.Some? ==> r.Updated? && (r.notes, r.result) == UpdateNote(notes, note.value)
    ensures r.Updated? ==> |r.notes| == |notes|
  {
    match note
    case None => if |notes| == 0 then Updated(notes, None) else NullDereference
    case Some(n) =>
      var (after, result) := UpdateNote(notes, n);
      Updated(after, result)
  }

  /** `deleteNoteById`: the last note with the identifier is removed; otherwise nothing changes. */
  function DeleteNoteById(notes: seq<Note>, id: Option<string>): (r: seq<Note>)
    ensures (id.None? || forall i :: 0 <= i < |notes| ==> notes[i].id != id.value) ==> r == notes
    ensures id.Some? && (exists i :: 0 <= i < |notes| && notes[i].id == id.value) ==> |r| == |notes| - 1
    ensures id.Some? && (exists i :: 0 <= i < |notes| && notes[i].id == id.value) ==>
              exists i :: 0 <= i < |notes| && notes[i].id == id.value
                          && (forall j :: i < j < |notes| ==> notes[j].id != id.value)
                          && r == notes[..i] + notes[i + 1..]
  {
    match id
    case None => notes
    case Some(k) => DeleteLast(notes, NoteId, k)
  }

  // ---- how the operations relate ------------------------------------------

  /** No two notes share an identifier. */
  predicate IdsDistinct(notes: seq<Note>) {
    KeysDistinct(notes, NoteId)
  }

  /**
    A created note whose identifier is new is found by it, every note found
    before is still found, and the identifiers stay distinct.
  */
  lemma CreateThenGet(notes: seq<Note>, draws: seq<nat>, text: Option<string>, id: string)
    requires |draws| == RandomId.DrawsPerChar * RandomId.Length && RandomId.AreDraws(draws)
    requires GetNoteById(notes, Some(CreateNote(notes, draws, text).1.id)).None?
    ensures var (r, n) := CreateNote(notes, draws, text);
            GetNoteById(r, Some(n.id)) == Some(n)
            && (GetNoteById(notes, Some(id)).Some? ==> GetNoteById(r, Some(id)) == GetNoteById(notes, Some(id)))
            && (IdsDistinct(notes) ==> IdsDistinct(r))
  {
    var (r, n) := CreateNote(notes, draws, text);
    AppendFind(notes, NoteId, n, n.id);
    AppendFind(notes, NoteId, n, id);
    if IdsDistinct(notes) {
      AppendKeepsDistinct(notes, NoteId, n);
    }
  }

  /** After a successful update the note is found under its identifier, and the identifiers stay distinct. */
  lemma UpdateThenGet(notes: seq<Note>, note: Note)
    requires UpdateNote(notes, note).1.Some?
    ensures GetNoteById(UpdateNote(notes, note).0, Some(note.id)) == Some(note)
    ensures IdsDistinct(notes) ==> IdsDistinct(UpdateNote(notes, note).0)
  {
    UpdateFind(notes, NoteId, note);
    if IdsDistinct(notes) {
      UpdateKeepsDistinct(notes, NoteId, note);
    }
  }

  /** With distinct identifiers, a deleted note is no longer found and the rest keep their order. */
  lemma DeleteThenGet(notes: seq<Note>, id: string)
    requires IdsDistinct(notes)
    ensures GetNoteById(DeleteNoteById(notes, Some(id)), Some(id)).None?
    ensures IdsDistinct(DeleteNoteById(notes, Some(id)))
    ensures Others(DeleteNoteById(notes, Some(id)), NoteId, id) == Others(notes, NoteId, id)
  {
    DeleteGone(notes, NoteId, id);
    DeleteKeepsDistinct(notes, NoteId, id);
    DeleteLastEffect(notes, NoteId, id);
  }
}

=== FILE: option.dfy ===
/** Absent-or-present values. `None` stands for Java's `null` throughout the model. */
module Optional {

  datatype Option<+T> = None | Some(value: T)

}

=== FILE: product.dfy ===
/**
  `Product`: a name and a brand fixed at construction (there are no
  setters, so a product value never changes), its JSON object, and the
  JSON array of products a cart writes.
*/
module Products {
  import opened Optional
  import opened Text
  import opened Json

  datatype Product = Product(name: string, brand: string)

  /** `toJson`: `{"name":"…","brand":"…"}` with both values escaped. */
  function ToJson(p: Product): (r: string)
    ensures |r| >= 2 && r[0] == '{' && r[|r| - 1] == '}'
  {
    Object2("name", EscapeJson(Some(p.name)), "brand", EscapeJson(Some(p.brand)))
  }

  /** Reads a product object back; gives the product and what follows it. */
  function Parse(s: string): (r: Option<(Product, string)>)
    ensures r.Some? ==> |r.value.1| < |s|
  {
    match ParseObject2("name", "brand", s)
    case None => None
    case Some((name, brand, rest)) => Some((Product(name, brand), rest))
  }

  /** The JSON of a product reads back as that product. */
  lemma JsonRoundTrip(p: Product, rest: string)
    ensures Parse(ToJson(p) + rest) == Some((p, rest))
  {
    Object2RoundTrip("name", p.name, "brand", p.brand, rest);
  }

  /** The elements' JSON, in order. */
  function Jsons(ps: seq<Product>): (r: seq<string>)
    ensures |r| == |ps|
    ensures forall i :: 0 <= i < |ps| ==> r[i] == ToJson(ps[i])
  {
    seq(|ps|, i requires 0 <= i < |ps| => ToJson(ps[i]))
  }

  /** The array a cart writes: "[" then the products' JSON joined by "," then "]". */
  function ArrayJson(ps: seq<Product>): (r: string)
    ensures |ps| == 0 ==> r == "[]"
  {
    ToJsonArray(Jsons(ps))
  }

  /** Reads the elements of a non-empty array up to and including its closing bracket. */
  function ParseElements(s: string): (r: Option<(seq<Product>, string)>)
    ensures r.Some? ==> |r.value.1| < |s|
    decreases |s|
  {
    match Parse(s)
    case None => None
    case Some((p, t)) =>
      match Expect(",", t)
      case Some(u) =>
        (match ParseElements(u)
         case None => None
         case Some((ps, rest)) => Some(([p] + ps, rest)))
      case None =>
        match Expect("]", t)
        case None => None
        case Some(rest) => Some(([p], rest))
  }

  /** Reads an array of products; gives the products and what follows the array. */
  function ParseArray(s: string): (r: Option<(seq<Product>, string)>)
    ensures r.Some? ==> |r.value.1| < |s|
  {
    match Expect("[", s)
    case None => None
    case Some(t) =>
      match Expect("]", t)
      case Some(rest) => Some(([], rest))
      case None => ParseElements(t)
  }

  /** The last element: a product followed by the closing bracket. */
  lemma ElementsLast(p: Product, rest: string)
    ensures ParseElements(ToJson(p) + ("]" + rest)) == Some(([p], rest))
  {
    JsonRoundTrip(p, "]" + rest);
    ExpectPrefix("]", rest);
    assert ("]" + rest)[..1] == "]";
  }

  /** A product followed by a comma, then more elements. */
  lemma ElementsMore(p: Product, ps: seq<Product>, rest: string, tail: string, s: string)
    ensures s == ToJson(p) + ("," + tail) && ParseElements(tail) == Some((ps, rest))
            ==> ParseElements(s) == Some(([p] + ps, rest))
  {
    JsonRoundTrip(p, "," + tail);
    ExpectPrefix(",", tail);
  }

  lemma JsonsTail(ps: seq<Product>)
    requires |ps| > 1
    ensures Join(Jsons(ps), ",") == ToJson(ps[0]) + "," + Join(Jsons(ps[1..]), ",")
  {
    assert Jsons(ps)[1..] == Jsons(ps[1..]);
  }

  /** Splits the joined elements after the first product and its comma. */
  lemma JoinSplit(ps: seq<Product>, rest: string)
    requires |ps| > 1
    ensures Join(Jsons(ps), ",") + ("]" + rest)
            == ToJson(ps[0]) + ("," + (Join(Jsons(ps[1..]), ",") + ("]" + rest)))
  {
    JsonsTail(ps);
    Concat4(ToJson(ps[0]), ",", Join(Jsons(ps[1..]), ","), "]" + rest);
  }

  /** The elements of a non-empty array, then its closing bracket, read back as the list. */
  lemma {:induction false} ElementsRoundTrip(ps: seq<Product>, rest: string)
    requires |ps| > 0
    ensures ParseElements(Join(Jsons(ps), ",") + ("]" + rest)) == Some((ps, rest))
    decreases |ps|
  {
    if |ps| == 1 {
      ElementsOne(ps, rest);
    } else {
      ElementsRoundTrip(ps[1..], rest);
      ElementsCons(ps, rest);
    }
  }

  /** A one-element array. */
  lemma {:induction false} ElementsOne(ps: seq<Product>, rest: string)
    requires |ps| == 1
    ensures ParseElements(Join(Jsons(ps), ",") + ("]" + rest)) == Some((ps, rest))
  {
    assert Join(Jsons(ps), ",") == ToJson(ps[0]);
    ElementsLast(ps[0], rest);
    OnlyElement(ps);
  }

  /** The first element in front of elements that read back. */
  lemma {:induction false} ElementsCons(ps: seq<Product>, rest: string)
    requires |ps| > 1
    requires ParseElements(Join(Jsons(ps[1..]), ",") + ("]" + rest)) == Some((ps[1..], rest))
    ensures ParseElements(Join(Jsons(ps), ",") + ("]" + rest)) == Some((ps, rest))
  {
    HeadTail(ps);
    var tail := Join(Jsons(ps[1..]), ",") + ("]" + rest);
    JoinSplit(ps, rest);
    ElementsMore(ps[0], ps[1..], rest, tail, Join(Jsons(ps), ",") + ("]" + rest));
  }

  /** The JSON array of any list of products reads back as that list. */
  lemma ArrayRoundTrip(ps: seq<Product>, rest: string)
    ensures ParseArray(ArrayJson(ps) + rest) == Some((ps, rest))
  {
    var body := Join(Jsons(ps), ",") + ("]" + rest);
    Concat4("[", Join(Jsons(ps), ","), "]", rest);
    ExpectPrefix("[", body);
    if |ps| == 0 {
      assert body == "]" + rest;
      ExpectPrefix("]", rest);
    } else {
      ElementsRoundTrip(ps, rest);
      JoinStartsWith(Jsons(ps), ",");
      assert body[0] == ToJson(ps[0])[0] == '{';
      assert Expect("]", body).None?;
    }
  }

  /** A join of non-empty parts starts with its first part. */
  lemma {:induction false} JoinStartsWith(parts: seq<string>, sep: string)
    requires |parts| > 0
    ensures |Join(parts, sep)| >= |parts[0]| && Join(parts, sep)[..|parts[0]|] == parts[0]
  {
    if |parts| > 1 {
      assert Join(parts, sep) == parts[0] + (sep + Join(parts[1..], sep));
    }
  }
}

=== FILE: random_id.dfy ===
/**
  `RandomIdGenerator`: an identifier is 18 characters, each a digit, an
  upper-case letter or a lower-case letter. `Math.random()` is an oracle:
  the generator consumes two draws per character, the first choosing the
  kind of character and the second the character within its range. A draw
  is given as its whole number of units of `2^-53`, and each product with
  a range size is rounded as Java's `double` multiplication rounds it.
*/
module RandomId {
  import opened Doubles
  import Text

  /** `LENGTH`. */
  const Length: nat := 18

  /** Draws consumed per character. */
  const DrawsPerChar: nat := 2

  /**
    A value `Math.random()` can return, counted in units of `2^-53`: the
    value is `m * 2^-53` with `0 <= m < 2^53`, since it is made of 53
    random bits.
  */
  predicate IsDraw(m: nat) {
    m < Two53
  }

  predicate AreDraws(draws: seq<nat>) {
    forall i :: 0 <= i < |draws| ==> IsDraw(draws[i])
  }

  /** The characters an identifier is made of: `[0-9A-Za-z]`. */
  predicate IsIdChar(c: char) {
    '0' <= c <= '9' || 'A' <= c <= 'Z' || 'a' <= c <= 'z'
  }

  predicate IsId(id: string) {
    |id| == Length && forall i :: 0 <= i < |id| ==> IsIdChar(id[i])
  }

  /**
    `(int) (Math.random() * k)` for the draw `m * 2^-53`: the product is
    rounded to a double, which is non-negative, and the cast truncates it
    toward zero. The index is below `k`, and it is the floor of the exact
    product or, when rounding reaches the next integer, one more.
  */
  function Scale(m: nat, k: nat): (i: int)
    requires IsDraw(m) && 1 <= k < IntLimit
    ensures 0 <= i < k
    ensures m * k / Two53 <= i <= m * k / Two53 + 1
  {
    var p := m * k;
    var d := DoubleProduct(m, k);
    DivMono(p / Two53 * Two53, d, Two53);
    DivUnique(p / Two53 * Two53, Two53, p / Two53, 0);
    DivMono(d, p + Two53, Two53);
    d / Two53
  }

  /**
    The draw `ceil(i * 2^53 / k) * 2^-53`, the least draw whose exact
    product reaches `i`, selects index `i`.
  */
  function DrawFor(i: nat, k: nat): (m: nat)
    requires i < k < IntLimit
    ensures IsDraw(m) && Scale(m, k) == i
  {
    DrawForSelects(i, k);
    (i * Two53 + k - 1) / k
  }

  /** The least draw whose exact product with `k` reaches `i * 2^53`. */
  lemma CeilDrawBounds(i: nat, k: nat)
    requires i < k < IntLimit
    ensures var m := (i * Two53 + k - 1) / k;
      m < Two53 && i * Two53 <= m * k < i * Two53 + k
  {
    var x := i * Two53 + k - 1;
    MulMono(i, k - 1, Two53);
    DivMod(x, k);
    DivMono(x, k * Two53 - 1, k);
    DivUnique(k * Two53 - 1, k, Two53 - 1, k - 1);
  }

  lemma DrawForSelects(i: nat, k: nat)
    requires i < k < IntLimit
    ensures var m := (i * Two53 + k - 1) / k;
      IsDraw(m) && Scale(m, k) == i
  {
    var m := (i * Two53 + k - 1) / k;
    CeilDrawBounds(i, k);
    var p := m * k;
    DivUnique(p, Two53, i, p - i * Two53);
    var d := DoubleProduct(m, k);
    SpacingSmall(p);
    DivMono(d, (i + 1) * Two53 - 1, Two53);
    DivUnique((i + 1) * Two53 - 1, Two53, i, Two53 - 1);
  }

  /**
    Rounding can pick the next index: the draw `6004799503160661 * 2^-53`
    times 3 is `2 - 2^-53` exactly, a tie between the doubles
    `2 - 2^-52` and 2 that goes to 2, so `getRandomChar` picks a
    lower-case letter where the exact floor would pick an upper-case one.
  */
  lemma ScaleRoundsUp()
    ensures 6004799503160661 * 3 < 2 * Two53 && Scale(6004799503160661, 3) == 2
  {
    var p := 18014398509481983;
    assert SpacingExp(p / 2) == 0;
    assert Spacing(p) == 2;
    assert RoundHalfEven(p, 2) == 9007199254740992;
  }

  /**
    The double nearest 0.6 is `5404319552844595 * 2^-53`, below 0.6, yet
    its product with 10 rounds to 6.0: `generateRandomNumber` gives '6',
    where the exact floor would give '5'.
  */
  lemma ScaleSixTenths()
    ensures 5404319552844595 * 10 < 6 * Two53 && Scale(5404319552844595, 10) == 6
  {
    var p := 54043195528445950;
    assert SpacingExp(p / 8) == 0;
    assert SpacingExp(p / 4) == 1;
    assert SpacingExp(p / 2) == 2;
    assert Spacing(p) == 8;
    assert RoundHalfEven(p, 8) == 6755399441055744;
  }

  /** `(char) (min + (int) (Math.random() * (max - min + 1)))`. */
  function InRange(lo: char, hi: char, r: nat): (c: char)
    requires lo <= hi <= 'z' && IsDraw(r)
    ensures lo <= c <= hi
  {
    (lo as int + Scale(r, hi as int - lo as int + 1)) as char
  }

  /** `generateRandomNumber`. */
  function RandomNumber(r: nat): (c: char)
    requires IsDraw(r)
    ensures '0' <= c <= '9'
  {
    InRange('0', '9', r)
  }

  /** `generateRandomUppercaseLetter`. */
  function RandomUppercaseLetter(r: nat): (c: char)
    requires IsDraw(r)
    ensures 'A' <= c <= 'Z'
  {
    InRange('A', 'Z', r)
  }

  /** `generateRandomLowercaseLetter`. */
  function RandomLowercaseLetter(r: nat): (c: char)
    requires IsDraw(r)
    ensures 'a' <= c <= 'z'
  {
    InRange('a', 'z', r)
  }

  /**
    `getRandomChar` of the notes service: the first draw picks the kind
    (0 a digit, 1 an upper-case letter, otherwise a lower-case letter), the
    second the character.
  */
  function RandomChar(kind: nat, value: nat): (c: char)
    requires IsDraw(kind) && IsDraw(value)
    ensures IsIdChar(c)
    ensures Scale(kind, 3) == 0 <==> '0' <= c <= '9'
    ensures Scale(kind, 3) == 1 <==> 'A' <= c <= 'Z'
  {
    match Scale(kind, 3)
    case 0 => RandomNumber(value)
    case 1 => RandomUppercaseLetter(value)
    case _ => RandomLowercaseLetter(value)
  }

  /**
    `getRandomChar` of the shopping service, which writes the three ranges
    inline in one `switch`.
  */
  function ShopRandomChar(kind: nat, value: nat): (c: char)
    requires IsDraw(kind) && IsDraw(value)
    ensures IsIdChar(c)
  {
    var minNum := '0' as int;
    var maxNum := '9' as int;
    var minMayus := 'A' as int;
    var maxMayus := 'Z' as int;
    var minMinus := 'a' as int;
    var maxMinus := 'z' as int;
    var k := Scale(kind, 3);
    if k == 0 then (minNum + Scale(value, maxNum - minNum + 1)) as char
    else if k == 1 then (minMayus + Scale(value, maxMayus - minMayus + 1)) as char
    else (minMinus + Scale(value, maxMinus - minMinus + 1)) as char
  }

  /** The two generators pick the same character from the same draws. */
  lemma ShopRandomCharAgrees(kind: nat, value: nat)
    requires IsDraw(kind) && IsDraw(value)
    ensures ShopRandomChar(kind, value) == RandomChar(kind, value)
  {
  }

  /** The identifier the draws produce: character `i` comes from draws `2i` and `2i + 1`. */
  function IdOf(draws: seq<nat>): (id: string)
    requires |draws| == DrawsPerChar * Length && AreDraws(draws)
    ensures IsId(id)
  {
    seq(Length, i requires 0 <= i < Length => RandomChar(draws[2 * i], draws[2 * i + 1]))
  }

  /**
    `generate`: eighteen times, append one random character. The result is
    an identifier, and it is the one the draws determine.
  */
  method Generate(draws: seq<nat>) returns (id: string)
    requires |draws| == DrawsPerChar * Length && AreDraws(draws)
    ensures IsId(id)
    ensures id == IdOf(draws)
  {
    id := "";
    var i := 0;
    while i < Length
      invariant 0 <= i <= Length
      invariant |id| == i
      invariant id == IdOf(draws)[..i]
    {
      var c := RandomChar(draws[2 * i], draws[2 * i + 1]);
      IdOfAt(draws, i);
      Text.PrefixSnoc(IdOf(draws), i);
      id := id + [c];
      i := i + 1;
    }
  }

  // ---- every identifier can come out -----------------------------------

  /** The index of the range `c` lies in: 0 digits, 1 upper case, 2 lower case. */
  function KindIndex(c: char): (k: nat)
    requires IsIdChar(c)
    ensures k < 3
  {
    if '0' <= c <= '9' then 0 else if 'A' <= c <= 'Z' then 1 else 2
  }

  /** A kind draw that selects the range `c` lies in. */
  function KindFor(c: char): (r: nat)
    requires IsIdChar(c)
    ensures IsDraw(r) && Scale(r, 3) == KindIndex(c)
  {
    DrawFor(KindIndex(c), 3)
  }

  /** A value draw that selects `c` within its range. */
  function ValueFor(c: char): (r: nat)
    requires IsIdChar(c)
    ensures IsDraw(r)
    ensures '0' <= c <= '9' ==> Scale(r, 10) == c as int - '0' as int
    ensures 'A' <= c <= 'Z' ==> Scale(r, 26) == c as int - 'A' as int
    ensures 'a' <= c <= 'z' ==> Scale(r, 26) == c as int - 'a' as int
  {
    if '0' <= c <= '9' then DrawFor(c as int - '0' as int, 10)
    else if 'A' <= c <= 'Z' then DrawFor(c as int - 'A' as int, 26)
    else DrawFor(c as int - 'a' as int, 26)
  }

  /** Every identifier character is produced by some pair of draws. */
  lemma CharReachable(c: char)
    requires IsIdChar(c)
    ensures RandomChar(KindFor(c), ValueFor(c)) == c
  {
  }

  /** Draws that make the generator produce `id`. */
  function DrawsFor(id: string): (draws: seq<nat>)
    requires IsId(id)
    ensures |draws| == DrawsPerChar * Length && AreDraws(draws)
  {
    seq(DrawsPerChar * Length, j requires 0 <= j < DrawsPerChar * Length =>
      if j % 2 == 0 then KindFor(id[j / 2]) else ValueFor(id[j / 2]))
  }

  lemma DrawsForAt(id: string, i: nat)
    requires IsId(id) && i < Length
    ensures DrawsFor(id)[2 * i] == KindFor(id[i]) && DrawsFor(id)[2 * i + 1] == ValueFor(id[i])
  {
    assert (2 * i) / 2 == i && (2 * i + 1) / 2 == i;
  }

  lemma IdOfAt(draws: seq<nat>, i: nat)
    requires |draws| == DrawsPerChar * Length && AreDraws(draws) && i < Length
    ensures IdOf(draws)[i] == RandomChar(draws[2 * i], draws[2 * i + 1])
  {
  }

  /** Character `i` of the identifier the draws for `id` produce is `id[i]`. */
  lemma ReachesAt(id: string, i: nat)
    requires IsId(id) && i < Length
    ensures IdOf(DrawsFor(id))[i] == id[i]
  {
    DrawsForAt(id, i);
    IdOfAt(DrawsFor(id), i);
    CharReachable(id[i]);
  }

  /** The generator is onto the identifiers: every 18-character `[0-9A-Za-z]` string can be generated. */
  lemma GenerateReachesEvery(id: string)
    requires IsId(id)
    ensures IdOf(DrawsFor(id)) == id
  {
    forall i | 0 <= i < Length
      ensures IdOf(DrawsFor(id))[i] == id[i]
    {
      ReachesAt(id, i);
    }
  }
}

=== FILE: seq_store.dfy ===
/**
  The list operations the three in-memory repositories share. Each
  repository keeps an `ArrayList` and identifies an element by one key
  field (a note's id, a user's id, a cart's user id); here the list is a
  sequence and the key is the function `key`.
    - `Find`: the for-each scan that returns the first element with the key;
    - `Update`: the indexed scan that overwrites the first element whose key
      equals the new element's key and returns it, or returns null;
    - `DeleteLast`: the scan from the end that removes the last element with
      the key and stops.
*/
module SeqStore {
  import opened Optional

  /** Number of elements whose key is `k`. */
  function Matches<T, K(==)>(s: seq<T>, key: T -> K, k: K): (n: nat)
    ensures n <= |s|
    ensures n == 0 <==> forall i :: 0 <= i < |s| ==> key(s[i]) != k
  {
    if |s| == 0 then 0
    else
      var n := Matches(s[1..], key, k);
      assert forall i :: 1 <= i < |s| ==> s[i] == s[1..][i - 1];
      (if key(s[0]) == k then 1 else 0) + n
  }

  /** The elements whose key is not `k`, in their order. */
  function Others<T, K(==)>(s: seq<T>, key: T -> K, k: K): (r: seq<T>)
    ensures |r| + Matches(s, key, k) == |s|
  {
    if |s| == 0 then []
    else (if key(s[0]) == k then [] else [s[0]]) + Others(s[1..], key, k)
  }

  lemma {:induction false} MatchesConcat<T, K>(a: seq<T>, b: seq<T>, key: T -> K, k: K)
    ensures Matches(a + b, key, k) == Matches(a, key, k) + Matches(b, key, k)
    ensures Others(a + b, key, k) == Others(a, key, k) + Others(b, key, k)
  {
    if |a| == 0 {
      assert a + b == b;
    } else {
      assert (a + b)[1..] == a[1..] + b;
      MatchesConcat(a[1..], b, key, k);
    }
  }

  /** The forward scan: the position of the first element whose key is `k`. */
  function FirstIndex<T, K(==)>(s: seq<T>, key: T -> K, k: K): (r: Option<nat>)
    ensures r.None? <==> forall i :: 0 <= i < |s| ==> key(s[i]) != k
    ensures r.Some? ==> r.value < |s| && key(s[r.value]) == k
                        && forall j :: 0 <= j < r.value ==> key(s[j]) != k
  {
    if |s| == 0 then None
    else if key(s[0]) == k then Some(0)
    else
      assert forall i :: 1 <= i < |s| ==> s[i] == s[1..][i - 1];
      match FirstIndex(s[1..], key, k)
      case None => None
      case Some(i) => Some(i + 1)
  }

  /** `getXById`: the first element whose key is `k`, or null. */
  function Find<T, K(==)>(s: seq<T>, key: T -> K, k: K): (r: Option<T>)
    ensures r.None? <==> forall i :: 0 <= i < |s| ==> key(s[i]) != k
    ensures r.Some? ==> exists i :: 0 <= i < |s| && s[i] == r.value && key(s[i]) == k
                                    && forall j :: 0 <= j < i ==> key(s[j]) != k
  {
    match FirstIndex(s, key, k)
    case None => None
    case Some(i) => Some(s[i])
  }

  /**
    `updateX`: the first element with the key of `v` is overwritten by `v`
    and `v` is returned; without such an element nothing changes and the
    result is null.
  */
  function Update<T, K(==)>(s: seq<T>, key: T -> K, v: T): (r: (seq<T>, Option<T>))
    ensures |r.0| == |s|
    ensures r.1.Some? <==> exists i :: 0 <= i < |s| && key(s[i]) == key(v)
    ensures r.1.None? ==> r.0 == s
    ensures r.1.Some? ==> r.1.value == v
    ensures r.1.Some? ==> exists i :: 0 <= i < |s| && key(s[i]) == key(v)
                                      && (forall j :: 0 <= j < i ==> key(s[j]) != key(v))
                                      && r.0 == s[i := v]
  {
    match FirstIndex(s, key, key(v))
    case None => (s, None)
    case Some(i) => (s[i := v], Some(v))
  }

  /** The backward scan: the position of the last element whose key is `k`. */
  function LastIndex<T, K(==)>(s: seq<T>, key: T -> K, k: K): (r: Option<nat>)
    ensures r.None? <==> forall i :: 0 <= i < |s| ==> key(s[i]) != k
    ensures r.Some? ==> r.value < |s| && key(s[r.value]) == k
                        && forall j :: r.value < j < |s| ==> key(s[j]) != k
  {
    if |s| == 0 then None
    else if key(s[|s| - 1]) == k then Some(|s| - 1)
    else
      assert forall i :: 0 <= i < |s| - 1 ==> s[i] == s[..|s| - 1][i];
      LastIndex(s[..|s| - 1], key, k)
  }

  /** `deleteXById`: the last element whose key is `k` is removed; without one nothing changes. */
  function DeleteLast<T, K(==)>(s: seq<T>, key: T -> K, k: K): (r: seq<T>)
    ensures (forall i :: 0 <= i < |s| ==> key(s[i]) != k) ==> r == s
    ensures (exists i :: 0 <= i < |s| && key(s[i]) == k) ==>
              exists i :: 0 <= i < |s| && key(s[i]) == k
                          && (forall j :: i < j < |s| ==> key(s[j]) != k)
                          && r == s[..i] + s[i + 1..]
  {
    match LastIndex(s, key, k)
    case None => s
    case Some(i) => s[..i] + s[i + 1..]
  }

  // ---- how the operations relate ------------------------------------------

  /** Appending: earlier elements still win the lookup; the new one is found when its key was absent. */
  lemma AppendFind<T, K>(s: seq<T>, key: T -> K, v: T, k: K)
    ensures Find(s + [v], key, k)
            == if Find(s, key, k).Some? then Find(s, key, k)
               else if key(v) == k then Some(v) else None
  {
    var t := s + [v];
    assert forall i :: 0 <= i < |s| ==> t[i] == s[i];
    match FirstIndex(s, key, k)
    case Some(i) =>
      assert FirstIndex(t, key, k) == Some(i) by {
        FirstIndexUnique(t, key, k, i);
      }
    case None =>
      if key(v) == k {
        FirstIndexUnique(t, key, k, |s|);
      }
  }

  /** A position with key `k` and no earlier one is what the forward scan finds. */
  lemma FirstIndexUnique<T, K>(s: seq<T>, key: T -> K, k: K, i: nat)
    requires i < |s| && key(s[i]) == k
    requires forall j :: 0 <= j < i ==> key(s[j]) != k
    ensures FirstIndex(s, key, k) == Some(i)
  {
  }

  /** A position with key `k` and no later one is what the backward scan finds. */
  lemma LastIndexUnique<T, K>(s: seq<T>, key: T -> K, k: K, i: nat)
    requires i < |s| && key(s[i]) == k
    requires forall j :: i < j < |s| ==> key(s[j]) != k
    ensures LastIndex(s, key, k) == Some(i)
  {
  }

  lemma Single<T, K>(x: T, key: T -> K, k: K)
    ensures Matches([x], key, k) == if key(x) == k then 1 else 0
    ensures Others([x], key, k) == if key(x) == k then [] else [x]
  {
    assert [x][1..] == [];
  }

  /** Counting and filtering around position `i`. */
  lemma Around<T, K>(s: seq<T>, i: nat, key: T -> K, k: K)
    requires i < |s|
    ensures Matches(s, key, k) == Matches(s[..i], key, k) + Matches([s[i]], key, k) + Matches(s[i + 1..], key, k)
    ensures Others(s, key, k) == Others(s[..i], key, k) + (Others([s[i]], key, k) + Others(s[i + 1..], key, k))
  {
    var a := s[..i];
    var b := s[i + 1..];
    var c := [s[i]] + b;
    SplitAt(s, i);
    MatchesConcat(a, c, key, k);
    MatchesConcat([s[i]], b, key, k);
  }

  /** A sequence is what precedes position `i`, the element there, and what follows. */
  lemma SplitAt<T>(s: seq<T>, i: nat)
    ensures i < |s| ==> s == s[..i] + ([s[i]] + s[i + 1..])
  {
    if i < |s| {
      assert [s[i]] + s[i + 1..] == s[i..];
    }
  }

  /** Read-your-write for `Update`: afterwards the lookup by the new element's key gives the new element. */
  lemma UpdateFind<T, K>(s: seq<T>, key: T -> K, v: T)
    requires exists i :: 0 <= i < |s| && key(s[i]) == key(v)
    ensures Find(Update(s, key, v).0, key, key(v)) == Some(v)
  {
    var i := FirstIndex(s, key, key(v)).value;
    var r := s[i := v];
    assert Update(s, key, v).0 == r;
    FirstIndexUnique(r, key, key(v), i);
  }

  /**
    `Update` trades one element with the key of `v` for `v`: the number of
    elements with that key is the same and the elements with other keys are
    untouched, in order.
  */
  lemma UpdateKeepsOthers<T, K>(s: seq<T>, key: T -> K, v: T)
    ensures Matches(Update(s, key, v).0, key, key(v)) == Matches(s, key, key(v))
    ensures Others(Update(s, key, v).0, key, key(v)) == Others(s, key, key(v))
  {
    match FirstIndex(s, key, key(v))
    case None =>
    case Some(i) =>
      var r := s[i := v];
      assert r[..i] == s[..i] && r[i + 1..] == s[i + 1..];
      Around(s, i, key, key(v));
      Around(r, i, key, key(v));
      Single(s[i], key, key(v));
      Single(v, key, key(v));
  }

  /**
    `DeleteLast` removes exactly one element with the key when there is one
    and leaves the elements with other keys untouched, in order.
  */
  lemma DeleteLastEffect<T, K>(s: seq<T>, key: T -> K, k: K)
    ensures Matches(DeleteLast(s, key, k), key, k) == if Matches(s, key, k) == 0 then 0 else Matches(s, key, k) - 1
    ensures Others(DeleteLast(s, key, k), key, k) == Others(s, key, k)
  {
    match LastIndex(s, key, k)
    case None =>
    case Some(i) =>
      RemoveMatch(s, i, key, k);
  }

  /** Removing one element with the key: one match fewer, the others untouched. */
  lemma RemoveMatch<T, K>(s: seq<T>, i: nat, key: T -> K, k: K)
    requires i < |s| && key(s[i]) == k
    ensures Matches(s[..i] + s[i + 1..], key, k) == Matches(s, key, k) - 1
    ensures Others(s[..i] + s[i + 1..], key, k) == Others(s, key, k)
  {
    var a := s[..i];
    var b := s[i + 1..];
    var oa := Others(a, key, k);
    var ob := Others(b, key, k);
    Around(s, i, key, k);
    Single(s[i], key, k);
    MatchesConcat(a, b, key, k);
    assert Others(s, key, k) == oa + ([] + ob);
    assert [] + ob == ob;
  }

  /** With two or more matches the first match comes before the last one. */
  lemma FirstBeforeLast<T, K>(s: seq<T>, key: T -> K, k: K)
    requires Matches(s, key, k) >= 2
    ensures FirstIndex(s, key, k).value < LastIndex(s, key, k).value
  {
    var f := FirstIndex(s, key, k).value;
    Around(s, f, key, k);
    Single(s[f], key, k);
    NoneBefore(s, f, key, k);
    MatchAfter(s, f, key, k);
  }

  /** No match before `i` means no match in the prefix. */
  lemma NoneBefore<T, K>(s: seq<T>, i: nat, key: T -> K, k: K)
    ensures i <= |s| && (forall j :: 0 <= j < i ==> key(s[j]) != k) ==> Matches(s[..i], key, k) == 0
  {
    if i <= |s| {
      assert forall j :: 0 <= j < i ==> s[..i][j] == s[j];
    }
  }

  /** A match in the suffix after `i` is a match at some position after `i`. */
  lemma MatchAfter<T, K>(s: seq<T>, i: nat, key: T -> K, k: K)
    ensures i < |s| && Matches(s[i + 1..], key, k) > 0 ==> exists j :: i < j < |s| && key(s[j]) == k
  {
    if i < |s| && Matches(s[i + 1..], key, k) > 0 {
      var t := s[i + 1..];
      var j :| 0 <= j < |t| && key(t[j]) == k;
      assert key(s[i + 1 + j]) == k;
    }
  }

  /** With two or more matches, removing the last one does not change what the lookup finds. */
  lemma DeleteLastKeepsFirst<T, K>(s: seq<T>, key: T -> K, k: K)
    requires Matches(s, key, k) >= 2
    ensures Find(DeleteLast(s, key, k), key, k) == Find(s, key, k)
  {
    var f := FirstIndex(s, key, k).value;
    var l := LastIndex(s, key, k).value;
    FirstBeforeLast(s, key, k);
    var r := s[..l] + s[l + 1..];
    assert DeleteLast(s, key, k) == r;
    forall j | 0 <= j <= f
      ensures r[j] == s[j]
    {
      assert r[j] == s[..l][j];
    }
    FirstIndexUnique(r, key, k, f);
    assert Find(r, key, k) == Some(r[f]);
  }

  /** After removing the only match the key is gone. */
  lemma DeleteLastOnly<T, K>(s: seq<T>, key: T -> K, k: K)
    requires Matches(s, key, k) == 1
    ensures Find(DeleteLast(s, key, k), key, k).None?
  {
    DeleteLastEffect(s, key, k);
  }
  // ---- distinct keys ------------------------------------------------------

  /** No two elements share a key. */
  predicate KeysDistinct<T, K(==)>(s: seq<T>, key: T -> K) {
    forall i, j :: 0 <= i < j < |s| ==> key(s[i]) != key(s[j])
  }

  /** Appending an element whose key is absent keeps the keys distinct. */
  lemma AppendKeepsDistinct<T, K>(s: seq<T>, key: T -> K, v: T)
    requires KeysDistinct(s, key) && Find(s, key, key(v)).None?
    ensures KeysDistinct(s + [v], key)
  {
    var t := s + [v];
    forall i, j | 0 <= i < j < |t|
      ensures key(t[i]) != key(t[j])
    {
      assert t[i] == s[i];
    }
  }

  /** `Update` keeps the keys distinct: the new element takes the place of the one with its key. */
  lemma UpdateKeepsDistinct<T, K>(s: seq<T>, key: T -> K, v: T)
    requires KeysDistinct(s, key)
    ensures KeysDistinct(Update(s, key, v).0, key)
  {
    match FirstIndex(s, key, key(v))
    case None =>
    case Some(f) =>
      var r := s[f := v];
      forall i, j | 0 <= i < j < |r|
        ensures key(r[i]) != key(r[j])
      {
        assert key(r[i]) == key(s[i]) && key(r[j]) == key(s[j]);
      }
  }

  /** `DeleteLast` keeps the keys distinct. */
  lemma DeleteKeepsDistinct<T, K>(s: seq<T>, key: T -> K, k: K)
    requires KeysDistinct(s, key)
    ensures KeysDistinct(DeleteLast(s, key, k), key)
  {
    match LastIndex(s, key, k)
    case None =>
    case Some(l) =>
      var r := s[..l] + s[l + 1..];
      forall i, j | 0 <= i < j < |r|
        ensures key(r[i]) != key(r[j])
      {
        var i' := if i < l then i else i + 1;
        var j' := if j < l then j else j + 1;
        assert r[i] == s[i'] && r[j] == s[j'];
      }
  }

  /** With distinct keys, after `DeleteLast` the key is gone. */
  lemma DeleteGone<T, K>(s: seq<T>, key: T -> K, k: K)
    requires KeysDistinct(s, key)
    ensures Find(DeleteLast(s, key, k), key, k).None?
  {
    match LastIndex(s, key, k)
    case None =>
    case Some(l) =>
      var r := s[..l] + s[l + 1..];
      forall j | 0 <= j < |r|
        ensures key(r[j]) != k
      {
        var j' := if j < l then j else j + 1;
        assert r[j] == s[j'];
      }
  }
}

=== FILE: text.dfy ===
/**
  String helpers the Java code borrows from `java.lang.String`: `trim`,
  `isEmpty` after `trim`, `lastIndexOf`, `toLowerCase`, `equalsIgnoreCase`,
  `replace`, joining with a separator, and decimal rendering as used by
  `String.format("%0Nd", …)` and by string concatenation of an `int`.
*/
module Text {

  /** `String.trim` removes every leading and trailing character at or below U+0020. */
  predicate IsTrimmable(c: char) {
    c <= ' '
  }

  /** `s.trim().isEmpty()`: nothing but trimmable characters. */
  predicate IsBlank(s: string) {
    forall i :: 0 <= i < |s| ==> IsTrimmable(s[i])
  }

  /** Number of trimmable characters at the front of `s`. */
  function LeadingCount(s: string): (k: nat)
    ensures k <= |s|
    ensures IsBlank(s[..k])
    ensures k < |s| ==> !IsTrimmable(s[k])
  {
    if |s| == 0 || !IsTrimmable(s[0]) then 0 else 1 + LeadingCount(s[1..])
  }

  /** Number of trimmable characters at the back of `s`. */
  function TrailingCount(s: string): (k: nat)
    ensures k <= |s|
    ensures forall j :: |s| - k <= j < |s| ==> IsTrimmable(s[j])
    ensures k < |s| ==> !IsTrimmable(s[|s| - k - 1])
  {
    if |s| == 0 || !IsTrimmable(s[|s| - 1]) then 0 else 1 + TrailingCount(s[..|s| - 1])
  }

  /** `String.trim`. */
  function Trim(s: string): (r: string)
    ensures r == [] <==> IsBlank(s)
    ensures r != [] ==> !IsTrimmable(r[0]) && !IsTrimmable(r[|r| - 1])
    ensures exists a :: 0 <= a <= |s| - |r| && r == s[a..a + |r|]
                        && IsBlank(s[..a]) && IsBlank(s[a + |r|..])
  {
    var st := LeadingCount(s);
    if st == |s| then
      assert s[..st] == s;
      []
    else
      var en := |s| - TrailingCount(s);
      assert IsBlank(s[en..]);
      s[st..en]
  }

  lemma TrimIdempotent(s: string)
    ensures Trim(Trim(s)) == Trim(s)
  {
    var t := Trim(s);
    if t != [] {
      assert LeadingCount(t) == 0;
      assert TrailingCount(t) == 0;
      assert t[0..|t|] == t;
    }
  }

  /** A string with no trimmable character at either end is its own trim. */
  lemma TrimOfTrimmed(s: string)
    requires s != [] ==> !IsTrimmable(s[0]) && !IsTrimmable(s[|s| - 1])
    ensures Trim(s) == s
  {
    if s != [] {
      assert s[0..|s|] == s;
    }
  }

  /** `Character.toLowerCase` restricted to ASCII letters. */
  function LowerChar(c: char): char {
    if 'A' <= c <= 'Z' then (c as int - 'A' as int + 'a' as int) as char else c
  }

  predicate IsUpper(c: char) {
    'A' <= c <= 'Z'
  }

  /** No upper-case ASCII letter in `s`. */
  predicate NoUpper(s: string) {
    forall i :: 0 <= i < |s| ==> !IsUpper(s[i])
  }

  /** `String.toLowerCase` restricted to ASCII letters. */
  function ToLower(s: string): (r: string)
    ensures |r| == |s|
    ensures forall i :: 0 <= i < |s| ==> r[i] == LowerChar(s[i])
    ensures NoUpper(r)
  {
    seq(|s|, i requires 0 <= i < |s| => LowerChar(s[i]))
  }

  /** Lower-casing never introduces a character that is not a letter. */
  lemma ToLowerAbsent(s: string, c: char)
    requires c !in s && !IsUpper(c) && !('a' <= c <= 'z')
    ensures c !in ToLower(s)
  {
    var r := ToLower(s);
    forall i | 0 <= i < |r|
      ensures r[i] != c
    {
      assert r[i] == LowerChar(s[i]);
    }
  }

  /** `a.equalsIgnoreCase(b)` for non-null `a` and nullable `b`, folding ASCII letters. */
  predicate EqualsIgnoreCase(a: string, b: string) {
    |a| == |b| && forall i :: 0 <= i < |a| ==> LowerChar(a[i]) == LowerChar(b[i])
  }

  /** Ignoring case is comparing the lower-cased strings. */
  lemma EqualsIgnoreCaseLower(a: string, b: string)
    ensures EqualsIgnoreCase(a, b) <==> ToLower(a) == ToLower(b)
  {
    if ToLower(a) == ToLower(b) {
      forall i | 0 <= i < |a|
        ensures LowerChar(a[i]) == LowerChar(b[i])
      {
        assert ToLower(a)[i] == ToLower(b)[i];
      }
    }
  }

  /** `String.lastIndexOf(char)`: the index of the last occurrence, or -1. */
  function LastIndexOf(s: string, c: char): (r: int)
    ensures -1 <= r < |s|
    ensures r == -1 <==> c !in s
    ensures r >= 0 ==> s[r] == c && c !in s[r + 1..]
  {
    if |s| == 0 then -1
    else if s[|s| - 1] == c then |s| - 1
    else
      assert s == s[..|s| - 1] + [s[|s| - 1]];
      var r := LastIndexOf(s[..|s| - 1], c);
      assert r >= 0 ==> s[r + 1..] == s[..|s| - 1][r + 1..] + [s[|s| - 1]];
      r
  }

  /** The last occurrence of `c` in `a + [c] + b`, when `b` has none, is at `|a|`. */
  lemma {:induction false} LastIndexOfSplit(a: string, c: char, b: string)
    requires c !in b
    ensures LastIndexOf(a + [c] + b, c) == |a|
  {
    var s := a + [c] + b;
    if |b| > 0 {
      assert s[..|s| - 1] == a + [c] + b[..|b| - 1];
      assert s[|s| - 1] == b[|b| - 1];
      LastIndexOfSplit(a, c, b[..|b| - 1]);
    }
  }

  /** Number of occurrences of `c` in `s`. */
  function Count(s: string, c: char): (n: nat)
    ensures n <= |s|
    ensures n == 0 <==> c !in s
  {
    if |s| == 0 then 0 else (if s[0] == c then 1 else 0) + Count(s[1..], c)
  }

  /** `s.replace(String.valueOf(c), rep)`: every occurrence of `c` becomes `rep`. */
  function ReplaceAll(s: string, c: char, rep: string): (r: string)
    ensures |r| == |s| + Count(s, c) * (|rep| - 1)
  {
    if |s| == 0 then []
    else
      var rest := ReplaceAll(s[1..], c, rep);
      MulStep(Count(s[1..], c), |rep| - 1);
      (if s[0] == c then rep else [s[0]]) + rest
  }

  /** One more occurrence adds one more factor. */
  lemma MulStep(x: int, k: int)
    ensures (x + 1) * k == x * k + k
  {
  }

  lemma {:induction false} ReplaceAllConcat(a: string, b: string, c: char, rep: string)
    ensures ReplaceAll(a + b, c, rep) == ReplaceAll(a, c, rep) + ReplaceAll(b, c, rep)
  {
    if |a| > 0 {
      TailConcat(a, b);
      ReplaceAllConcat(a[1..], b, c, rep);
      AppendAssoc(if a[0] == c then rep else [a[0]], ReplaceAll(a[1..], c, rep), ReplaceAll(b, c, rep));
    } else {
      assert a + b == b;
    }
  }

  /** A non-empty sequence is its head followed by its tail. */
  lemma HeadTail<T>(s: seq<T>)
    ensures |s| > 0 ==> s == [s[0]] + s[1..]
  {
    if |s| > 0 {
      assert s == [s[0]] + s[1..];
    }
  }

  /** A prefix one element longer is the prefix followed by that element. */
  lemma PrefixSnoc<T>(s: seq<T>, i: nat)
    requires i < |s|
    ensures s[..i + 1] == s[..i] + [s[i]]
  {
  }

  /** Nothing in front changes nothing. */
  lemma EmptyConcat<T>(a: seq<T>, b: seq<T>)
    ensures a == [] ==> a + b == b
  {
  }

  /** A one-element sequence is the sequence of its element. */
  lemma OnlyElement<T>(s: seq<T>)
    ensures |s| == 1 ==> s == [s[0]]
  {
  }

  /** The head and tail of a concatenation whose first part is not empty. */
  lemma TailConcat<T>(a: seq<T>, b: seq<T>)
    ensures |a| > 0 ==> (a + b)[0] == a[0] && (a + b)[1..] == a[1..] + b
  {
    if |a| > 0 {
      assert (a + b)[1..] == a[1..] + b;
    }
  }

  lemma {:induction false} ReplaceAllAbsent(s: string, c: char, rep: string)
    requires c !in s
    ensures ReplaceAll(s, c, rep) == s
  {
    if |s| > 0 {
      assert s[0] != c;
      ReplaceAllAbsent(s[1..], c, rep);
      assert s == [s[0]] + s[1..];
    }
  }

  /** Regrouping a concatenation of three strings to the right. */
  lemma AppendAssoc(a: string, b: string, c: string)
    ensures a + b + c == a + (b + c)
  {
  }

  /** Equal text around two middles makes the middles equal. */
  lemma MiddleCancel(a: string, x: string, y: string, b: string)
    ensures a + x + b == a + y + b ==> x == y
  {
    if a + x + b == a + y + b {
      assert x == (a + x + b)[|a|..|a| + |x|];
      assert y == (a + y + b)[|a|..|a| + |y|];
    }
  }

  /** Regrouping a concatenation of four strings to the right. */
  lemma Concat4(a: string, b: string, c: string, d: string)
    ensures a + b + c + d == a + (b + (c + d))
  {
  }

  /** `String.join(sep, parts)`: the parts in order, with `sep` between neighbours. */
  function Join(parts: seq<string>, sep: string): (r: string)
    ensures |parts| == 0 ==> r == ""
    ensures |parts| == 1 ==> r == parts[0]
  {
    if |parts| == 0 then ""
    else if |parts| == 1 then parts[0]
    else parts[0] + sep + Join(parts[1..], sep)
  }

  /** Joining one more part adds the separator and the part at the end. */
  lemma {:induction false} JoinSnoc(parts: seq<string>, x: string, sep: string)
    requires |parts| > 0
    ensures Join(parts + [x], sep) == Join(parts, sep) + sep + x
    decreases |parts|
  {
    var t := parts + [x];
    assert t[0] == parts[0];
    if |parts| == 1 {
      assert t[1..] == [x];
    } else {
      assert t[1..] == parts[1..] + [x];
      JoinSnoc(parts[1..], x, sep);
    }
  }

  // ---- decimal numbers -------------------------------------------------

  predicate IsDigit(c: char) {
    '0' <= c <= '9'
  }

  function DigitChar(d: nat): (c: char)
    requires d < 10
    ensures IsDigit(c)
  {
    ('0' as int + d) as char
  }

  function DigitValue(c: char): (d: nat)
    requires IsDigit(c)
    ensures d < 10
  {
    c as int - '0' as int
  }

  /** Decimal rendering of a natural number, as `Integer.toString` produces it. */
  function DecimalString(n: nat): (r: string)
    ensures |r| >= 1
    ensures forall i :: 0 <= i < |r| ==> IsDigit(r[i])
    ensures |r| > 1 ==> r[0] != '0'
  {
    if n < 10 then [DigitChar(n)] else DecimalString(n / 10) + [DigitChar(n % 10)]
  }

  /** Reads a string of digits as a natural number (the inverse of `DecimalString`). */
  function ParseDecimal(s: string): (n: nat)
    requires forall i :: 0 <= i < |s| ==> IsDigit(s[i])
  {
    if |s| == 0 then 0 else ParseDecimal(s[..|s| - 1]) * 10 + DigitValue(s[|s| - 1])
  }

  function Zeros(k: nat): (r: string)
    ensures |r| == k
    ensures forall i :: 0 <= i < k ==> r[i] == '0'
  {
    seq(k, _ => '0')
  }

  /** `String.format("%0wd", n)` for a non-negative `n`: zero-padded to at least `w` digits. */
  function ZeroPad(n: nat, w: nat): (r: string)
    ensures |r| == if |DecimalString(n)| >= w then |DecimalString(n)| else w
    ensures forall i :: 0 <= i < |r| ==> IsDigit(r[i])
  {
    var d := DecimalString(n);
    if |d| >= w then d else Zeros(w - |d|) + d
  }

  lemma {:induction false} ParseDecimalRoundTrip(n: nat)
    ensures ParseDecimal(DecimalString(n)) == n
  {
    if n >= 10 {
      var d := DecimalString(n);
      assert d[..|d| - 1] == DecimalString(n / 10);
      ParseDecimalRoundTrip(n / 10);
    }
  }

  lemma {:induction false} ParseDecimalLeadingZeros(k: nat, s: string)
    requires forall i :: 0 <= i < |s| ==> IsDigit(s[i])
    ensures forall i :: 0 <= i < |Zeros(k) + s| ==> IsDigit((Zeros(k) + s)[i])
    ensures ParseDecimal(Zeros(k) + s) == ParseDecimal(s)
    decreases |s|
  {
    var t := Zeros(k) + s;
    if |s| == 0 {
      assert t == Zeros(k);
      ZerosParse(k);
    } else {
      assert t[..|t| - 1] == Zeros(k) + s[..|s| - 1];
      ParseDecimalLeadingZeros(k, s[..|s| - 1]);
    }
  }

  lemma {:induction false} ZerosParse(k: nat)
    ensures ParseDecimal(Zeros(k)) == 0
  {
    if k > 0 {
      assert Zeros(k)[..k - 1] == Zeros(k - 1);
      ZerosParse(k - 1);
    }
  }

  /** Zero padding never changes the value the digits denote. */
  lemma ZeroPadRoundTrip(n: nat, w: nat)
    ensures ParseDecimal(ZeroPad(n, w)) == n
  {
    var d := DecimalString(n);
    ParseDecimalRoundTrip(n);
    if |d| < w {
      ParseDecimalLeadingZeros(w - |d|, d);
    }
  }

  /** Decimal rendering is injective, so counters rendered into names give distinct names. */
  lemma DecimalStringInjective(a: nat, b: nat)
    requires DecimalString(a) == DecimalString(b)
    ensures a == b
  {
    ParseDecimalRoundTrip(a);
    ParseDecimalRoundTrip(b);
  }

  /** A number below `10^w` renders in at most `w` digits, so `ZeroPad` gives exactly `w`. */
  lemma {:induction false} ZeroPadExact(n: nat, w: nat)
    requires w >= 1
    requires n < Pow10(w)
    ensures |ZeroPad(n, w)| == w
  {
    DecimalLength(n, w);
  }

  function Pow10(k: nat): (p: nat)
    ensures p >= 1
  {
    if k == 0 then 1 else 10 * Pow10(k - 1)
  }

  lemma {:induction false} DecimalLength(n: nat, w: nat)
    requires w >= 1
    requires n < Pow10(w)
    ensures |DecimalString(n)| <= w
  {
    if n >= 10 {
      assert Pow10(1) == 10;
      assert n / 10 < Pow10(w - 1);
      DecimalLength(n / 10, w - 1);
    }
  }
}

=== FILE: tiling.dfy ===
/**
  `divideImage` of the image-processing demo: the W×H image is cut into a
  `cols × rows` grid (`cols = ⌊√n⌋`, `rows = ⌈n / cols⌉`), cells are emitted
  row by row, the last column and the last row absorb the remainder, and
  emission stops after `n` cells. The program uses `n = NumThreads = 4`;
  the model keeps `n` as a parameter so that the grid shapes for other
  counts can be examined too. `Math.sqrt` and `Math.ceil` become the
  integer square root and ceiling division.
*/
module Tiling {

  /** `java.awt.Rectangle`: a corner and a size. */
  datatype Rect = Rect(x: int, y: int, width: int, height: int)

  /** The pixel (`px`, `py`) lies inside `r` (the pixels the processor's loops visit). */
  predicate Contains(r: Rect, px: int, py: int) {
    r.x <= px < r.x + r.width && r.y <= py < r.y + r.height
  }

  /** `r` lies inside a `width × height` image. */
  predicate InBounds(r: Rect, width: nat, height: nat) {
    0 <= r.x && 0 <= r.y && 0 <= r.width && 0 <= r.height
    && r.x + r.width <= width && r.y + r.height <= height
  }

  const NumThreads: nat := 4

  // ---- integer square root and ceiling division ------------------------

  function ISqrtFrom(n: nat, r: nat): (s: nat)
    requires r * r <= n
    ensures s * s <= n < (s + 1) * (s + 1)
    decreases n - r
  {
    if (r + 1) * (r + 1) <= n then
      assert r < (r + 1) * (r + 1);
      ISqrtFrom(n, r + 1)
    else r
  }

  /** `(int) Math.sqrt(n)`: the largest `s` with `s*s <= n`. */
  function ISqrt(n: nat): (s: nat)
    ensures s * s <= n < (s + 1) * (s + 1)
  {
    ISqrtFrom(n, 0)
  }

  /** `(int) Math.ceil((double) a / b)`: the least `r` with `a <= r*b`. */
  function CeilDiv(a: nat, b: nat): (r: nat)
    requires b > 0
    ensures a <= r * b < a + b
  {
    (a + b - 1) / b
  }

  function Cols(n: nat): (c: nat)
    requires n >= 1
    ensures 1 <= c <= n
  {
    var s := ISqrt(n);
    assert s == 0 ==> (s + 1) * (s + 1) == 1;
    assert s <= s * s;
    s
  }

  /** Number of grid rows; the grid always has room for `n` cells. */
  function Rows(n: nat): (r: nat)
    requires n >= 1
    ensures r >= 1
    ensures n <= r * Cols(n)
  {
    CeilDiv(n, Cols(n))
  }

  // ---- one dimension ---------------------------------------------------

  /** Where segment `i` starts when `total` is cut into `parts` equal pieces. */
  function SegStart(i: nat, total: nat, parts: nat): nat
    requires parts > 0
  {
    i * (total / parts)
  }

  /** Length of segment `i`: the tile size, except that the last segment takes the rest. */
  function SegLen(i: nat, total: nat, parts: nat): int
    requires parts > 0
  {
    if i == parts - 1 then total - SegStart(i, total, parts) else total / parts
  }

  /** Coordinate `p` lies in segment `i`. */
  predicate InSegment(p: nat, total: nat, parts: nat, i: nat)
    requires parts > 0
  {
    SegStart(i, total, parts) <= p < SegStart(i, total, parts) + SegLen(i, total, parts)
  }

  /** The segment a coordinate `p` of `[0, total)` falls in. */
  function SegOf(p: nat, total: nat, parts: nat): (i: nat)
    requires parts > 0
    ensures i < parts
  {
    var t := total / parts;
    if t == 0 then parts - 1
    else if p / t < parts - 1 then p / t
    else parts - 1
  }

  lemma MulMono(a: nat, b: nat, t: nat)
    ensures a <= b ==> a * t <= b * t
  {
    if a <= b {
      assert b * t - a * t == (b - a) * t;
    }
  }

  lemma DivRange(p: nat, t: nat, i: nat)
    requires t > 0
    ensures i * t <= p < i * t + t <==> p / t == i
  {
    var q := p / t;
    assert q * t <= p < q * t + t;
    MulMono(q + 1, i, t);
    MulMono(i + 1, q, t);
  }

  /** Segments stay inside `[0, total)` and have a non-negative length. */
  lemma SegBounds(i: nat, total: nat, parts: nat)
    requires parts > 0 && i < parts
    ensures 0 <= SegLen(i, total, parts)
    ensures SegStart(i, total, parts) + SegLen(i, total, parts) <= total
  {
    var t := total / parts;
    MulMono(i + 1, parts, t);
    assert parts * t <= total;
  }

  /** A coordinate lies in segment `i` exactly when `i` is its segment. */
  lemma SegMembership(p: nat, total: nat, parts: nat, i: nat)
    requires parts > 0 && i < parts && p < total
    ensures InSegment(p, total, parts, i) <==> i == SegOf(p, total, parts)
  {
    var t := total / parts;
    if t > 0 {
      DivRange(p, t, i);
      if i == parts - 1 {
        if p / t < parts - 1 {
          MulMono(p / t + 1, parts - 1, t);
        } else {
          MulMono(parts - 1, p / t, t);
        }
      }
    }
  }

  // ---- the grid --------------------------------------------------------

  lemma GridIndex(row: nat, col: nat, cols: nat)
    requires col < cols
    ensures (row * cols + col) / cols == row
    ensures (row * cols + col) % cols == col
  {
    DivRange(row * cols + col, cols, row);
  }

  lemma RowBound(k: nat, cols: nat, rows: nat)
    ensures cols > 0 && k < rows * cols ==> k / cols < rows
  {
    if cols > 0 && k / cols >= rows {
      MulMono(rows, k / cols, cols);
    }
  }

  /** Grid cell `k` of a `cols × rows` grid, in row-major order. */
  function GridCell(width: nat, height: nat, cols: nat, rows: nat, k: nat): Rect
    requires cols > 0 && rows > 0
  {
    var col := k % cols;
    var row := k / cols;
    Rect(SegStart(col, width, cols), SegStart(row, height, rows),
         SegLen(col, width, cols), SegLen(row, height, rows))
  }

  /** Reference definition of the `k`-th area `divideImage` emits for `n` threads. */
  function Cell(width: nat, height: nat, n: nat, k: nat): Rect
    requires n >= 1
  {
    GridCell(width, height, Cols(n), Rows(n), k)
  }

  /**
    `divideImage` for `n` areas, with the same nested loops and the same two
    `break`s. The grid has at least `n` cells, so exactly `n` areas are
    emitted, the `k`-th being grid cell `k` in row-major order.
  */
  method DivideImage(width: nat, height: nat, n: nat) returns (areas: seq<Rect>)
    requires n >= 1
    ensures |areas| == n
    ensures forall k :: 0 <= k < n ==> areas[k] == Cell(width, height, n, k)
  {
    areas := [];
    var cols := Cols(n);
    var rows := Rows(n);
    var tileWidth := width / cols;
    var tileHeight := height / rows;
    var row := 0;
    while row < rows
      invariant 0 <= row <= rows
      invariant |areas| == row * cols < n
      invariant forall k :: 0 <= k < |areas| ==> areas[k] == GridCell(width, height, cols, rows, k)
    {
      var col := 0;
      while col < cols
        invariant 0 <= col <= cols
        invariant |areas| == row * cols + col < n
        invariant forall k :: 0 <= k < |areas| ==> areas[k] == GridCell(width, height, cols, rows, k)
      {
        var x := col * tileWidth;
        var y := row * tileHeight;
        var w := if col == cols - 1 then width - x else tileWidth;
        var h := if row == rows - 1 then height - y else tileHeight;
        GridIndex(row, col, cols);
        areas := areas + [Rect(x, y, w, h)];
        if |areas| >= n {
          break;
        }
        col := col + 1;
      }
      if |areas| >= n {
        break;
      }
      assert |areas| == (row + 1) * cols;
      row := row + 1;
    }
  }

  lemma GridCellInBounds(width: nat, height: nat, cols: nat, rows: nat, k: nat)
    requires cols > 0 && rows > 0 && k < rows * cols
    ensures InBounds(GridCell(width, height, cols, rows, k), width, height)
  {
    RowBound(k, cols, rows);
    SegBounds(k % cols, width, cols);
    SegBounds(k / cols, height, rows);
  }

  /** Every area lies inside the image. */
  lemma CellInBounds(width: nat, height: nat, n: nat, k: nat)
    requires n >= 1 && k < n
    ensures InBounds(Cell(width, height, n, k), width, height)
  {
    GridCellInBounds(width, height, Cols(n), Rows(n), k);
  }

  /** The row-major index of the grid cell that holds pixel (`px`, `py`). */
  function GridOwner(width: nat, height: nat, cols: nat, rows: nat, px: nat, py: nat): nat
    requires cols > 0 && rows > 0
  {
    SegOf(py, height, rows) * cols + SegOf(px, width, cols)
  }

  lemma IndexDecomposition(k: nat, row: nat, col: nat, cols: nat)
    ensures col < cols ==> (k == row * cols + col <==> k / cols == row && k % cols == col)
  {
    if col < cols {
      GridIndex(row, col, cols);
      assert k == (k / cols) * cols + k % cols;
    }
  }

  /** Grid cell `k` holds a pixel when both coordinates lie in its column and row segments. */
  lemma GridCellSpan(width: nat, height: nat, cols: nat, rows: nat, k: nat, px: nat, py: nat)
    ensures cols > 0 && rows > 0 ==>
              (Contains(GridCell(width, height, cols, rows, k), px, py)
               <==> InSegment(px, width, cols, k % cols) && InSegment(py, height, rows, k / cols))
  {
  }

  /** A pixel lies in the segments of column `col` and row `row` exactly when they are its segments. */
  lemma SegmentsOf(width: nat, height: nat, cols: nat, rows: nat, col: int, row: int, px: nat, py: nat)
    ensures 0 <= col < cols && 0 <= row < rows && px < width && py < height ==>
              (InSegment(px, width, cols, col) && InSegment(py, height, rows, row)
               <==> col == SegOf(px, width, cols) && row == SegOf(py, height, rows))
  {
    if 0 <= col < cols && 0 <= row < rows && px < width && py < height {
      SegMembership(px, width, cols, col);
      SegMembership(py, height, rows, row);
    }
  }

  lemma GridCellContains(width: nat, height: nat, cols: nat, rows: nat, k: nat, px: nat, py: nat)
    requires cols > 0 && rows > 0 && k < rows * cols && px < width && py < height
    ensures Contains(GridCell(width, height, cols, rows, k), px, py)
            <==> k == GridOwner(width, height, cols, rows, px, py)
  {
    RowBound(k, cols, rows);
    GridCellSpan(width, height, cols, rows, k, px, py);
    SegmentsOf(width, height, cols, rows, k % cols, k / cols, px, py);
    IndexDecomposition(k, SegOf(py, height, rows), SegOf(px, width, cols), cols);
  }

  function Owner(width: nat, height: nat, n: nat, px: nat, py: nat): nat
    requires n >= 1
  {
    GridOwner(width, height, Cols(n), Rows(n), px, py)
  }

  /** Area `k` holds pixel (`px`, `py`) exactly when `k` is that pixel's owner. */
  lemma CellContains(width: nat, height: nat, n: nat, k: nat, px: nat, py: nat)
    requires n >= 1 && k < n && px < width && py < height
    ensures Contains(Cell(width, height, n, k), px, py) <==> k == Owner(width, height, n, px, py)
  {
    GridCellContains(width, height, Cols(n), Rows(n), k, px, py);
  }

  /** No pixel belongs to two areas. */
  lemma CellsDisjoint(width: nat, height: nat, n: nat, j: nat, k: nat, px: nat, py: nat)
    requires n >= 1 && j < n && k < n && px < width && py < height
    requires Contains(Cell(width, height, n, j), px, py)
    requires Contains(Cell(width, height, n, k), px, py)
    ensures j == k
  {
    CellContains(width, height, n, j, px, py);
    CellContains(width, height, n, k, px, py);
  }

  lemma GridOwnerBound(width: nat, height: nat, cols: nat, rows: nat, px: nat, py: nat)
    requires cols > 0 && rows > 0
    ensures GridOwner(width, height, cols, rows, px, py) < rows * cols
  {
    MulMono(SegOf(py, height, rows) + 1, rows, cols);
  }

  /** When the grid has exactly `n` cells, every pixel belongs to an area. */
  lemma CellsCover(width: nat, height: nat, n: nat, px: nat, py: nat)
    requires n >= 1 && Rows(n) * Cols(n) == n && px < width && py < height
    ensures Owner(width, height, n, px, py) < n
    ensures Contains(Cell(width, height, n, Owner(width, height, n, px, py)), px, py)
  {
    GridOwnerBound(width, height, Cols(n), Rows(n), px, py);
    CellContains(width, height, n, Owner(width, height, n, px, py), px, py);
  }

  /** With four threads the grid is 2 × 2 and has exactly four cells. */
  lemma FourThreadGrid()
    ensures Cols(NumThreads) == 2 && Rows(NumThreads) == 2
    ensures Rows(NumThreads) * Cols(NumThreads) == NumThreads
  {
    assert ISqrtFrom(4, 0) == ISqrtFrom(4, 1) == ISqrtFrom(4, 2) == 2;
  }

  /** The areas of a 5 × 5 image with four threads. */
  lemma FiveByFiveExample()
    ensures Cell(5, 5, 4, 0) == Rect(0, 0, 2, 2)
    ensures Cell(5, 5, 4, 1) == Rect(2, 0, 3, 2)
    ensures Cell(5, 5, 4, 2) == Rect(0, 2, 2, 3)
    ensures Cell(5, 5, 4, 3) == Rect(2, 2, 3, 3)
  {
    FourThreadGrid();
  }

  /**
    With five threads the grid is 2 × 3 and emission stops after five of its
    six cells, so the bottom-right pixel of a 5 × 5 image is in no area.
  */
  lemma FiveThreadsLeaveAGap(k: nat)
    requires k < 5
    ensures !Contains(Cell(5, 5, 5, k), 4, 4)
  {
    assert ISqrtFrom(5, 0) == ISqrtFrom(5, 1) == ISqrtFrom(5, 2) == 2;
    assert Cols(5) == 2 && Rows(5) == 3;
    CellContains(5, 5, 5, k, 4, 4);
    assert SegOf(4, 5, 2) == 1 && SegOf(4, 5, 3) == 2;
  }
}

=== FILE: user.dfy ===
/**
  `User` of the shopping service: a final identifier drawn at construction
  and a name that `setName` replaces.
*/
module Users {
  import opened Optional
  import opened Json
  import RandomId

  datatype User = User(id: string, name: string)

  /** `new User(name)`: the identifier comes from the random draws. */
  function NewUser(draws: seq<nat>, name: string): (u: User)
    requires |draws| == RandomId.DrawsPerChar * RandomId.Length && RandomId.AreDraws(draws)
    ensures RandomId.IsId(u.id)
    ensures u.name == name
  {
    User(RandomId.IdOf(draws), name)
  }

  /** `setName`: the identifier is final, only the name changes. */
  function SetName(u: User, name: string): (r: User)
    ensures r.id == u.id && r.name == name
  {
    u.(name := name)
  }

  /** `toJson`: `{"id":"…","name":"…"}` with both values escaped. */
  function ToJson(u: User): (r: string)
    ensures |r| >= 2 && r[0] == '{' && r[|r| - 1] == '}'
  {
    Object2("id", EscapeJson(Some(u.id)), "name", EscapeJson(Some(u.name)))
  }

  /** Reads a user object back. */
  function Parse(s: string): (r: Option<(User, string)>)
    ensures r.Some? ==> |r.value.1| < |s|
  {
    match ParseObject2("id", "name", s)
    case None => None
    case Some((id, name, rest)) => Some((User(id, name), rest))
  }

  /** The JSON of a user reads back as that user. */
  lemma JsonRoundTrip(u: User, rest: string)
    ensures Parse(ToJson(u) + rest) == Some((u, rest))
  {
    Object2RoundTrip("id", u.id, "name", u.name, rest);
  }

  /** Renaming changes the JSON only in the name: reading it back gives the same identifier. */
  lemma SetNameJson(u: User, name: string)
    ensures Parse(ToJson(SetName(u, name))) == Some((User(u.id, name), ""))
  {
    JsonRoundTrip(SetName(u, name), "");
    assert ToJson(SetName(u, name)) + "" == ToJson(SetName(u, name));
  }
}

=== FILE: user_pages.dfy ===
/**
  The HTML `UserServlet`: the requests of the JSON servlet answered with
  pages and redirects, with `POST` standing in for `PUT` and `DELETE`
  through the `_method` form parameter. The markup of the pages is not
  modelled, only which page is shown and with what.
*/
module UserPages {
  import opened Optional
  import opened Text
  import opened HtmlEscape
  import opened Http
  import opened SeqStore
  import opened Users
  import opened UserRepository
  import RandomId

  /** The page a handler renders; `Blank` is a 200 with nothing written. */
  datatype View =
    | UserDetail(user: User)
    | UserList(users: seq<User>)
    | ErrorPage(title: string, message: string)
    | Blank

  const BadRequestTitle: string := "Bad Request"
  const NameRequired: string := "Name parameter is required."
  const IdRequired: string := "ID parameter is required."

  /** The 404 view as built: the message holds the identifier, HTML-escaped; the page escapes the message again. */
  function UserNotFound(id: string): View {
    ErrorPage("User not found", "User with ID " + EscapeHtml(Some(id)) + " does not exist.")
  }

  function IdOf(req: Request): Option<string> {
    ResolveId(req, "id")
  }

  /** Where creating and deleting redirect: the list of users. */
  function ListLocation(contextPath: string): string {
    contextPath + "/Users"
  }

  /** Where an update redirects: the user's page. */
  function UserLocation(contextPath: string, id: string): string {
    contextPath + "/Users/" + id
  }

  /** `doGet`: the user, a 404 page, or every user when no identifier is given. */
  function GetPage(users: seq<User>, req: Request): (r: Reply<View>)
    ensures r.Render?
    ensures r.status == NotFound <==> Present(IdOf(req)) && GetUserById(users, IdOf(req).value).None?
    ensures r.status != NotFound ==> r.status == Ok
    ensures r.status == NotFound ==> r.view == UserNotFound(IdOf(req).value)
    ensures r.status == Ok && Present(IdOf(req)) ==>
              r.view.UserDetail? && r.view.user.id == IdOf(req).value
              && GetUserById(users, IdOf(req).value) == Some(r.view.user)
    ensures !Present(IdOf(req)) ==> r.view == UserList(users)
  {
    var id := IdOf(req);
    if Present(id) then
      match GetUserById(users, id.value)
      case Some(u) => Render(Ok, UserDetail(u))
      case None => Render(NotFound, UserNotFound(id.value))
    else Render(Ok, UserList(users))
  }

  /**
    What the error box of a page shows: `generateErrorHtml` escapes the
    message, and the browser decodes the references once.
  */
  function Shown(v: View): string
    requires v.ErrorPage?
  {
    UnescapeHtml(EscapeHtml(Some(v.message)))
  }

  /**
    As written, the identifier is escaped twice: once in the message and
    once more with the whole message, so the 404 page shows the escaped
    identifier rather than the identifier as received.
  */
  lemma NotFoundShowsEscaped(id: string)
    ensures Shown(UserNotFound(id)) == "User with ID " + EscapeHtml(Some(id)) + " does not exist."
  {
    EscapeHtmlRoundTrip(UserNotFound(id).message);
  }

  /** So an identifier holding `<` is not shown as it was received. */
  lemma NotFoundMisnamesUser(id: string)
    requires '<' in id
    ensures Shown(UserNotFound(id)) != "User with ID " + id + " does not exist."
  {
    NotFoundShowsEscaped(id);
    EscapeChangesAngle(id);
    MiddleCancel("User with ID ", EscapeHtml(Some(id)), id, " does not exist.");
  }

  /** The intended 404 page: the message holds the identifier as received and is escaped once, with the rest of the message. */
  function UserNotFoundOnce(id: string): View {
    ErrorPage("User not found", "User with ID " + id + " does not exist.")
  }

  /** The intended page shows the identifier as received, and its markup holds no raw `<`, `>`, `"` or `'`. */
  lemma NotFoundOnceNamesUser(id: string)
    ensures Shown(UserNotFoundOnce(id)) == "User with ID " + id + " does not exist."
    ensures var m := EscapeHtml(Some(UserNotFoundOnce(id).message));
            forall i :: 0 <= i < |m| ==> !(m[i] in {'<', '>', '"', '\''})
  {
    EscapeHtmlRoundTrip(UserNotFoundOnce(id).message);
    EscapeHtmlShape(UserNotFoundOnce(id).message);
  }


  /**
    `doPost` without `_method`: a 400 page for a blank name; otherwise the
    user is created with the trimmed name and the answer redirects to the
    list (the 201 set before the redirect is replaced by 302).
  */
  function AddPage(users: seq<User>, req: Request, draws: seq<nat>): (r: (seq<User>, Reply<View>))
    requires |draws| == RandomId.DrawsPerChar * RandomId.Length && RandomId.AreDraws(draws)
    ensures StatusOf(r.1) == BadRequest <==> MissingOrBlank(Param(req, "name"))
    ensures StatusOf(r.1) != BadRequest ==> r.1 == Redirect(ListLocation(req.contextPath))
    ensures StatusOf(r.1) == BadRequest ==> r.0 == users
    ensures StatusOf(r.1) != BadRequest ==>
              |r.0| == |users| + 1 && r.0[..|users|] == users
              && r.0[|users|].name == Trim(Param(req, "name").value) && RandomId.IsId(r.0[|users|].id)
  {
    var name := Param(req, "name");
    if MissingOrBlank(name) then (users, Render(BadRequest, ErrorPage(BadRequestTitle, NameRequired)))
    else
      var (after, u) := CreateUser(users, draws, Trim(name.value));
      assert after[..|users|] == users;
      (after, Redirect(ListLocation(req.contextPath)))
  }

  /**
    `doPut`: 400 for a blank `id` parameter, 404 when no user has it;
    otherwise the user is renamed (kept when the name is blank), stored
    back, and the answer redirects to the user's page. The update finds the
    user just looked up, so the page with nothing written is never given.
  */
  function PutPage(users: seq<User>, req: Request): (r: (seq<User>, Reply<View>))
    ensures StatusOf(r.1) == BadRequest <==> MissingOrBlank(Param(req, "id"))
    ensures StatusOf(r.1) == NotFound <==> !MissingOrBlank(Param(req, "id")) && GetUserById(users, Param(req, "id").value).None?
    ensures StatusOf(r.1) == Found <==> !MissingOrBlank(Param(req, "id")) && GetUserById(users, Param(req, "id").value).Some?
    ensures StatusOf(r.1) != Found ==> r.0 == users
    ensures StatusOf(r.1) == NotFound ==> r.1 == Render(NotFound, UserNotFound(Param(req, "id").value))
    ensures StatusOf(r.1) == Found ==> r.1 == Redirect(UserLocation(req.contextPath, Param(req, "id").value))
  {
    var id := Param(req, "id");
    var name := Param(req, "name");
    if MissingOrBlank(id) then (users, Render(BadRequest, ErrorPage(BadRequestTitle, IdRequired)))
    else match GetUserById(users, id.value)
      case None => (users, Render(NotFound, UserNotFound(id.value)))
      case Some(existing) =>
        var renamed := if MissingOrBlank(name) then existing else SetName(existing, Trim(name.value));
        var (after, updated) := UpdateUser(users, renamed);
        match updated
        case Some(_) => (after, Redirect(UserLocation(req.contextPath, id.value)))
        case None => (after, Render(Ok, Blank))
  }

  /**
    `doDelete`: 400 for a blank identifier, 404 when no user has it,
    otherwise the user is deleted and the answer redirects to the list.
  */
  function DeletePage(users: seq<User>, req: Request): (r: (seq<User>, Reply<View>))
    ensures StatusOf(r.1) == BadRequest <==> MissingOrBlank(IdOf(req))
    ensures StatusOf(r.1) == NotFound <==> !MissingOrBlank(IdOf(req)) && GetUserById(users, IdOf(req).value).None?
    ensures StatusOf(r.1) == Found <==> !MissingOrBlank(IdOf(req)) && GetUserById(users, IdOf(req).value).Some?
    ensures StatusOf(r.1) != Found ==> r.0 == users
    ensures StatusOf(r.1) == NotFound ==> r.1 == Render(NotFound, UserNotFound(IdOf(req).value))
    ensures StatusOf(r.1) == Found ==> r.1 == Redirect(ListLocation(req.contextPath)) && |r.0| == |users| - 1
  {
    var id := IdOf(req);
    if MissingOrBlank(id) then (users, Render(BadRequest, ErrorPage(BadRequestTitle, IdRequired)))
    else match GetUserById(users, id.value)
      case None => (users, Render(NotFound, UserNotFound(id.value)))
      case Some(_) => (DeleteUserById(users, id.value), Redirect(ListLocation(req.contextPath)))
  }

  /** `doPost`: the `_method` parameter picks the handler. */
  function PostPage(users: seq<User>, req: Request, draws: seq<nat>): (r: (seq<User>, Reply<View>))
    requires |draws| == RandomId.DrawsPerChar * RandomId.Length && RandomId.AreDraws(draws)
    ensures Dispatch(Param(req, "_method")) == PutAction ==> r == PutPage(users, req)
    ensures Dispatch(Param(req, "_method")) == DeleteAction ==> r == DeletePage(users, req)
    ensures Dispatch(Param(req, "_method")) == AddAction ==> r == AddPage(users, req, draws)
  {
    match Dispatch(Param(req, "_method"))
    case PutAction => PutPage(users, req)
    case DeleteAction => DeletePage(users, req)
    case AddAction => AddPage(users, req, draws)
  }

  // ---- following the redirect ---------------------------------------------

  /** The `GET` a browser sends for a redirect to `UserLocation(contextPath, id)`. */
  function Follow(id: string, contextPath: string): Request {
    Request(Some("/" + id), map[], contextPath)
  }

  /** The `GET` a browser sends for a redirect to `ListLocation(contextPath)`. */
  function FollowList(contextPath: string): Request {
    Request(None, map[], contextPath)
  }

  /**
    Following the redirect of a successful update shows the user under the
    identifier as given, with the new name when one was given.
  */
  lemma PutThenFollow(users: seq<User>, req: Request)
    requires StatusOf(PutPage(users, req).1) == Found
    ensures var id := Param(req, "id").value;
            var name := Param(req, "name");
            var before := GetUserById(users, id).value;
            GetPage(PutPage(users, req).0, Follow(id, req.contextPath))
            == Render(Ok, UserDetail(User(id, if MissingOrBlank(name) then before.name else Trim(name.value))))
  {
    var id := Param(req, "id").value;
    var name := Param(req, "name");
    var before := GetUserById(users, id).value;
    var renamed := if MissingOrBlank(name) then before else SetName(before, Trim(name.value));
    UserRepository.UpdateThenGet(users, renamed);
    NotBlankIsPresent(Param(req, "id"));
    PathWins(id, map[], req.contextPath, "id");
  }

  /** Following the redirect of a successful creation lists every user, the new one last. */
  lemma AddThenFollow(users: seq<User>, req: Request, draws: seq<nat>)
    requires |draws| == RandomId.DrawsPerChar * RandomId.Length && RandomId.AreDraws(draws)
    requires StatusOf(AddPage(users, req, draws).1) != BadRequest
    ensures var after := AddPage(users, req, draws).0;
            GetPage(after, FollowList(req.contextPath)) == Render(Ok, UserList(after))
            && after == users + [User(RandomId.IdOf(draws), Trim(Param(req, "name").value))]
  {
  }

  /**
    With distinct identifiers, following the redirect of a successful
    delete lists the users without the deleted one, the others in order.
  */
  lemma DeleteThenFollow(users: seq<User>, req: Request)
    requires IdsDistinct(users)
    requires StatusOf(DeletePage(users, req).1) == Found
    ensures var id := IdOf(req).value;
            var after := DeletePage(users, req).0;
            GetPage(after, FollowList(req.contextPath)) == Render(Ok, UserList(after))
            && GetUserById(after, id).None?
            && Others(after, UserId, id) == Others(users, UserId, id)
  {
    UserRepository.DeleteThenGet(users, IdOf(req).value);
  }
}

=== FILE: user_repository.dfy ===
/** `UserRepository`: the users in insertion order; `getUsers` is the list itself. */
module UserRepository {
  import opened Optional
  import opened SeqStore
  import opened Users
  import RandomId

  function UserId(u: User): string {
    u.id
  }

  /** The repository as constructed: no users. */
  const Empty: seq<User> := []

  /** `getUserById`: the first user with the identifier, or `null`. */
  function GetUserById(users: seq<User>, id: string): (r: Option<User>)
    ensures r.None? <==> forall i :: 0 <= i < |users| ==> users[i].id != id
    ensures r.Some? ==> exists i :: 0 <= i < |users| && users[i] == r.value && users[i].id == id
                                    && forall j :: 0 <= j < i ==> users[j].id != id
  {
    Find(users, UserId, id)
  }

  /** `createUser`: a new user with the name and a random identifier, appended at the end. */
  function CreateUser(users: seq<User>, draws: seq<nat>, name: string): (r: (seq<User>, User))
    requires |draws| == RandomId.DrawsPerChar * RandomId.Length && RandomId.AreDraws(draws)
    ensures r.0 == users + [r.1]
    ensures RandomId.IsId(r.1.id) && r.1.name == name
  {
    var u := NewUser(draws, name);
    (users + [u], u)
  }

  /**
    `updateUser`: the first user with the same identifier is replaced and the
    new user returned; with none, nothing changes and the result is `null`.
  */
  function UpdateUser(users: seq<User>, user: User): (r: (seq<User>, Option<User>))
    ensures |r.0| == |users|
    ensures r.1.Some? <==> exists i :: 0 <= i < |users| && users[i].id == user.id
    ensures r.1.None? ==> r.0 == users
    ensures r.1.Some? ==> r.1.value == user
    ensures r.1.Some? ==> exists i :: 0 <= i < |users| && users[i].id == user.id
                                      && (forall j :: 0 <= j < i ==> users[j].id != user.id)
                                      && r.0 == users[i := user]
  {
    Update(users, UserId, user)
  }

  /** `deleteUserById`: the last user with the identifier is removed; otherwise nothing changes. */
  function DeleteUserById(users: seq<User>, id: string): (r: seq<User>)
    ensures (forall i :: 0 <= i < |users| ==> users[i].id != id) ==> r == users
    ensures (exists i :: 0 <= i < |users| && users[i].id == id) ==> |r| == |users| - 1
    ensures (exists i :: 0 <= i < |users| && users[i].id == id) ==>
              exists i :: 0 <= i < |users| && users[i].id == id
                          && (forall j :: i < j < |users| ==> users[j].id != id)
                          && r == users[..i] + users[i + 1..]
  {
    DeleteLast(users, UserId, id)
  }

  // ---- how the operations relate ------------------------------------------

  /** No two users share an identifier. */
  predicate IdsDistinct(users: seq<User>) {
    KeysDistinct(users, UserId)
  }

  /**
    A created user whose identifier is new is found by it, every user found
    before is still found, and the identifiers stay distinct.
  */
  lemma CreateThenGet(users: seq<User>, draws: seq<nat>, name: string, id: string)
    requires |draws| == RandomId.DrawsPerChar * RandomId.Length && RandomId.AreDraws(draws)
    requires GetUserById(users, CreateUser(users, draws, name).1.id).None?
    ensures var (r, u) := CreateUser(users, draws, name);
            GetUserById(r, u.id) == Some(u)
            && (GetUserById(users, id).Some? ==> GetUserById(r, id) == GetUserById(users, id))
            && (IdsDistinct(users) ==> IdsDistinct(r))
  {
    var (r, u) := CreateUser(users, draws, name);
    AppendFind(users, UserId, u, u.id);
    AppendFind(users, UserId, u, id);
    if IdsDistinct(users) {
      AppendKeepsDistinct(users, UserId, u);
    }
  }

  /**
    After a successful update the user is found under its identifier, the
    other users are untouched and the identifiers stay distinct.
  */
  lemma UpdateThenGet(users: seq<User>, user: User)
    requires UpdateUser(users, user).1.Some?
    ensures GetUserById(UpdateUser(users, user).0, user.id) == Some(user)
    ensures Others(UpdateUser(users, user).0, UserId, user.id) == Others(users, UserId, user.id)
    ensures IdsDistinct(users) ==> IdsDistinct(UpdateUser(users, user).0)
  {
    UpdateFind(users, UserId, user);
    UpdateKeepsOthers(users, UserId, user);
    if IdsDistinct(users) {
      UpdateKeepsDistinct(users, UserId, user);
    }
  }

  /** With distinct identifiers, a deleted user is no longer found and the rest keep their order. */
  lemma DeleteThenGet(users: seq<User>, id: string)
    requires IdsDistinct(users)
    ensures GetUserById(DeleteUserById(users, id), id).None?
    ensures IdsDistinct(DeleteUserById(users, id))
    ensures Others(DeleteUserById(users, id), UserId, id) == Others(users, UserId, id)
  {
    DeleteGone(users, UserId, id);
    DeleteKeepsDistinct(users, UserId, id);
    DeleteLastEffect(users, UserId, id);
  }
}

=== FILE: user_servlet.dfy ===
/**
  The JSON `UserServlet`. `doGet` and `doDelete` take the identifier from
  the path segment, else from the `id` parameter; `doPut` reads only the
  `id` parameter; `doPost` takes the `name` parameter and draws a fresh
  identifier.
*/
module UserServlet {
  import opened Optional
  import opened Text
  import opened Json
  import opened Http
  import opened SeqStore
  import opened Users
  import opened UserRepository
  import RandomId

  const NameRequired: string := "{\"error\":\"Bad Request\",\"message\":\"Name parameter is required.\"}"
  const IdRequired: string := "{\"error\":\"Bad Request\",\"message\":\"ID parameter is required.\"}"

  /** The body of a 404: the identifier as received, escaped. */
  function UserNotFound(id: string): string {
    "{\"error\":\"User not found\",\"message\":\"User with ID " + EscapeJson(Some(id)) + " does not exist.\"}"
  }

  /** The body of a successful delete. */
  function UserDeleted(id: string): string {
    "{\"message\":\"User deleted successfully\",\"id\":\"" + EscapeJson(Some(id)) + "\"}"
  }

  /** `toJsonArray` over the users. */
  function UsersJson(users: seq<User>): string {
    ToJsonArray(seq(|users|, i requires 0 <= i < |users| => Users.ToJson(users[i])))
  }

  /** The identifier `doGet` and `doDelete` work on. */
  function IdOf(req: Request): Option<string> {
    ResolveId(req, "id")
  }

  /** `doGet`: with a non-empty identifier, that user or 404; without one, every user. */
  function Get(users: seq<User>, req: Request): (r: Response)
    ensures r.status == NotFound <==> Present(IdOf(req)) && GetUserById(users, IdOf(req).value).None?
    ensures r.status != NotFound ==> r.status == Ok
    ensures !Present(IdOf(req)) ==> r.body == UsersJson(users)
  {
    var id := IdOf(req);
    if Present(id) then
      match GetUserById(users, id.value)
      case Some(u) => Response(Ok, Users.ToJson(u))
      case None => Response(NotFound, UserNotFound(id.value))
    else Response(Ok, UsersJson(users))
  }

  /** A found user is answered with its JSON: reading the body back gives that user. */
  lemma GetFound(users: seq<User>, req: Request)
    requires Present(IdOf(req)) && GetUserById(users, IdOf(req).value).Some?
    ensures var u := GetUserById(users, IdOf(req).value).value;
            Get(users, req).status == Ok
            && u.id == IdOf(req).value
            && Users.Parse(Get(users, req).body) == Some((u, ""))
  {
    var u := GetUserById(users, IdOf(req).value).value;
    Users.JsonRoundTrip(u, "");
    assert Users.ToJson(u) + "" == Users.ToJson(u);
  }

  /**
    `doPost`: 400 for a blank name; otherwise a user with the trimmed name
    and a fresh identifier is appended and its JSON returned with 201.
  */
  function Post(users: seq<User>, req: Request, draws: seq<nat>): (r: (seq<User>, Response))
    requires |draws| == RandomId.DrawsPerChar * RandomId.Length && RandomId.AreDraws(draws)
    ensures r.1.status == BadRequest <==> MissingOrBlank(Param(req, "name"))
    ensures r.1.status != BadRequest ==> r.1.status == Created
    ensures r.1.status == BadRequest ==> r.0 == users
    ensures r.1.status == Created ==>
              exists u: User :: Users.Parse(r.1.body) == Some((u, "")) && r.0 == users + [u]
                                && RandomId.IsId(u.id) && u.name == Trim(Param(req, "name").value)
  {
    var name := Param(req, "name");
    if MissingOrBlank(name) then (users, Response(BadRequest, NameRequired))
    else
      var (after, u) := CreateUser(users, draws, Trim(name.value));
      Users.JsonRoundTrip(u, "");
      assert Users.ToJson(u) + "" == Users.ToJson(u);
      (after, Response(Created, Users.ToJson(u)))
  }

  /**
    `doPut`: 400 for a blank `id` parameter, 404 when no user has it;
    otherwise the user is renamed to the trimmed name (kept when the name
    is missing or blank), stored back, and its JSON returned with 200.
  */
  function Put(users: seq<User>, req: Request): (r: (seq<User>, Response))
    ensures r.1.status == BadRequest <==> MissingOrBlank(Param(req, "id"))
    ensures r.1.status == NotFound <==> !MissingOrBlank(Param(req, "id")) && GetUserById(users, Param(req, "id").value).None?
    ensures r.1.status == Ok <==> !MissingOrBlank(Param(req, "id")) && GetUserById(users, Param(req, "id").value).Some?
    ensures r.1.status != Ok ==> r.0 == users
    ensures r.1.status == Ok ==> |r.0| == |users|
  {
    var id := Param(req, "id");
    var name := Param(req, "name");
    if MissingOrBlank(id) then (users, Response(BadRequest, IdRequired))
    else match GetUserById(users, id.value)
      case None => (users, Response(NotFound, UserNotFound(id.value)))
      case Some(existing) =>
        var renamed := if MissingOrBlank(name) then existing else SetName(existing, Trim(name.value));
        var (after, updated) := UpdateUser(users, renamed);
        match updated
        case Some(v) => (after, Response(Ok, Users.ToJson(v)))
        case None => (after, Response(Ok, ""))
  }

  /** The user `doPut` writes: the one found, renamed when a name is given. */
  function Renamed(users: seq<User>, req: Request): User
    requires Put(users, req).1.status == Ok
  {
    var existing := GetUserById(users, Param(req, "id").value).value;
    var name := Param(req, "name");
    if MissingOrBlank(name) then existing else SetName(existing, Trim(name.value))
  }

  /**
    `doDelete`: 400 for a blank identifier, 404 when no user has it,
    otherwise the user is deleted and 200 returned.
  */
  function Delete(users: seq<User>, req: Request): (r: (seq<User>, Response))
    ensures r.1.status == BadRequest <==> MissingOrBlank(IdOf(req))
    ensures r.1.status == NotFound <==> !MissingOrBlank(IdOf(req)) && GetUserById(users, IdOf(req).value).None?
    ensures r.1.status == Ok <==> !MissingOrBlank(IdOf(req)) && GetUserById(users, IdOf(req).value).Some?
    ensures r.1.status != Ok ==> r.0 == users
    ensures r.1.status == Ok ==> |r.0| == |users| - 1
  {
    var id := IdOf(req);
    if MissingOrBlank(id) then (users, Response(BadRequest, IdRequired))
    else match GetUserById(users, id.value)
      case None => (users, Response(NotFound, UserNotFound(id.value)))
      case Some(_) => (DeleteUserById(users, id.value), Response(Ok, UserDeleted(id.value)))
  }

  // ---- requests in sequence ---------------------------------------------

  /** A `GET` of `/id`. */
  function GetOf(id: string, contextPath: string): Request {
    Request(Some("/" + id), map[], contextPath)
  }

  /**
    A created user whose identifier no other user has is answered by a
    `GET` of that identifier, and the users found before are still found.
  */
  lemma PostThenGet(users: seq<User>, req: Request, draws: seq<nat>, other: string)
    requires |draws| == RandomId.DrawsPerChar * RandomId.Length && RandomId.AreDraws(draws)
    requires Post(users, req, draws).1.status == Created
    requires GetUserById(users, RandomId.IdOf(draws)).None?
    ensures var (after, resp) := Post(users, req, draws);
            var u := User(RandomId.IdOf(draws), Trim(Param(req, "name").value));
            Users.Parse(resp.body) == Some((u, ""))
            && Get(after, GetOf(u.id, req.contextPath)).status == Ok
            && Users.Parse(Get(after, GetOf(u.id, req.contextPath)).body) == Some((u, ""))
            && (GetUserById(users, other).Some? ==> GetUserById(after, other) == GetUserById(users, other))
  {
    var name := Trim(Param(req, "name").value);
    var u := User(RandomId.IdOf(draws), name);
    CreateThenGet(users, draws, name, other);
    PathWins(u.id, map[], req.contextPath, "id");
    GetFound(Post(users, req, draws).0, GetOf(u.id, req.contextPath));
  }

  /**
    The update always finds the user it looked up, so a `PUT` answered 200
    has stored the renamed user: a `GET` of the identifier answers it, the
    other users are untouched, and identifiers stay distinct.
  */
  lemma PutThenGet(users: seq<User>, req: Request)
    requires Put(users, req).1.status == Ok
    ensures var (after, resp) := Put(users, req);
            var id := Param(req, "id").value;
            var u := Renamed(users, req);
            u.id == id
            && Users.Parse(resp.body) == Some((u, ""))
            && Get(after, GetOf(id, req.contextPath)).status == Ok
            && Users.Parse(Get(after, GetOf(id, req.contextPath)).body) == Some((u, ""))
            && Others(after, UserId, id) == Others(users, UserId, id)
            && (IdsDistinct(users) ==> IdsDistinct(after))
  {
    var id := Param(req, "id").value;
    var u := Renamed(users, req);
    UserRepository.UpdateThenGet(users, u);
    Users.JsonRoundTrip(u, "");
    assert Users.ToJson(u) + "" == Users.ToJson(u);
    NotBlankIsPresent(Param(req, "id"));
    PathWins(id, map[], req.contextPath, "id");
    GetFound(Put(users, req).0, GetOf(id, req.contextPath));
  }

  /** A `PUT` that gives the identifier only in the path is a bad request. */
  lemma PutIgnoresPath(users: seq<User>, id: string, params: map<string, string>, contextPath: string)
    requires "id" !in params
    ensures Put(users, Request(Some("/" + id), params, contextPath)) == (users, Response(BadRequest, IdRequired))
  {
  }

  /**
    With distinct identifiers, after a successful `DELETE` a `GET` of the
    same identifier answers 404 and the other users are untouched.
  */
  lemma DeleteThenGet(users: seq<User>, req: Request)
    requires IdsDistinct(users)
    requires Delete(users, req).1.status == Ok
    ensures var id := IdOf(req).value;
            var after := Delete(users, req).0;
            Get(after, GetOf(id, req.contextPath)).status == NotFound
            && Others(after, UserId, id) == Others(users, UserId, id)
  {
    var id := IdOf(req).value;
    UserRepository.DeleteThenGet(users, id);
    PathWins(id, map[], req.contextPath, "id");
  }
}
